=== FILE: README.md ===
# piilop core in Dafny

A model of the scheduling and resource-bookkeeping core of piilop, a
TypeScript orchestrator for integration tests, with proofs of its
properties. It covers:

- the object-subset matcher that decides whether a cached resource record
  satisfies a set of create arguments;
- the wrap protocol: a test function becomes one that opens a named child
  frame on the test context, always closes it, and is never wrapped twice;
- the test context: a thread's start/finish event log with breadcrumb
  replay, a stack of frames with alias-suppressed start and finish events,
  multi-level `defer`, and `run`'s passed/failed/skipped classification;
- resource managers: a state bag of active records and an append-only
  deleted history. Records are found with a modifier, created on a miss,
  moved to the deleted history by `id`, locked and released, and have
  dependent tags removed. A registry keys the managers by resource name,
  with save and load;
- the test registry: uniquely named entries with suite, priority and
  dependency tokens, plus the generated create and delete tests of a
  resource manager;
- `createRunnerList`: dependency tokens resolved to edges (inverted towards
  `Priority.Last` entries), Kahn's topological sort with a FIFO ready
  queue, the cycle check and the length check;
- `TestMain`: the sorted plan filtered by a name prefix, then run in order
  by one worker or printed.

Modules follow the source files:

| module | file | source |
|---|---|---|
| `ObjectEquality` | objectequality.dfy | piilop/piilop/core/objectEquality.ts |
| `Base` | base.dfy | piilop/piilop/core/base.ts |
| `Context` | context.dfy | piilop/naf/runner/runner.ts, lines 20-232 |
| `Resources` | resources.dfy | piilop/naf/core/resources.ts |
| `Registry` | registry.dfy | piilop/naf/core/registry.ts |
| `Sorting` | sorting.dfy | piilop/naf/core/sorting.ts |
| `Runner` | runner.dfy | piilop/naf/runner/runner.ts, lines 234-350 |

JavaScript values are modelled by the datatype `Val`: undefined, null,
booleans, integers, NaN, strings and object references. Objects are maps
from keys to values. A missing key reads as `undefined`, and strict
equality makes `NaN !== NaN`.

Test bodies and other closures cannot be inspected, so each gets a
datatype:

- a user test body (`Fn`) is a short script of steps (log a line, defer a
  callback, call another test function, throw, await a resource
  operation). `Exec` gives its meaning, and `TestContext.Invoke` is proved
  to behave as `Exec` says;
- an awaited resource operation takes the next `Answer` from a queue the
  test context is given: the names of the frames the operation opened and
  closed, and whether it resolved or threw. The body goes on or throws
  accordingly. `RunCreateTest`, `RunManagedCreateTest` and
  `RunDeleteTest` state which answer each generated test's operation
  gives, and what it does to the manager;
- a deferred callback (`Callback`) is a token. Running it records it, and
  a `Note` callback also appends its line to the test log. A
  `PostModify` callback is the release `findState` defers: it holds the
  record itself, and `ResourceManager.EndAndRelease` applies its modifier
  to that record when the frame ends;
- a state modifier (`Modifier`) is one of the four kinds the core uses;
- the outcome of a user create or delete function is a parameter of the
  operation that calls it.

`TestContext`, `TestStack`, `State`, `StateBag`, `ResourceManager`,
`ResourceManagerRegistry`, `TestRegistry` and `TestMain` are classes whose
methods change their fields in place. Each method's contract ties the new
state to a function of the old one. The topological sort works on
position-indexed adjacency lists, like the source's runner items.

Where the code and the project's own description differ, the model
follows the code, except for `StateBag.delete` (see "## Findings"):
`StateBag.Delete`, `ResourceManager.Delete`, `GetOrCreateAndDelete`,
`DeleteAndRelease` and `RunDeleteTest` use the corrected delete, and the
splice as written is modelled only by `AfterDeleteAsWritten`. Otherwise:

- `run` decides between "failed" and "skipped" by comparing the length
  of the event log, not the `depth` counter;
- the root context keeps a deferred callback whatever level is left;
- the root's `end` runs its deferred callbacks and then throws;
- a wrapped call's `end` records a "passed" finish even when the body
  threw;
- `runTest` starts at most one worker, whatever the worker count.

## Model

| member | source | states |
|---|---|---|
| ObjectEquality.ObjectIsSubsetOf | piilop/piilop/core/objectEquality.ts:2-9 | the answer is true iff every key of the subset has a strictly equal value in the superset; on false, a key whose value differs or is missing exists |
| ObjectEquality.EmptyIsSubset | piilop/piilop/core/objectEquality.ts:3-8 | an empty required object is a subset of every object |
| ObjectEquality.ExtraKeysIrrelevant | piilop/piilop/core/objectEquality.ts:3-7 | setting a key that the subset lacks never changes the answer |
| ObjectEquality.OneMismatchRefutes | piilop/piilop/core/objectEquality.ts:4-6 | one key whose value differs, or is missing from the superset, makes the answer false |
| ObjectEquality.UndefinedAndNaN | piilop/piilop/core/objectEquality.ts:4 | a required `undefined` is met by a missing key; a required `NaN` is never met |
| Base.Wrap | piilop/piilop/core/base.ts:40-81 | the result is always marked as wrapped; an already-wrapped function comes back unchanged; otherwise the result remembers the function and its naming arguments |
| Base.WrapIdempotent | piilop/piilop/core/base.ts:53 | wrapping a wrapped function again, with any naming arguments, gives the same function |
| Context.TestStack.constructor | piilop/naf/runner/runner.ts:34-40 | a new thread has an empty log and depth 0 |
| Context.TestStack.StartTest | piilop/naf/runner/runner.ts:83-86 | appends exactly one "started" event and raises depth by one |
| Context.TestStack.FinishTest | piilop/naf/runner/runner.ts:88-91 | appends exactly one "finished" event with its status and lowers depth by one |
| Context.TestStack.BreadCrumbs | piilop/naf/runner/runner.ts:42-62 | the loop returns the replay of the log: starts push, a finish pops only its own name, spawns are ignored, and the open names are joined |
| Context.JoinNonEmpty | piilop/naf/runner/runner.ts:53-61 | with non-empty names, the breadcrumb text is the first name alone, and each later name follows " -> " |
| Context.StartFinishCancel | piilop/naf/runner/runner.ts:42-52 | a start followed by the finish of the same name leaves the open names as they were |
| Context.TestContext.constructor | piilop/naf/runner/runner.ts:100-122 | a new root context has no frames, nothing deferred, an empty log, a fresh thread and the given queue of answers |
| Context.TestContext.Log | piilop/naf/runner/runner.ts:157-159 | appends exactly the message to the logs and changes nothing else |
| Context.TestContext.Begin | piilop/naf/runner/runner.ts:128-130 | opens one child frame, and announces a start only when the current name differs (lines 196-206) |
| Context.TestContext.RunCallbacks | piilop/naf/runner/runner.ts:132-136 | runs the callbacks in registration order |
| Context.TestContext.End | piilop/naf/runner/runner.ts:224-231 | a frame announces "passed" unless its parent has the same name, runs its callbacks and returns to its parent; the root runs its callbacks and throws (lines 147-150) |
| Context.TestContext.Defer | piilop/naf/runner/runner.ts:216-222 | each positive level moves the callback one frame up; level 0 keeps it on the current frame; the root keeps it at any level left (lines 143-145) |
| Context.TestContext.Invoke | piilop/piilop/core/base.ts:55-76 | calling a test function on the innermost frame changes the context and settles exactly as the reference semantics `Exec` says |
| Context.TestContext.InvokeSteps | piilop/piilop/core/base.ts:55-76 | running a test body's remaining steps changes the context and settles as the reference semantics of those steps says |
| Context.TestContext.OpenAndClose | piilop/piilop/core/base.ts:59-75 | opening and closing one frame per name, in order, changes the context as the reference `FramesF` says |
| Context.TestContext.Run | piilop/naf/runner/runner.ts:161-189 | the state and outcome are those of the reference semantics of `run` |
| Context.TestContext.Settle | piilop/naf/runner/runner.ts:173-187 | once the body has settled, the new state and outcome are `run`'s finish: "passed" on return, otherwise a breadcrumb line and "failed" or "skipped" by whether the body emitted events |
| Context.ExecSettles | piilop/piilop/core/base.ts:55-76 | every call, returning or throwing, leaves the frame names, the depth and the open breadcrumb names as it found them; logs and events only grow |
| Context.EndedCallbacks | piilop/naf/runner/runner.ts:224-231 | `end` runs exactly these callbacks, after the ones already run: the innermost frame's, or the root's at the root (lines 147-150) |
| Context.FramesSettle | piilop/piilop/core/base.ts:59-75 | frames opened and closed again leave the caller's frames, depth and open breadcrumb names as they were, and use up no answer |
| Context.FramesAppend | piilop/piilop/core/base.ts:59-75 | opening and closing two runs of frames is opening and closing the first, then the second |
| Context.SingleAwait | piilop/naf/core/registry.ts:183-185 | a body that only awaits one operation opens and closes the next answer's frames and resolves or throws as that answer says |
| Context.AwaitSettles | piilop/naf/core/registry.ts:183-185 | an await uses up exactly one answer and settles; with none left it throws and changes nothing |
| Context.EndAfterBegin | piilop/naf/runner/runner.ts:196-231 | a frame opened by `begin` is closed by `end`: the frames return to the caller's, the frame's callbacks run last, and the finish is recorded iff the name differs from the caller's |
| Context.EndShape | piilop/naf/runner/runner.ts:224-231 | after `begin` and any settled body, `end` succeeds, cuts the frames back to the caller's, runs the frame's callbacks after everything the body logged and records the finish iff the name differs from the caller's |
| Context.WrappedCallBalanced | piilop/piilop/core/base.ts:59-75 | an empty resolved name throws with nothing changed; otherwise exactly one frame is opened and closed, start first and "passed" finish last (neither when the name repeats), the frame's callbacks run last, and the body's result or error is the call's |
| Context.RunClassifies | piilop/naf/runner/runner.ts:161-189 | `run` passes the body's result or error through and records exactly one finish: "passed" on return, "failed" when the body threw without emitting an event, "skipped" when it emitted one |
| Context.FinishRunShape | piilop/naf/runner/runner.ts:173-187 | whatever a settled body did, the finish `run` records follows the passed/failed/skipped rule, the outcome passes through, and the whole run settles |
| Context.RunWrappedFailureSkips | piilop/naf/runner/runner.ts:173-187 | a run whose body is a wrapped function announcing its own test is recorded as "skipped", never "failed", when it throws |
| Context.SampleTrace | piilop/tests/core/index.test.ts:129-141 | calling `wrappedS2` with 42 on a fresh context returns "42", logs the five lines in the asserted order with "cleanup time!" last, and records the nested starts and finishes |
| Resources.RemoveFirstCount | piilop/naf/core/resources.ts:415-419 | removing a tag takes exactly one copy when present, keeps every other tag with its multiplicity, and is a no-op when the tag is absent |
| Resources.IndexOf | piilop/naf/core/resources.ts:415 | the index found holds the tag and no earlier entry does; none is found only when the tag is absent |
| Resources.Modified | piilop/naf/core/resources.ts:213-216 | a modifier (keep, lock, add or remove a dependent tag) never changes a record's data; its inverse pairs are `LockRoundTrip` and `DependentRoundTrip` |
| Resources.LockRoundTrip | piilop/naf/core/resources.ts:213-216 | locking an unlocked record and releasing it again restores the record |
| Resources.DependentRoundTrip | piilop/naf/core/resources.ts:411-423 | adding a dependent tag and removing it again keeps the tag multiset, the data and the lock |
| Resources.State.constructor | piilop/naf/core/resources.ts:143-147 | a new record holds the data, no dependents and no lock |
| Resources.State.Apply | piilop/naf/core/resources.ts:148 | applying a modifier in place gives the record the modified view |
| Resources.FirstMatch | piilop/naf/core/resources.ts:52 | the index found matches the search and no earlier record does; none is found only when nothing matches |
| Resources.DeleteConserves | piilop/naf/core/resources.ts:51-60 | the intended delete moves the first match to the end of the history and removes only it, keeping the order of the rest; no match changes nothing; no record is lost or duplicated |
| Resources.DeleteAsWrittenLosesRecords | piilop/naf/core/resources.ts:55-57 | the delete as written agrees when the match is first, but loses at least the record after the match when it sits in the middle |
| Resources.SpliceDeleteLoses | piilop/naf/core/resources.ts:55-57 | the chained splices as written drop both the match and its successor when the match is neither first nor last |
| Resources.StateBag.constructor | piilop/naf/core/resources.ts:35-38 | a new bag has no active and no deleted records |
| Resources.StateBag.Add | piilop/naf/core/resources.ts:40-42 | appends the record and keeps the history |
| Resources.StateBag.Clean | piilop/naf/core/resources.ts:44-49 | hands every active record's data to the deleter, in order, then empties the active list; the history is kept |
| Resources.StateBag.Delete | piilop/naf/core/resources.ts:51-60 | the new lists are the intended delete of the old ones, whose conservation is proved in `DeleteConserves` |
| Resources.StateBag.Get | piilop/naf/core/resources.ts:61-72 | returns the first matching record with the modifier applied to it alone; on no match returns nothing and changes no record; the lists are unchanged |
| Resources.StateBag.List | piilop/naf/core/resources.ts:74-76 | returns the active records |
| Resources.StateBag.Save | piilop/naf/core/resources.ts:83-88 | returns both lists |
| Resources.StateBag.Load | piilop/naf/core/resources.ts:78-81 | sets both lists from the snapshot, so loading a saved snapshot restores them |
| Resources.WrapHandlerIdempotent | piilop/naf/core/resources.ts:395-408 | a wrapped create or delete function is marked, a second wrap changes nothing, and a first wrap keeps the function's name |
| Resources.WrappedHandlerFrame | piilop/naf/core/resources.ts:395-400 | a newly wrapped handler's frame is named by the test-name function of its options; an already-wrapped one keeps its frame |
| Resources.HandlerFrameBalanced | piilop/naf/core/resources.ts:399 | a wrapped create or delete call records one start and one "passed" finish under its name (none when it repeats the caller's) and leaves the frames, callbacks and logs as they were |
| Resources.CallHandler | piilop/naf/core/resources.ts:142 | calling a create or delete function changes the context and settles as the handler semantics say |
| Resources.DefaultLock | piilop/naf/core/resources.ts:213-237 | the default search finds unlocked records whose data contains the create arguments; a record locked in a test is invisible to it until the default release, after which it is found again; at the root the lock is null |
| Resources.ReleaseRunsAtEnd | piilop/naf/core/resources.ts:325-327 | a release deferred at level 0 runs when the current frame ends, after the callbacks deferred before it, so its modifier is the last applied to its record; at the root it runs when the root ends |
| Resources.ReleasedNone | piilop/naf/core/resources.ts:325-327 | callbacks that hold no release of a record leave that record as it was |
| Resources.ReleaseLast | piilop/naf/core/resources.ts:325-327 | the release deferred last is applied to its record after every earlier one |
| Resources.LockReleasedAtEnd | piilop/naf/core/resources.ts:309-327 | a record found unlocked, locked for a test and released when the frame ends, with no other release of it pending, is left exactly as it was found |
| Resources.DeferPending | piilop/naf/runner/runner.ts:216-222 | a callback deferred with level 0 is the last one the current frame's end runs |
| Resources.PendingAfterCreate | piilop/naf/core/resources.ts:136-151 | `create` opens and closes its frames above the current one, so the callbacks the current end runs stay the same |
| Resources.HandlerFramesMeaning | piilop/naf/core/resources.ts:395-400 | the frames of a create or delete function's answer change the context exactly as the call does |
| Resources.CreateFramesMeaning | piilop/naf/core/resources.ts:120-134 | the frames of `create`'s answer change the context exactly as `create` does |
| Resources.SameIdIgnoresLocks | piilop/naf/core/resources.ts:159-161 | the search by `id` depends only on the records' data, not on locks or dependents |
| Resources.ResourceManager.constructor | piilop/naf/core/resources.ts:101-106 | a new manager has its name, no functions and an empty bag |
| Resources.ResourceManager.Clean | piilop/naf/core/resources.ts:108-113 | without a delete function it throws and changes nothing; otherwise every active record's data is handed over and the active list emptied |
| Resources.ResourceManager.Clear | piilop/naf/core/resources.ts:116-118 | replaces the bag with a fresh empty one and keeps both functions |
| Resources.ResourceManager.CreateInternal | piilop/naf/core/resources.ts:136-151 | on success appends exactly one fresh record (data, no dependents, no lock, then the modifier) and returns it; on failure the bag is unchanged; the history is kept |
| Resources.ResourceManager.Create | piilop/naf/core/resources.ts:120-134 | throws without a create function; otherwise as `CreateInternal` with the registered function |
| Resources.ResourceManager.Delete | piilop/naf/core/resources.ts:154-162 | throws without a delete function with nothing changed; if the delete function throws the bag is unchanged; otherwise the record with the same `id` moves to the history |
| Resources.ResourceManager.GetOrCreate0 | piilop/naf/core/resources.ts:183-195 | a match is returned, modified, with nothing created and the context untouched; otherwise exactly one record is created; no other record changes |
| Resources.ResourceManager.FindStateManual | piilop/naf/core/resources.ts:199-245 | throws when both searches are given; otherwise finds with the default search and pre-modifier, or creates exactly one record on a miss |
| Resources.ResourceManager.FindStateAndCall | piilop/naf/core/resources.ts:249-288 | the post-modifier (by default the release) is applied whether the call returns or throws, and its outcome passes through; a delete call moves the record to the history only when the delete function returns |
| Resources.ResourceManager.CallAndRelease | piilop/naf/core/resources.ts:280-287 | the user call's effect is applied, then the post-modifier, on both paths; its outcome passes through |
| Resources.ResourceManager.DeleteAndRelease | piilop/naf/core/resources.ts:280-287 | when the call deletes the found record, the outcome and the bag change are those of the delete (moving the record with the same `id`), and the post-modifier still runs |
| Resources.ResourceManager.FindState | piilop/naf/core/resources.ts:291-329 | finds or creates as `findStateManual`, then defers at the given level (0 by default) a release holding the record found, instead of running it; the record is in the active list, and the callbacks the current end runs are unchanged by the find |
| Resources.ResourceManager.RunReleases | piilop/naf/core/resources.ts:325-327 | each release among the callbacks applies its modifier to the very record it holds, in order; every other record is left alone |
| Resources.ResourceManager.EndAndRelease | piilop/naf/runner/runner.ts:224-231 | the context ends as `end` says (running the frame's callbacks, lines 132-136), and each of the manager's records is left as the releases among those callbacks make it |
| Resources.ResourceManager.EndReleasing | piilop/naf/runner/runner.ts:132-136 | when the frame's last callback is the release of a record, the end applies it after the earlier ones |
| Resources.ResourceManager.FindStateThenEnd | piilop/naf/core/resources.ts:291-329 | `findState` followed by the end of the frame: the record found keeps the locked value until the end, then has the earlier releases and finally the post-modifier (by default the release of the lock) applied |
| Resources.ResourceManager.GetOrCreateAndDelete | piilop/naf/core/resources.ts:164-181 | throws without a delete function; otherwise the record found or created is locked for "delete" and then deleted through the delete function |
| Resources.ResourceManager.RemoveDependent | piilop/naf/core/resources.ts:411-423 | only the first record whose data matches has one copy of the tag removed; every other record is unchanged; no match changes nothing |
| Resources.ResourceManager.RegisterCreateFunc | piilop/naf/core/resources.ts:381-383 | sets the create function and nothing else |
| Resources.ResourceManager.RegisterDeleteFunc | piilop/naf/core/resources.ts:385-387 | sets the delete function and nothing else |
| Resources.ResourceManager.RegisterWrappedCreateFunc | piilop/naf/core/resources.ts:395-400 | sets the create function, wrapped with the test-name function |
| Resources.ResourceManager.RegisterWrappedDeleteFunc | piilop/naf/core/resources.ts:403-408 | sets the delete function, wrapped with the test-name function |
| Resources.ResourceManager.Save | piilop/naf/core/resources.ts:425-427 | returns the bag's two lists |
| Resources.ResourceManager.Load | piilop/naf/core/resources.ts:377-379 | sets the bag's two lists from the snapshot |
| Resources.DeleterMissing | piilop/naf/core/resources.ts:108-113 | the first manager without a delete function, if any |
| Resources.FirstMissing | piilop/naf/core/resources.ts:494-500 | the first name missing from the input, if any |
| Resources.CleanInOrder | piilop/naf/core/resources.ts:457-462 | cleans the managers in order until the first without a delete function, which throws; later managers are untouched; histories are kept |
| Resources.CleanAt | piilop/naf/core/resources.ts:457-462 | cleaning one manager empties its active list or throws for a missing delete function, and leaves every other manager's bag and every history as it was |
| Resources.ClearInOrder | piilop/naf/core/resources.ts:465-469 | every manager gets a fresh empty bag and keeps its functions |
| Resources.LoadInOrder | piilop/naf/core/resources.ts:493-503 | loads the managers in order until the first whose name is missing, which throws; later managers are untouched |
| Resources.IndexSlot | piilop/naf/core/resources.ts:453 | a new array-index key goes after the index keys of no larger value and before every other key |
| Resources.AddKey | piilop/naf/core/resources.ts:453 | adding a key keeps a plain object's key order (array indices first, ascending, then the rest): the new key is inserted once, a non-index key goes last, the old keys keep their relative order, and distinct keys stay distinct |
| Resources.SlotOrdered | piilop/naf/core/resources.ts:453 | an array index inserted at its slot keeps the key order |
| Resources.IndexKeyFirst | piilop/naf/core/resources.ts:453-462 | after defining "b" and then "0", `Object.entries` visits "0" first |
| Resources.ResourceManagerRegistry.constructor | piilop/naf/core/resources.ts:442-444 | a new registry has no managers |
| Resources.ResourceManagerRegistry.New | piilop/naf/core/resources.ts:446-455 | throws on a name already defined with nothing changed; otherwise adds one fresh empty manager under the name, and the name joins the visiting order where `Object.entries` lists it (`AddKey`) |
| Resources.ResourceManagerRegistry.Get | piilop/naf/core/resources.ts:471-478 | the manager under the name, or none |
| Resources.ResourceManagerRegistry.Clean | piilop/naf/core/resources.ts:457-462 | as `CleanInOrder` over the managers in the order `Object.entries` visits the names: array-index names first by value, then the others in definition order |
| Resources.ResourceManagerRegistry.Clear | piilop/naf/core/resources.ts:465-469 | every manager gets a fresh empty bag, and no delete function is called |
| Resources.ResourceManagerRegistry.Load | piilop/naf/core/resources.ts:493-503 | in the order `Object.entries` visits the names (array-index names first by value, then the others in definition order), each manager before the first name missing from the data adopts its saved lists, that name throws, and every other manager keeps its lists |
| Resources.ResourceManagerRegistry.Save | piilop/naf/core/resources.ts:505-511 | one key per registered manager, holding its two lists |
| Resources.ResourceManagerRegistry.SavedDataLoads | piilop/naf/core/resources.ts:493-511 | data that covers every registered name, as `save` produces, never makes `load` throw |
| Registry.RegisteredAll | piilop/naf/core/registry.ts:158-167 | each registered entry keeps its fields and has its function wrapped under its own name |
| Registry.RegisterAllKeepsNamesUnique | piilop/naf/core/registry.ts:235-244 | registering keeps names unique; entries are appended in order until the first duplicate, which throws naming it |
| Registry.RegisterAllShape | piilop/naf/core/registry.ts:235-244 | registering a list appends the new entries in order, and succeeds exactly when all of them were appended |
| Registry.RegisterAllFailure | piilop/naf/core/registry.ts:235-244 | when registering throws, the name it reports is already registered and the message is the duplicate-name error |
| Registry.RegisterAllDistinct | piilop/naf/core/registry.ts:235-244 | distinct names stay distinct after registering |
| Registry.CreateEntries | piilop/naf/core/registry.ts:181-193 | one create entry per option, in option order, named by the name function, carrying the given dependencies, priority and suite, whose function awaits `create` with that option (its run: `CreateTestAnswered`) |
| Registry.DeleteEntries | piilop/naf/core/registry.ts:209-232 | one delete entry per option, in option order, likewise, whose function awaits the deletable find and delete for that option (its run: `DeleteTestAnswered`) |
| Registry.ManagedCreateEntries | piilop/naf/core/registry.ts:92-108 | one create entry per test case, with priority Normal and the resource name as suite, whose function awaits `createInternal` with the create function as given (its run: `ManagedCreateTestAnswered`) |
| Registry.CreateTestAnswered | piilop/naf/core/registry.ts:181-193 | running generated create test `i` where `create` is answered as the manager's create function settles leaves the context as `create` does and throws exactly when `create` throws (resources.ts:125-133), with its error |
| Registry.ManagedCreateTestAnswered | piilop/naf/core/registry.ts:92-108 | running create test `i` of `newResourceManager` leaves the context as the create function's call does and throws exactly when it throws |
| Registry.DeleteTestAnswered | piilop/naf/core/registry.ts:209-232 | running generated delete test `i` opens and closes its answer's frames and throws exactly when the answer does, with its error |
| Registry.GeneratedTestUnanswered | piilop/naf/core/registry.ts:183-185 | with no answer left, a generated test throws and changes nothing |
| Registry.DeleteAnswer | piilop/naf/core/registry.ts:211-223 | the delete test's answer: `create`'s frames when the search found no record, then the delete function's frames when a record was found; it throws exactly when the find or the delete throws, or no delete function is set |
| Registry.TestRegistry.constructor | piilop/naf/core/registry.ts:40-44 | a new registry has no entries, no names and an empty resource registry |
| Registry.TestRegistry.Find | piilop/naf/core/registry.ts:46-53 | returns the entry with that name, or none exactly when the name is not registered |
| Registry.TestRegistry.RegisterUnwrapped | piilop/naf/core/registry.ts:235-244 | throws on a duplicate name with entries and names unchanged; otherwise appends the entry and its name |
| Registry.TestRegistry.Register | piilop/naf/core/registry.ts:158-167 | as registering one entry, and the stored entry has its function wrapped under its name |
| Registry.TestRegistry.RegisterAll | piilop/naf/core/registry.ts:181-193 | registers the entries in order, stopping at the first duplicate |
| Registry.TestRegistry.RegisterCreateTests | piilop/naf/core/registry.ts:173-194 | registers the create entries of the options in order |
| Registry.TestRegistry.RegisterDeleteTests | piilop/naf/core/registry.ts:201-233 | registers the delete entries of the options in order |
| Registry.TestRegistry.NewResourceRegistry | piilop/naf/core/registry.ts:63-67 | throws on a resource name already defined; otherwise adds a fresh manager |
| Registry.TestRegistry.NewResourceManager | piilop/naf/core/registry.ts:70-144 | a fresh manager with the wrapped create function, its create tests (Normal), then the delete function and its delete tests (Last), each under the resource name as suite |
| Registry.RunCreateTest | piilop/naf/core/registry.ts:183-185 | a generated create test appends one fresh record on success and leaves the bag as it was on failure |
| Registry.RunManagedCreateTest | piilop/naf/core/registry.ts:93-100 | the create test of `newResourceManager` calls `createInternal` with the given create function |
| Registry.RunDeleteTest | piilop/naf/core/registry.ts:211-223 | a generated delete test picks an unused, unlocked record matching the options (or creates one), deletes it through the manager, and changes no other record; its context change and outcome are those of the answer `DeleteAnswer` describes, created only when no record matched |
| Sorting.Empty | piilop/naf/core/sorting.ts:22-28 | every item starts with no edges |
| Sorting.Push | piilop/naf/core/sorting.ts:30-40 | recording one wait keeps every list's positions within the runner items |
| Sorting.Link | piilop/naf/core/sorting.ts:30-40 | `dependsOn` keeps every position within the runner items, whichever way it points the edge |
| Sorting.PushFacts | piilop/naf/core/sorting.ts:30-40 | adding one edge keeps each wait paired with one dependent entry and adds exactly that edge |
| Sorting.ScanCandidates | piilop/naf/core/sorting.ts:47-59 | scanning one token keeps every position within the runner items (its exact edges: `ScanCandidatesEdges`) |
| Sorting.ScanTokens | piilop/naf/core/sorting.ts:45-65 | scanning the tokens keeps every position within the runner items (its exact edges: `ScanTokensEdges`) |
| Sorting.LinkLast | piilop/naf/core/sorting.ts:66-72 | anchoring a Last entry keeps every position within the runner items |
| Sorting.BuildFrom | piilop/naf/core/sorting.ts:41-73 | building from one entry on keeps every position within the runner items |
| Sorting.BuildGraph | piilop/naf/core/sorting.ts:21-73 | a built graph only holds positions of runner items (its meaning: `BuildGraphMeaning`) |
| Sorting.ScanCandidatesEdges | piilop/naf/core/sorting.ts:47-59 | scanning for one token adds exactly the edges of the other entries it matches, by suite or name prefix, and reports whether any matched |
| Sorting.ScanTokensEdges | piilop/naf/core/sorting.ts:45-65 | the tokens add exactly their matched edges; it throws iff some token matches nothing, with the message for the first such token |
| Sorting.LinkLastPaired | piilop/naf/core/sorting.ts:66-72 | anchoring a Last entry keeps the lists paired |
| Sorting.LinkLastHas | piilop/naf/core/sorting.ts:66-72 | a Last entry waits for exactly the non-Last entries added |
| Sorting.BuildFromEdges | piilop/naf/core/sorting.ts:41-73 | when building the edges succeeds, it adds exactly the intended ones, each paired with its dependent |
| Sorting.BuildFromFailure | piilop/naf/core/sorting.ts:41-73 | building the edges throws exactly when some token names no entry, and the error names the first such token of the first such entry |
| Sorting.BuildGraphMeaning | piilop/naf/core/sorting.ts:21-73 | after building, `a` waits for `b` iff a token of `a` matches `b` and `b` is not Last, or a token of `b` matches a Last `a`, or `a` is Last and `b` is not; it throws iff some token is unmatched |
| Sorting.BuildEdges | piilop/naf/core/sorting.ts:41-73 | the nested loops build exactly the reference graph or its error |
| Sorting.BuiltSortable | piilop/naf/core/sorting.ts:30-73 | the built lists are paired and never make an entry wait for itself |
| Sorting.FindIndex | piilop/naf/core/sorting.ts:96 | the index found holds the item and no earlier entry does; -1 exactly when absent |
| Sorting.Without | piilop/naf/core/sorting.ts:100-102 | an item remains iff it was listed and is not yet sorted |
| Sorting.DropStep | piilop/naf/core/sorting.ts:96-102 | each splice removes exactly one more copy of the sorted item |
| Sorting.DropAll | piilop/naf/core/sorting.ts:92-110 | removing every copy of the item leaves exactly the items not yet sorted |
| Sorting.Seeds | piilop/naf/core/sorting.ts:78-83 | the first queue holds each item with no waits, once, in input order |
| Sorting.SeedQueue | piilop/naf/core/sorting.ts:78-83 | the loop builds exactly that first queue |
| Sorting.Release | piilop/naf/core/sorting.ts:92-110 | releasing a sorted item leaves every list without it and appends each newly freed item to the queue, exactly as the reference `ReleaseAll` does |
| Sorting.SortOne | piilop/naf/core/sorting.ts:85-111 | one round sorts the head of the queue, keeps the sort invariant and is one step of the reference `FifoStep` |
| Sorting.Kahn | piilop/naf/core/sorting.ts:84-112 | the sorted list and the lists left are exactly the FIFO reference plan `FifoPlan`; the sorted list repeats nothing, respects every wait, starts with the first queue, and leaves an item's list empty iff it was sorted |
| Sorting.FifoAdvance | piilop/naf/core/sorting.ts:85-111 | a round with rounds left takes the reference plan one step on and keeps its shape |
| Sorting.DistinctBelow | piilop/naf/core/sorting.ts:128 | a repetition-free list of positions below `n` has at most `n` items, and exactly `n` when it holds them all |
| Sorting.RootIff | piilop/naf/core/sorting.ts:78-83 | an entry starts with no waits iff it has to follow no entry |
| Sorting.SeedsAreRoots | piilop/naf/core/sorting.ts:78-83 | the first queue is exactly the unconstrained entries in input order |
| Sorting.BuiltOrder | piilop/naf/core/sorting.ts:84-112 | a permutation is a valid run order iff it respects every built wait |
| Sorting.SortedAt | piilop/naf/core/sorting.ts:114-122 | every entry of an order that respects the waits was sorted |
| Sorting.NoRunOrder | piilop/naf/core/sorting.ts:114-122 | an entry still waiting after the sort has to follow its first remaining entry, and then no valid run order exists |
| Sorting.FirstWaiting | piilop/naf/core/sorting.ts:115-122 | finds the first entry still waiting, or none when all lists are empty |
| Sorting.Drained | piilop/naf/core/sorting.ts:128-132 | with no entry waiting, the sorted list holds every entry |
| Sorting.CreateRunnerList | piilop/naf/core/sorting.ts:14-134 | throws the build error, or, exactly when no valid order exists, the cycle error naming the first entry still waiting after the plan and the first entry it still waits for; otherwise returns exactly the FIFO plan of the built graph, a permutation where every entry follows what it must, unconstrained entries first in input order |
| Runner.NamePrefix | piilop/naf/runner/runner.ts:283-287 | the prefix is empty iff the name is absent, empty or "all"; otherwise it is the name |
| Runner.Workers | piilop/naf/runner/runner.ts:305-306 | the count is positive iff it is absent or not negative; a count other than 0 is kept |
| Runner.Select | piilop/naf/runner/runner.ts:294-300 | the selection is no longer than the order and holds only entry positions (membership: `SelectMembers`; order: `SelectInOrder`) |
| Runner.SelectMembers | piilop/naf/runner/runner.ts:295-300 | an entry is selected iff it is in the order and its name starts with the prefix |
| Runner.SelectAll | piilop/naf/runner/runner.ts:283-300 | the empty prefix, and so "all", selects the whole order |
| Runner.SelectInOrder | piilop/naf/runner/runner.ts:294-300 | the selection keeps a run order's guarantees: no entry twice, and each after every selected entry it must follow |
| Runner.Reverse | piilop/naf/runner/runner.ts:302 | each position holds the item at the mirrored position |
| Runner.Pick | piilop/naf/runner/runner.ts:294-300 | the loop keeps exactly the selected entries, in order |
| Runner.RunAllAppend | piilop/naf/runner/runner.ts:313-318 | running two lists in sequence is running the first, then the second from where it left off, unless the first threw |
| Runner.RunAllFails | piilop/naf/runner/runner.ts:313-326 | a failed run fails with the error of one test, after every earlier test returned, and runs nothing after it |
| Runner.TestMain.WorkerLoop | piilop/naf/runner/runner.ts:310-320 | popping the reversed list runs the selected tests in selection order until one throws |
| Runner.TestMain.RunTest | piilop/naf/runner/runner.ts:282-334 | a failed sort throws before anything runs; otherwise the run order is exactly the FIFO plan that `createRunnerList` returns (`FifoPlan`), a valid run order with roots first, and a positive worker count runs exactly the selected tests in that order, while a negative one runs nothing |
| Runner.TestMain.ShowTestList | piilop/naf/runner/runner.ts:336-349 | shows every registered test's name, once each, in exactly the FIFO plan order that `createRunnerList` returns (`FifoPlan`), which is a valid run order; a failed sort throws |
| Runner.TestMain.constructor | piilop/naf/runner/runner.ts:256-268 | keeps the registry and the sorted list, and starts a fresh root context with an empty log and the given answers |
| Runner.NewTestMain | piilop/naf/runner/runner.ts:256-268 | construction throws as the sort does; otherwise the list is the entries in exactly the FIFO plan order that `createRunnerList` returns (`FifoPlan`), a valid run order, and the root context is fresh, with the given answers |

## Left out

- Console output is not modelled: `TestMain.startTest`/`finishTest` with their depth-indented lines, `info` with its `JSON.stringify` lines, the registry's "Cleaning all entries" lines, and the debug logging in the sort.
- `TestContextOpts.onTestStarted`/`onTestFinished` and `TestMain.depth`: they only print, so the context keeps only the thread's event log.
- `TestStack.startChild`, spawn events and `createArbitraryName`: only a multi-worker runner uses them. Spawn events are kept in the log datatype and ignored by the breadcrumb replay.
- Several concurrent workers and `Promise.all` interleaving: `runTest` starts at most one worker, so the model runs the selected tests sequentially.
- The test bodies' argument: the runner calls each test with no argument, which the model passes as the text "undefined".
- Return values of user test bodies: a `Body` returns a fixed result that does not depend on its argument. The sample `s` of index.test.ts returns its argument; `SampleS` returns "42", which agrees only for the argument "42" that the worked trace passes.
- Asynchrony: user create, delete and test functions are modelled by their outcome (a `Result` parameter), not by their own effects.
- Awaited resource operations: inside a test body their effect on the context arrives as an `Answer` given with the context, and a body that awaits with no answer left throws `Unanswered`, which the source cannot do. The model does not check that the answers given match what the managers do; `RunCreateTest`, `RunManagedCreateTest` and `RunDeleteTest` state the answer each operation gives.
- Floating-point numbers: numbers in resource data are integers, plus `NaN`.
- JavaScript prototype keys such as `toString` on plain objects: a missing key reads as `undefined`.
- `findDataAndCall` and `findData` are not separate members: they are `findStateAndCall` and `findState` with the record's `data` taken from the result.
- `getName`, `getEntries`, `getResourceManager` and `showEntries`: accessors and printing.
- `StateBag.clean`'s deleter calls are not awaited in the source; the model states only that every active record's data is handed over, in order, and the active list is emptied.
- Resources.ResourceManagerRegistry.Clean: does not return the data each manager handed to its deleter, because keeping the per-manager lists at the registry level made the proof too costly; `ResourceManager.Clean` states it.
- Registry.RunDeleteTest: states the record it picks, its answer, that it is unlocked afterwards and that other records are unchanged, but not the full new bag.
- Releases are applied by `ResourceManager.EndAndRelease` to that manager's own records, active or deleted. The context's `End` alone only records them in its `ran` list, and a release of another manager's record is applied only by that manager.
- Resources.ResourceManager.FindStateThenEnd: does not state the lock round trip itself, because doing so made its proof too costly; its contract with `LockReleasedAtEnd` gives it.
- A negative `releaseLevel` is not modelled: levels are natural numbers.
- The ordering example of piilop/tests/runner/ordering.test.ts (lines 130-147) is not a lemma: it needs the example resources' registrations, and evaluating the plan on concrete lists is too costly for the verifier. `Kahn` is proved equal to the reference `FifoPlan`, which fixes the exact order.
- Sorting.FifoPlan: runs at most `n` rounds, one per item sorted; since each round sorts a new item, the bound never cuts a plan short.
- Random names (`randomName`), the CLI, file persistence and `JSON.parse` are not part of this model; save and load exchange the lists as values.

## Findings

| source | as written | input that shows it | evidently intended | confidence | as-written member | corrected member |
|---|---|---|---|---|---|---|
| piilop/naf/core/resources.ts:55-57 | `StateBag.delete` builds the new list as `elements.splice(0, index).concat(elements.splice(index + 1, elements.length))`; the first `splice` already removed the first `index` records, so the second one cuts at the wrong place | active records `[a, b, c]` with the search matching `b` (index 1): `b` moves to the history, the active list becomes `[a]`, and `c` is lost | remove only the matched record and keep the others in order (`[a, c]`) | not executed | Resources.DeleteAsWrittenLosesRecords | Resources.DeleteConserves |

=== FILE: base.dfy ===
/**
 * The wrap protocol of the core (`wrap`, `isWrapped`) and the values that
 * stand for the closures the core passes around.
 *
 * JavaScript functions cannot be compared or inspected, so the model gives
 * each kind of closure the core handles a datatype:
 *   - `Fn`: a test function `(ctx, arg) => Promise<string>`, either a user
 *     body written in the small `Step` language or the result of `wrap`;
 *   - `Callback`: a zero-argument callback handed to `ctx.defer`;
 *   - `Modifier`: a `StateModifier` that updates a resource state in place.
 */
module Base {
  import opened ObjectEquality

  datatype Option<+T> = None | Some(value: T)

  /** A settled promise: its value, or the message of the Error it threw. */
  datatype Result<+T> = Success(value: T) | Failure(error: string)

  /** `WrapArgs`: an optional fixed frame name and an optional function that
      derives the frame name from the call's argument, of type `A`. An absent
      `wrapArgs` is `WrapArgs(None, None)`. */
  datatype WrapArgs<-A> = WrapArgs(name: Option<string>, nameFunc: Option<A -> string>)

  /** An operation of a resource manager that a generated create or delete
      test awaits; its effects on the resource manager are modelled by the
      Resources module, not by the context. */
  datatype ResourceOp =
    | CreateInternal(resource: string, options: Obj)
    | CreateVia(resource: string, options: Obj)
    | DeleteUnused(resource: string, options: Obj)

  /** One statement of a user test body. */
  datatype Step =
    | Log(msg: string)                  // push a line onto the test log
    | LogName(prefix: string)           // push prefix + ctx.currentTestName()
    | LogArg(prefix: string)            // push prefix + the body's argument
    | Defer(level: nat, cb: Callback)   // ctx.defer(level, cb)
    | Call(f: Fn, arg: string)          // await f(ctx, arg)
    | Raise(err: string)                // throw new Error(err)
    | Await(op: ResourceOp)             // await a resource manager operation

  /** A test function. `Body` is a user-written async function whose
      JavaScript `.name` is `fname`; it runs `steps` and resolves to
      `result`. `Wrapped` is what `wrap(inner, args)` returns. */
  datatype Fn =
    | Body(fname: string, steps: seq<Step>, result: string)
    | Wrapped(inner: Fn, args: WrapArgs<string>)

  /** A deferred callback. Running `Note(msg)` pushes `msg` onto the test
      log; running `PostModify` applies modifier `m` to the record `target`
      of manager `resource` (the release `findState` registers). The
      context only records that it ran; the records are changed by
      `ResourceManager.RunReleases`. */
  datatype Callback =
    | Note(msg: string)
    | PostModify(resource: string, target: object, m: Modifier)

  /** The state modifiers the core uses: `(_) => {}`, setting `lockedBy`,
      adding a dependent tag, removing one. */
  datatype Modifier =
    | Keep
    | SetLock(owner: Option<string>)
    | AddDependent(tag: string)
    | RemoveDependent(tag: string)

  /** The message `wrap`'s function throws when no frame name resolves. */
  const NameMissing := "name missing for wrapped function!"

  /** `isWrapped`: whether the marker property was set by `wrap`. */
  predicate IsWrapped(f: Fn) {
    f.Wrapped?
  }

  /** A function's JavaScript `.name`. The function `wrap` builds is the
      arrow function bound to `wrappedFn`, so that is its name. */
  function FnName(f: Fn): string {
    match f
    case Body(n, _, _) => n
    case Wrapped(_, _) => "wrappedFn"
  }

  /** The frame name chosen when a wrapped function whose own name is
      `fname` is called with `arg`: `nameFunc(arg)` if a name function is
      given, else `name` if it is a non-empty string (the empty string is
      falsy), else `fname`. */
  function ResolveName<A>(args: WrapArgs<A>, fname: string, arg: A): string {
    if args.nameFunc.Some? then args.nameFunc.value(arg)
    else if args.name.Some? && args.name.value != "" then args.name.value
    else fname
  }

  /** `wrap(fn, wrapArgs)`: an already-wrapped function is returned as it is;
      otherwise the result is marked as wrapped and remembers `fn` and the
      naming arguments. */
  function Wrap(f: Fn, args: WrapArgs<string>): (r: Fn)
    ensures IsWrapped(r)
    ensures IsWrapped(f) ==> r == f
    ensures !IsWrapped(f) ==> r.inner == f && r.args == args
  {
    if IsWrapped(f) then f else Wrapped(f, args)
  }

  /** Wrapping twice is wrapping once, whatever the second naming. */
  lemma WrapIdempotent(f: Fn, a: WrapArgs<string>, b: WrapArgs<string>)
    ensures Wrap(Wrap(f, a), b) == Wrap(f, a)
  {
  }
}

=== FILE: context.dfy ===
/**
 * The execution context of the runner: the event log of one thread
 * (`TestStack`), the root `TestContext` with the chain of
 * `TestContextFrame`s opened on it, and what calling a test function does
 * to them.
 *
 * A root context and its frames are kept together in one `TestContext`
 * object: `frames` lists the open frames from the outermost to the
 * innermost, the parent of `frames[i]` is `frames[i - 1]`, and the parent of
 * `frames[0]` is the root. Frames are strictly nested because `wrap` closes
 * every frame it opens before returning, so the innermost frame is always
 * the one the running code holds.
 *
 * `Config` is the value of the whole object; the `...F` functions and
 * `Exec` say what each operation does to it, and the methods of the class
 * are proved to do exactly that.
 */
module Context {
  import opened Base

  datatype Status = Passed | Failed | Skipped

  /** One entry of a thread's event log. */
  datatype StackItem =
    | Started(testName: string)
    | Finished(testName: string, status: Status)
    | Spawn(childName: string)

  /** An open frame: its test name and the callbacks deferred onto it. */
  datatype Frame = Frame(name: string, deferred: seq<Callback>)

  /** How the outside world settles one awaited resource operation: the
      names of the frames that the wrapped create or delete functions it
      calls open and close again, in order, and whether it resolves or
      throws. */
  datatype Answer = Answer(frames: seq<string>, outcome: Result<()>)

  /** The observable state of a root context, its frames and its thread,
      with the answers still to come for the operations the tests await. */
  datatype Config = Config(
    rootDeferred: seq<Callback>,
    frames: seq<Frame>,
    items: seq<StackItem>,
    depth: int,
    ran: seq<Callback>,
    logs: seq<string>,
    answers: seq<Answer>)

  // ---------------------------------------------------------------------
  // Breadcrumbs

  /** Replays one event onto the list of open names: a start pushes its
      name, a finish pops only if the innermost open name is its own, a
      spawn is ignored. */
  function Replay(open: seq<string>, item: StackItem): seq<string> {
    match item
    case Started(n) => open + [n]
    case Finished(n, _) =>
      if |open| > 0 && open[|open| - 1] == n then open[..|open| - 1] else open
    case Spawn(_) => open
  }

  /** The names still open after replaying `items` from the start. */
  function OpenNames(items: seq<StackItem>): seq<string> {
    if items == [] then [] else Replay(OpenNames(items[..|items| - 1]), items[|items| - 1])
  }

  /** Appends one crumb: the first one that makes the text non-empty stands
      alone, later ones follow " -> ". */
  function Glue(acc: string, crumb: string): string {
    if |acc| == 0 then crumb else acc + " -> " + crumb
  }

  /** The open names joined as the breadcrumb text. */
  function Join(names: seq<string>): string {
    if names == [] then "" else Glue(Join(names[..|names| - 1]), names[|names| - 1])
  }

  function Crumbs(items: seq<StackItem>): string {
    Join(OpenNames(items))
  }

  /** With non-empty names, the breadcrumb text lists every open name,
      separated by " -> ". */
  lemma {:induction false} JoinNonEmpty(names: seq<string>, x: string)
    requires x != ""
    requires forall i :: 0 <= i < |names| ==> names[i] != ""
    ensures names == [] ==> Join(names + [x]) == x
    ensures names != [] ==> Join(names + [x]) == Join(names) + " -> " + x
  {
    assert (names + [x])[..|names|] == names;
    if names != [] {
      var p := names[..|names| - 1];
      assert p + [names[|names| - 1]] == names;
      JoinNonEmpty(p, names[|names| - 1]);
    }
  }

  /** A finish pops only its own name: after a start and the finish of the
      same name, the open names are what they were. */
  lemma StartFinishCancel(items: seq<StackItem>, n: string, s: Status)
    ensures OpenNames(items + [Started(n), Finished(n, s)]) == OpenNames(items)
  {
    var a := items + [Started(n)];
    assert (a + [Finished(n, s)])[..|a|] == a;
    assert a[..|items|] == items;
    assert a + [Finished(n, s)] == items + [Started(n), Finished(n, s)];
  }

  // ---------------------------------------------------------------------
  // The thread's event log

  /** `TestStack`: the event log of one thread and its start/finish
      balance. */
  class TestStack {
    var items: seq<StackItem>
    var depth: int

    constructor ()
      ensures items == [] && depth == 0
    {
      items := [];
      depth := 0;
    }

    method StartTest(testName: string)
      modifies this
      ensures items == old(items) + [Started(testName)] && depth == old(depth) + 1
    {
      items := items + [Started(testName)];
      depth := depth + 1;
    }

    method FinishTest(testName: string, status: Status)
      modifies this
      ensures items == old(items) + [Finished(testName, status)] && depth == old(depth) - 1
    {
      items := items + [Finished(testName, status)];
      depth := depth - 1;
    }

    /** `currentDepth` is the length of the log, not `depth`. */
    function CurrentDepth(): nat
      reads this
    {
      |items|
    }

    /** `breadCrumbs`: replays the log, then joins the open names. */
    method BreadCrumbs() returns (r: string)
      ensures r == Crumbs(items)
    {
      var bc: seq<string> := [];
      var i := 0;
      while i < |items|
        invariant 0 <= i <= |items|
        invariant bc == OpenNames(items[..i])
      {
        assert items[..i + 1][..i] == items[..i];
        bc := Replay(bc, items[i]);
        i := i + 1;
      }
      assert items[..|items|] == items;
      r := "";
      var k := 0;
      while k < |bc|
        invariant 0 <= k <= |bc|
        invariant r == Join(bc[..k])
      {
        assert bc[..k + 1][..k] == bc[..k];
        r := Glue(r, bc[k]);
        k := k + 1;
      }
      assert bc[..|bc|] == bc;
    }
  }

  // ---------------------------------------------------------------------
  // What each context operation does to a Config

  /** `currentTestName()` of the innermost frame; the root has none. */
  function CurrentName(c: Config): Option<string> {
    if c.frames == [] then None else Some(c.frames[|c.frames| - 1].name)
  }

  function StartTestF(c: Config, n: string): Config {
    c.(items := c.items + [Started(n)], depth := c.depth + 1)
  }

  function FinishTestF(c: Config, n: string, s: Status): Config {
    c.(items := c.items + [Finished(n, s)], depth := c.depth - 1)
  }

  /** The log lines the `Note` callbacks among `cbs` push, in order. */
  function NotesOf(cbs: seq<Callback>): seq<string> {
    if cbs == [] then []
    else NotesOf(cbs[..|cbs| - 1]) + (if cbs[|cbs| - 1].Note? then [cbs[|cbs| - 1].msg] else [])
  }

  /** `cleanUp`: runs the callbacks in registration order. */
  function RunCallbacksF(c: Config, cbs: seq<Callback>): Config {
    c.(ran := c.ran + cbs, logs := c.logs + NotesOf(cbs))
  }

  /** `begin({name})`: opens a child frame; it announces a start only when
      the current name differs from `name`. */
  function BeginF(c: Config, name: string): Config {
    var c1 := if CurrentName(c) != Some(name) then StartTestF(c, name) else c;
    c1.(frames := c1.frames + [Frame(name, [])])
  }

  /** `end()`: a frame announces a "passed" finish unless its parent has the
      same name, runs its deferred callbacks and yields its parent; the root
      runs its own callbacks and then throws. */
  function EndF(c: Config): (Config, Result<()>) {
    if c.frames == [] then
      (RunCallbacksF(c, c.rootDeferred), Failure("TestContext stack empty"))
    else
      var top := c.frames[|c.frames| - 1];
      var rest := c.frames[..|c.frames| - 1];
      var parentName := if rest == [] then None else Some(rest[|rest| - 1].name);
      var c1 := if parentName != Some(top.name) then FinishTestF(c, top.name, Passed) else c;
      (RunCallbacksF(c1, top.deferred).(frames := rest), Success(()))
  }

  /** The callbacks `end` runs: the innermost frame's, or the root's. */
  function EndedCallbacks(c: Config): (cbs: seq<Callback>)
    ensures EndF(c).0.ran == c.ran + cbs
  {
    if c.frames == [] then c.rootDeferred else c.frames[|c.frames| - 1].deferred
  }

  /** `defer(level, cb)`: each frame passes a positive level on to its
      parent one less; the frame reached with level 0 keeps the callback,
      and the root keeps it whatever level is left. */
  function DeferF(c: Config, level: nat, cb: Callback): Config {
    if level < |c.frames| then
      var i := |c.frames| - 1 - level;
      c.(frames := c.frames[i := Frame(c.frames[i].name, c.frames[i].deferred + [cb])])
    else
      c.(rootDeferred := c.rootDeferred + [cb])
  }

  function NameText(n: Option<string>): string {
    match n
    case None => "null"
    case Some(s) => s
  }

  /**
   * Calling test function `f` with the innermost frame as its context.
   * A wrapped function resolves its frame name, throws before opening
   * anything if that name is empty, and otherwise opens a frame, runs the
   * wrapped function in it and closes the frame whether that returned or
   * threw (its `finally`); the result or the error passes through.
   */
  function Exec(c: Config, f: Fn, arg: string): (Config, Result<string>)
    decreases f, 1
  {
    match f
    case Body(_, _, _) => ExecSteps(c, f, arg, 0)
    case Wrapped(inner, args) =>
      var name := ResolveName(args, FnName(inner), arg);
      if name == "" then (c, Failure(NameMissing))
      else
        var (c2, o) := Exec(BeginF(c, name), inner, arg);
        var (c3, e) := EndF(c2);
        (c3, if e.Failure? then Failure(e.error) else o)
  }

  /** Running the steps of body `f`, called with `arg`, from step `i`. */
  function ExecSteps(c: Config, f: Fn, arg: string, i: nat): (Config, Result<string>)
    requires f.Body? && i <= |f.steps|
    decreases f, 0, |f.steps| - i
  {
    if i == |f.steps| then (c, Success(f.result))
    else
      match f.steps[i]
      case Log(m) => ExecSteps(c.(logs := c.logs + [m]), f, arg, i + 1)
      case LogName(p) => ExecSteps(c.(logs := c.logs + [p + NameText(CurrentName(c))]), f, arg, i + 1)
      case LogArg(p) => ExecSteps(c.(logs := c.logs + [p + arg]), f, arg, i + 1)
      case Defer(level, cb) => ExecSteps(DeferF(c, level, cb), f, arg, i + 1)
      case Call(g, a) =>
        var (c1, o) := Exec(c, g, a);
        if o.Failure? then (c1, o) else ExecSteps(c1, f, arg, i + 1)
      case Raise(e) => (c, Failure(e))
      case Await(_) =>
        var (c1, o) := AwaitF(c);
        if o.Failure? then (c1, Failure(o.error)) else ExecSteps(c1, f, arg, i + 1)
  }

  /** The message an awaited operation throws when the world has no answer
      left for it. */
  const Unanswered := "no answer for the awaited operation"

  /** Frames opened and closed again straight away, one after the other, as
      a wrapped create or delete function does around its own body. */
  function FramesF(c: Config, names: seq<string>): Config
    decreases |names|
  {
    if names == [] then c else FramesF(EndF(BeginF(c, names[0])).0, names[1..])
  }

  /** Awaiting a resource operation: the next answer is taken from the
      queue, its frames are opened and closed, and the await resolves or
      throws as the answer says. */
  function AwaitF(c: Config): (Config, Result<()>) {
    if c.answers == [] then (c, Failure(Unanswered))
    else (FramesF(c.(answers := c.answers[1..]), c.answers[0].frames), c.answers[0].outcome)
  }

  /** The text `run` logs for a failed test. */
  function FailedText(crumbs: string, err: string): string {
    "TEST FAILED!\n\ttest: " + crumbs + "\n\terror:Error: " + err
  }

  function SkippedText(crumbs: string): string {
    "TEST SKIPPED:\n\ttest: " + crumbs
  }

  /** `run(testName, testFunc)`: announces the start, remembers the log
      length, runs the body on this same context, and announces "passed"; if
      the body threw, "failed" when the log did not grow meanwhile and
      "skipped" when it did, and the error passes through. */
  function RunF(c: Config, name: string, f: Fn, arg: string): (Config, Result<string>) {
    var c1 := StartTestF(c, name);
    var r := Exec(c1, f, arg);
    FinishRun(c1, r.0, r.1, name)
  }

  /** What `run` does once the body, started at `c1`, has left `c2` and
      settled with `o`. */
  function FinishRun(c1: Config, c2: Config, o: Result<string>, name: string): (Config, Result<string>) {
    if o.Success? then (FinishTestF(c2, name, Passed), o)
    else if |c2.items| == |c1.items| then
      (FinishTestF(c2.(logs := c2.logs + [FailedText(Crumbs(c2.items), o.error)]), name, Failed), o)
    else
      (FinishTestF(c2.(logs := c2.logs + [SkippedText(Crumbs(c2.items))]), name, Skipped), o)
  }

  // ---------------------------------------------------------------------
  // Properties of calls

  /** What any call leaves as it found it: the same frames with the same
      names (callbacks may have been deferred onto them), the start/finish
      balance and the open breadcrumb names; the logs only grow. */
  ghost predicate Settles(c: Config, d: Config) {
    && |d.frames| == |c.frames|
    && (forall i :: 0 <= i < |c.frames| ==>
          d.frames[i].name == c.frames[i].name && c.frames[i].deferred <= d.frames[i].deferred)
    && c.rootDeferred <= d.rootDeferred
    && c.items <= d.items && c.logs <= d.logs && c.ran <= d.ran
    && d.depth == c.depth
    && OpenNames(d.items) == OpenNames(c.items)
  }

  lemma SettlesTrans(a: Config, b: Config, c: Config)
    requires Settles(a, b) && Settles(b, c)
    ensures Settles(a, c)
  {
    forall i | 0 <= i < |a.frames|
      ensures a.frames[i].deferred <= c.frames[i].deferred
    {
      SeqPrefixTrans(a.frames[i].deferred, b.frames[i].deferred, c.frames[i].deferred);
    }
    SeqPrefixTrans(a.rootDeferred, b.rootDeferred, c.rootDeferred);
    SeqPrefixTrans(a.items, b.items, c.items);
    SeqPrefixTrans(a.logs, b.logs, c.logs);
    SeqPrefixTrans(a.ran, b.ran, c.ran);
  }

  lemma SeqPrefixTrans<T>(a: seq<T>, b: seq<T>, c: seq<T>)
    requires a <= b && b <= c
    ensures a <= c
  {
    assert c[..|a|] == b[..|a|];
  }

  lemma OpenNamesSnoc(items: seq<StackItem>, x: StackItem)
    ensures OpenNames(items + [x]) == Replay(OpenNames(items), x)
  {
    assert (items + [x])[..|items|] == items;
  }

  /** Every call, whether it returns or throws, closes every frame it opened
      and emits a finish for every start it emitted. */
  lemma {:induction false} ExecSettles(c: Config, f: Fn, arg: string)
    ensures Settles(c, Exec(c, f, arg).0)
    decreases f, 1
  {
    match f
    case Body(_, _, _) =>
      ExecStepsSettles(c, f, arg, 0);
    case Wrapped(inner, args) =>
      var name := ResolveName(args, FnName(inner), arg);
      if name != "" {
        WrappedCallBalanced(c, inner, args, arg);
      }
  }

  lemma LogSettles(c: Config, m: string)
    ensures Settles(c, c.(logs := c.logs + [m]))
  {
  }

  lemma DeferSettles(c: Config, level: nat, cb: Callback)
    ensures Settles(c, DeferF(c, level, cb))
  {
  }

  lemma {:induction false} ExecStepsSettles(c: Config, f: Fn, arg: string, i: nat)
    requires f.Body? && i <= |f.steps|
    ensures Settles(c, ExecSteps(c, f, arg, i).0)
    decreases f, 0, |f.steps| - i
  {
    if i < |f.steps| {
      var c1: Config;
      match f.steps[i] {
      case Log(m) =>
        c1 := c.(logs := c.logs + [m]);
        LogSettles(c, m);
      case LogName(p) =>
        c1 := c.(logs := c.logs + [p + NameText(CurrentName(c))]);
        LogSettles(c, p + NameText(CurrentName(c)));
      case LogArg(p) =>
        c1 := c.(logs := c.logs + [p + arg]);
        LogSettles(c, p + arg);
      case Defer(level, cb) =>
        c1 := DeferF(c, level, cb);
        DeferSettles(c, level, cb);
      case Call(g, a) =>
        assert f.steps[i] in f.steps;
        ExecSettles(c, g, a);
        c1 := Exec(c, g, a).0;
        if Exec(c, g, a).1.Failure? {
          return;
        }
      case Raise(_) =>
        return;
      case Await(_) =>
        c1 := AwaitF(c).0;
        AwaitSettles(c);
        if AwaitF(c).1.Failure? {
          return;
        }
      }
      assert ExecSteps(c, f, arg, i) == ExecSteps(c1, f, arg, i + 1);
      ExecStepsSettles(c1, f, arg, i + 1);
      SettlesTrans(c, c1, ExecSteps(c1, f, arg, i + 1).0);
    }
  }

  /** Frames opened and closed again leave the caller's frames, balance
      and open names as they were, and keep the queue of answers. */
  lemma {:induction false} FramesSettle(c: Config, names: seq<string>)
    ensures Settles(c, FramesF(c, names))
    ensures FramesF(c, names).answers == c.answers
    decreases |names|
  {
    if names != [] {
      var b := BeginF(c, names[0]);
      assert Settles(b, b);
      EndAfterBegin(c, names[0], b);
      var d := EndF(b).0;
      FramesSettle(d, names[1..]);
      SettlesTrans(c, d, FramesF(d, names[1..]));
    }
  }

  /** Opening and closing two runs of frames is opening and closing the
      first and then the second. */
  lemma {:induction false} FramesAppend(c: Config, xs: seq<string>, ys: seq<string>)
    ensures FramesF(c, xs + ys) == FramesF(FramesF(c, xs), ys)
    decreases |xs|
  {
    if xs != [] {
      assert (xs + ys)[0] == xs[0] && (xs + ys)[1..] == xs[1..] + ys;
      FramesAppend(EndF(BeginF(c, xs[0])).0, xs[1..], ys);
    } else {
      assert xs + ys == ys;
    }
  }

  /** A body that only awaits one operation and then resolves to `res`:
      it settles as the next answer says, having opened and closed that
      answer's frames. */
  lemma SingleAwait(c: Config, fname: string, op: ResourceOp, res: string, arg: string)
    ensures var (c1, o) := AwaitF(c);
      Exec(c, Body(fname, [Await(op)], res), arg) == (c1, if o.Failure? then Failure(o.error) else Success(res))
  {
    var f := Body(fname, [Await(op)], res);
    var (c1, o) := AwaitF(c);
    if o.Success? {
      assert ExecSteps(c1, f, arg, 1) == (c1, Success(res));
    }
  }

  /** An await consumes one answer, if there is one, and settles. */
  lemma AwaitSettles(c: Config)
    ensures Settles(c, AwaitF(c).0)
    ensures c.answers != [] ==> AwaitF(c).0.answers == c.answers[1..]
    ensures c.answers == [] ==> AwaitF(c) == (c, Failure(Unanswered))
  {
    if c.answers != [] {
      var c1 := c.(answers := c.answers[1..]);
      FramesSettle(c1, c.answers[0].frames);
    }
  }

  /** What `end` does to the frame `begin` opened, once a call left it
      settled. */
  lemma EndShape(c: Config, name: string, c2: Config)
    requires Settles(BeginF(c, name), c2)
    ensures var (c3, e) := EndF(c2);
      && e == Success(())
      && |c2.frames| == |c.frames| + 1 && c2.frames[|c.frames|].name == name
      && c3.frames == c2.frames[..|c.frames|]
      && c3.ran == c2.ran + c2.frames[|c.frames|].deferred
      && c2.logs <= c3.logs && c3.rootDeferred == c2.rootDeferred
      && (CurrentName(c) != Some(name) ==> c3.items == c2.items + [Finished(name, Passed)] && c3.depth == c2.depth - 1)
      && (CurrentName(c) == Some(name) ==> c3.items == c2.items && c3.depth == c2.depth)
  {
    var c1 := BeginF(c, name);
    var rest := c2.frames[..|c2.frames| - 1];
    assert c2.frames[|c2.frames| - 1].name == c1.frames[|c.frames|].name == name;
    assert (if rest == [] then None else Some(rest[|rest| - 1].name)) == CurrentName(c);
  }

  /** A frame opened by `begin` and then left settled by a call is closed by
      `end`: the frames above it are restored, its callbacks run last, and
      its "passed" finish (if it announced a start) ends the log. */
  lemma {:induction false} EndAfterBegin(c: Config, name: string, c2: Config)
    requires Settles(BeginF(c, name), c2)
    ensures var (c3, e) := EndF(c2);
      && e == Success(())
      && Settles(c, c3)
      && |c2.frames| == |c.frames| + 1 && c2.frames[|c.frames|].name == name
      && c3.frames == c2.frames[..|c.frames|]
      && c3.ran == c2.ran + c2.frames[|c.frames|].deferred
      && (CurrentName(c) != Some(name) ==> c3.items == c2.items + [Finished(name, Passed)])
      && (CurrentName(c) == Some(name) ==> c3.items == c2.items)
  {
    var c1 := BeginF(c, name);
    EndShape(c, name, c2);
    var c3 := EndF(c2).0;
    forall i | 0 <= i < |c.frames|
      ensures c3.frames[i].name == c.frames[i].name && c.frames[i].deferred <= c3.frames[i].deferred
    {
      assert c1.frames[i] == c.frames[i];
    }
    if CurrentName(c) != Some(name) {
      OpenNamesSnoc(c.items, Started(name));
      OpenNamesSnoc(c2.items, Finished(name, Passed));
      SeqPrefixTrans(c.items, c1.items, c2.items);
    }
    SeqPrefixTrans(c.logs, c2.logs, c3.logs);
    SeqPrefixTrans(c.ran, c2.ran, c3.ran);
    SeqPrefixTrans(c.rootDeferred, c1.rootDeferred, c2.rootDeferred);
  }

  /**
   * The wrap protocol. When no frame name resolves, the call throws and
   * touches nothing. Otherwise `begin` opens one child frame and `end`
   * closes exactly that frame, whether the wrapped function returned or
   * threw: the start it announces is the first new event, the matching
   * "passed" finish the last (neither when the name repeats the current
   * one), the callbacks deferred onto the child run last, in order, and the
   * wrapped function's result or error is the call's.
   */
  lemma {:induction false} WrappedCallBalanced(c: Config, inner: Fn, args: WrapArgs<string>, arg: string)
    ensures var name := ResolveName(args, FnName(inner), arg);
      name == "" ==> Exec(c, Wrapped(inner, args), arg) == (c, Failure(NameMissing))
    ensures var name := ResolveName(args, FnName(inner), arg);
      var c1 := BeginF(c, name);
      var (c2, o) := Exec(c1, inner, arg);
      var (c3, r) := Exec(c, Wrapped(inner, args), arg);
      name != "" ==>
        && r == o
        && Settles(c, c3)
        && |c2.frames| == |c.frames| + 1 && c2.frames[|c.frames|].name == name
        && c3.frames == c2.frames[..|c.frames|]
        && c3.ran == c2.ran + c2.frames[|c.frames|].deferred
        && (CurrentName(c) != Some(name) ==>
              c1.items == c.items + [Started(name)]
              && c3.items == c2.items + [Finished(name, Passed)])
        && (CurrentName(c) == Some(name) ==> c3.items == c2.items)
    decreases Wrapped(inner, args), 0
  {
    var name := ResolveName(args, FnName(inner), arg);
    if name != "" {
      ExecSettles(BeginF(c, name), inner, arg);
      EndAfterBegin(c, name, Exec(BeginF(c, name), inner, arg).0);
    }
  }

  /**
   * `run` records exactly one finish for its own start and rethrows: the
   * status is "passed" when the body returned, "failed" when it threw
   * without having emitted any event, and "skipped" when it threw after
   * emitting some (a wrapped call inside it announced a test). Like any
   * call, the run leaves the frames, the start/finish balance and the open
   * names as they were.
   */
  lemma {:induction false} RunClassifies(c: Config, name: string, f: Fn, arg: string)
    ensures var c1 := StartTestF(c, name);
      var (c2, o) := Exec(c1, f, arg);
      var (c3, r) := RunF(c, name, f, arg);
      r == o
    ensures var c1 := StartTestF(c, name);
      var (c2, o) := Exec(c1, f, arg);
      var (c3, r) := RunF(c, name, f, arg);
      && c3.items == c2.items + [Finished(name,
           if o.Success? then Passed else if c2.items == c1.items then Failed else Skipped)]
      && Settles(c, c3)
  {
    var c1 := StartTestF(c, name);
    ExecSettles(c1, f, arg);
    var r := Exec(c1, f, arg);
    FinishRunShape(c, name, r.0, r.1);
  }

  /** The finish `run` records once its body settled, whatever the body
      did in between. */
  lemma FinishRunShape(c: Config, name: string, c2: Config, o: Result<string>)
    requires Settles(StartTestF(c, name), c2)
    ensures var c1 := StartTestF(c, name);
      var (c3, r) := FinishRun(c1, c2, o, name);
      && r == o
      && c3.items == c2.items + [Finished(name,
           if o.Success? then Passed else if c2.items == c1.items then Failed else Skipped)]
      && Settles(c, c3)
  {
    var c1 := StartTestF(c, name);
    assert |c2.items| == |c1.items| <==> c2.items == c1.items;
    var st := if o.Success? then Passed else if c2.items == c1.items then Failed else Skipped;
    OpenNamesSnoc(c.items, Started(name));
    OpenNamesSnoc(c2.items, Finished(name, st));
    var c3 := FinishRun(c1, c2, o, name).0;
    SeqPrefixTrans(c.items, c1.items, c2.items);
    SeqPrefixTrans(c.logs, c2.logs, c3.logs);
  }

  /** A run whose body is a wrapped function announcing a test of its own
      (its name differs from the current one) is "skipped", never "failed",
      when it throws. */
  lemma {:induction false} RunWrappedFailureSkips(c: Config, name: string, f: Fn, arg: string)
    requires f.Wrapped?
    requires ResolveName(f.args, FnName(f.inner), arg) != ""
    requires CurrentName(c) != Some(ResolveName(f.args, FnName(f.inner), arg))
    requires RunF(c, name, f, arg).1.Failure?
    ensures RunF(c, name, f, arg).0.items[|RunF(c, name, f, arg).0.items| - 1] == Finished(name, Skipped)
  {
    var c1 := StartTestF(c, name);
    RunClassifies(c, name, f, arg);
    WrappedCallBalanced(c1, f.inner, f.args, arg);
    assert CurrentName(c1) == CurrentName(c);
    var c2 := Exec(c1, f, arg).0;
    assert |c2.items| > |c1.items|;
  }

  // ---------------------------------------------------------------------
  // A worked trace

  /** `s`: defers a note onto its caller's frame, then logs its argument and
      its own test name; called with "42" it returns "42". */
  function SampleS(): Fn {
    Body("s", [Defer(1, Note("cleanup time!")), LogArg("called s with "), LogName("Current test name = ")], "42")
  }

  /** `wrappedS2`: a wrapped anonymous function named "wrappedS2" that logs,
      awaits `g` with "42", and logs again; the sample awaits `wrap(s)`. */
  function SampleS2Of(g: Fn): Fn {
    Wrapped(
      Body("", [LogName("hi! Current test = "), Call(g, "42"), LogName("bye!! Current test = ")], "42"),
      WrapArgs(Some("wrappedS2"), None))
  }

  function SampleS2(): Fn {
    SampleS2Of(Wrapped(SampleS(), WrapArgs(None, None)))
  }

  /** The body of `s` run in its own frame, called from `wrappedS2`. */
  lemma SampleSBody(b: Config)
    requires b.frames == [Frame("wrappedS2", []), Frame("s", [])]
    ensures ExecSteps(b, SampleS(), "42", 0) ==
      (b.(frames := [Frame("wrappedS2", [Note("cleanup time!")]), Frame("s", [])],
          logs := b.logs + ["called s with 42", "Current test name = s"]),
       Success("42"))
  {
    var f := SampleS();
    var d0 := DeferF(b, 1, Note("cleanup time!"));
    assert b.frames[0].deferred + [Note("cleanup time!")] == [Note("cleanup time!")];
    assert d0 == b.(frames := [Frame("wrappedS2", [Note("cleanup time!")]), Frame("s", [])]);
    assert "called s with " + "42" == "called s with 42";
    var d1 := d0.(logs := d0.logs + ["called s with 42"]);
    assert CurrentName(d1) == Some("s");
    assert "Current test name = " + NameText(Some("s")) == "Current test name = s";
    var d2 := d1.(logs := d1.logs + ["Current test name = s"]);
    assert ExecSteps(d2, f, "42", 3) == (d2, Success("42"));
    assert ExecSteps(d1, f, "42", 2) == ExecSteps(d2, f, "42", 3);
    assert ExecSteps(d0, f, "42", 1) == ExecSteps(d1, f, "42", 2);
    assert ExecSteps(b, f, "42", 0) == ExecSteps(d0, f, "42", 1);
    assert d2.logs == b.logs + ["called s with 42", "Current test name = s"];
  }

  /** The inner call `wrap(s)(ctx, "42")` made from `wrappedS2`'s frame. */
  lemma SampleInner(c: Config)
    requires c.frames == [Frame("wrappedS2", [])]
    ensures Exec(c, Wrapped(SampleS(), WrapArgs(None, None)), "42") ==
      (c.(frames := [Frame("wrappedS2", [Note("cleanup time!")])],
          items := c.items + [Started("s"), Finished("s", Passed)],
          logs := c.logs + ["called s with 42", "Current test name = s"]),
       Success("42"))
  {
    assert ResolveName(WrapArgs(None, None), FnName(SampleS()), "42") == "s";
    var b := BeginF(c, "s");
    assert b == c.(frames := [Frame("wrappedS2", []), Frame("s", [])], items := c.items + [Started("s")], depth := c.depth + 1);
    SampleSBody(b);
    var d := ExecSteps(b, SampleS(), "42", 0).0;
    assert Exec(b, SampleS(), "42") == (d, Success("42"));
    assert NotesOf([]) == [];
    var e := EndF(d);
    assert e.1 == Success(());
    assert e.0.frames == [Frame("wrappedS2", [Note("cleanup time!")])];
    assert e.0.items == c.items + [Started("s"), Finished("s", Passed)];
    assert e.0.ran == c.ran && e.0.logs == c.logs + ["called s with 42", "Current test name = s"];
    assert e.0.depth == c.depth && e.0.rootDeferred == c.rootDeferred;
    assert Exec(c, Wrapped(SampleS(), WrapArgs(None, None)), "42") == (e.0, Success("42"));
  }

  /** The last two steps of `wrappedS2`'s body, after the inner call. */
  lemma SampleS2Tail(e1: Config, g: Fn)
    requires e1.frames == [Frame("wrappedS2", [Note("cleanup time!")])]
    ensures ExecSteps(e1, SampleS2Of(g).inner, "42", 2) ==
      (e1.(logs := e1.logs + ["bye!! Current test = wrappedS2"]), Success("42"))
  {
    var e2 := e1.(logs := e1.logs + ["bye!! Current test = wrappedS2"]);
    assert "bye!! Current test = " + NameText(CurrentName(e1)) == "bye!! Current test = wrappedS2";
    assert ExecSteps(e2, SampleS2Of(g).inner, "42", 3) == (e2, Success("42"));
  }

  /** The body of `wrappedS2` run in its own frame, given what the inner call
      does there. */
  lemma SampleS2Body(c: Config, g: Fn)
    requires c.frames == [Frame("wrappedS2", [])]
    requires var e0 := c.(logs := c.logs + ["hi! Current test = wrappedS2"]);
      Exec(e0, g, "42") ==
      (e0.(frames := [Frame("wrappedS2", [Note("cleanup time!")])],
           items := e0.items + [Started("s"), Finished("s", Passed)],
           logs := e0.logs + ["called s with 42", "Current test name = s"]),
       Success("42"))
    ensures ExecSteps(c, SampleS2Of(g).inner, "42", 0) ==
      (c.(frames := [Frame("wrappedS2", [Note("cleanup time!")])],
          items := c.items + [Started("s"), Finished("s", Passed)],
          logs := c.logs + ["hi! Current test = wrappedS2", "called s with 42", "Current test name = s",
                            "bye!! Current test = wrappedS2"]),
       Success("42"))
  {
    var body := SampleS2Of(g).inner;
    var e0 := c.(logs := c.logs + ["hi! Current test = wrappedS2"]);
    var e1 := e0.(frames := [Frame("wrappedS2", [Note("cleanup time!")])],
                  items := e0.items + [Started("s"), Finished("s", Passed)],
                  logs := e0.logs + ["called s with 42", "Current test name = s"]);
    SampleS2Head(c, SampleS2Of(g).inner, g, e1);
    SampleS2Tail(e1, g);
    assert e1.logs + ["bye!! Current test = wrappedS2"] ==
      c.logs + ["hi! Current test = wrappedS2", "called s with 42", "Current test name = s",
                "bye!! Current test = wrappedS2"];
  }

  /** The first two steps of `wrappedS2`'s body: the greeting, then the
      inner call. */
  lemma SampleS2Head(c: Config, body: Fn, g: Fn, e1: Config)
    requires c.frames == [Frame("wrappedS2", [])]
    requires body.Body? && |body.steps| >= 2
    requires body.steps[0] == LogName("hi! Current test = ") && body.steps[1] == Call(g, "42")
    requires Exec(c.(logs := c.logs + ["hi! Current test = wrappedS2"]), g, "42") == (e1, Success("42"))
    ensures ExecSteps(c, body, "42", 0) == ExecSteps(e1, body, "42", 2)
  {
    LogNameStep(c, body, "42", 0);
    assert NameText(CurrentName(c)) == "wrappedS2";
    assert "hi! Current test = " + "wrappedS2" == "hi! Current test = wrappedS2";
    CallStep(c.(logs := c.logs + ["hi! Current test = wrappedS2"]), body, "42", 1);
  }

  /** One `LogName` step. */
  lemma LogNameStep(c: Config, f: Fn, arg: string, i: nat)
    requires f.Body? && i < |f.steps| && f.steps[i].LogName?
    ensures ExecSteps(c, f, arg, i) ==
      ExecSteps(c.(logs := c.logs + [f.steps[i].prefix + NameText(CurrentName(c))]), f, arg, i + 1)
  {
  }

  /** One `Call` step whose callee returns. */
  lemma CallStep(c: Config, f: Fn, arg: string, i: nat)
    requires f.Body? && i < |f.steps| && f.steps[i].Call?
    requires Exec(c, f.steps[i].f, f.steps[i].arg).1.Success?
    ensures ExecSteps(c, f, arg, i) == ExecSteps(Exec(c, f.steps[i].f, f.steps[i].arg).0, f, arg, i + 1)
  {
  }

  /** The body of `wrappedS2` in its frame on a fresh root context, given
      what the inner call does there. */
  lemma SampleS2Entry(g: Fn)
    requires Exec(Config([], [Frame("wrappedS2", [])], [Started("wrappedS2")], 1, [], ["hi! Current test = wrappedS2"], []), g, "42") ==
      (Config([], [Frame("wrappedS2", [Note("cleanup time!")])],
              [Started("wrappedS2"), Started("s"), Finished("s", Passed)], 1, [],
              ["hi! Current test = wrappedS2", "called s with 42", "Current test name = s"], []),
       Success("42"))
    ensures Exec(Config([], [Frame("wrappedS2", [])], [Started("wrappedS2")], 1, [], [], []), SampleS2Of(g).inner, "42") ==
      (Config([], [Frame("wrappedS2", [Note("cleanup time!")])],
              [Started("wrappedS2"), Started("s"), Finished("s", Passed)], 1, [],
              ["hi! Current test = wrappedS2", "called s with 42", "Current test name = s",
               "bye!! Current test = wrappedS2"], []),
       Success("42"))
  {
    var c1 := Config([], [Frame("wrappedS2", [])], [Started("wrappedS2")], 1, [], [], []);
    assert c1.(logs := c1.logs + ["hi! Current test = wrappedS2"]) ==
      Config([], [Frame("wrappedS2", [])], [Started("wrappedS2")], 1, [], ["hi! Current test = wrappedS2"], []);
    assert [Started("wrappedS2")] + [Started("s"), Finished("s", Passed)] ==
      [Started("wrappedS2"), Started("s"), Finished("s", Passed)];
    assert ["hi! Current test = wrappedS2"] + ["called s with 42", "Current test name = s"] ==
      ["hi! Current test = wrappedS2", "called s with 42", "Current test name = s"];
    SampleS2Body(c1, g);
    assert Exec(c1, SampleS2Of(g).inner, "42") == ExecSteps(c1, SampleS2Of(g).inner, "42", 0);
    assert c1.items + [Started("s"), Finished("s", Passed)] == [Started("wrappedS2"), Started("s"), Finished("s", Passed)];
    assert c1.logs + ["hi! Current test = wrappedS2", "called s with 42", "Current test name = s",
                      "bye!! Current test = wrappedS2"] ==
      ["hi! Current test = wrappedS2", "called s with 42", "Current test name = s", "bye!! Current test = wrappedS2"];
  }

  /** Closing `wrappedS2`'s frame runs the note it holds and empties the
      stack. */
  lemma SampleS2End()
    ensures EndF(Config([], [Frame("wrappedS2", [Note("cleanup time!")])],
                        [Started("wrappedS2"), Started("s"), Finished("s", Passed)], 1, [],
                        ["hi! Current test = wrappedS2", "called s with 42", "Current test name = s",
                         "bye!! Current test = wrappedS2"], [])) ==
      (Config([],
              [],
              [Started("wrappedS2"), Started("s"), Finished("s", Passed), Finished("wrappedS2", Passed)],
              0,
              [Note("cleanup time!")],
              ["hi! Current test = wrappedS2", "called s with 42", "Current test name = s",
               "bye!! Current test = wrappedS2", "cleanup time!"], []),
       Success(()))
  {
    assert NotesOf([Note("cleanup time!")]) == ["cleanup time!"];
    assert [Started("wrappedS2"), Started("s"), Finished("s", Passed)] + [Finished("wrappedS2", Passed)] ==
      [Started("wrappedS2"), Started("s"), Finished("s", Passed), Finished("wrappedS2", Passed)];
    assert [] + [Note("cleanup time!")] == [Note("cleanup time!")];
    assert ["hi! Current test = wrappedS2", "called s with 42", "Current test name = s",
            "bye!! Current test = wrappedS2"] + ["cleanup time!"] ==
      ["hi! Current test = wrappedS2", "called s with 42", "Current test name = s",
       "bye!! Current test = wrappedS2", "cleanup time!"];
  }

  /** `wrappedS2` called with "42" on a fresh root context, given what the
      inner call does in its frame. */
  lemma SampleS2Call(g: Fn)
    requires Exec(Config([], [Frame("wrappedS2", [])], [Started("wrappedS2")], 1, [], ["hi! Current test = wrappedS2"], []), g, "42") ==
      (Config([], [Frame("wrappedS2", [Note("cleanup time!")])],
              [Started("wrappedS2"), Started("s"), Finished("s", Passed)], 1, [],
              ["hi! Current test = wrappedS2", "called s with 42", "Current test name = s"], []),
       Success("42"))
    ensures Exec(Config([], [], [], 0, [], [], []), SampleS2Of(g), "42") ==
      (Config([],
              [],
              [Started("wrappedS2"), Started("s"), Finished("s", Passed), Finished("wrappedS2", Passed)],
              0,
              [Note("cleanup time!")],
              ["hi! Current test = wrappedS2", "called s with 42", "Current test name = s",
               "bye!! Current test = wrappedS2", "cleanup time!"], []),
       Success("42"))
  {
    var c0 := Config([], [], [], 0, [], [], []);
    assert ResolveName(SampleS2Of(g).args, FnName(SampleS2Of(g).inner), "42") == "wrappedS2";
    assert BeginF(c0, "wrappedS2") == Config([], [Frame("wrappedS2", [])], [Started("wrappedS2")], 1, [], [], []);
    SampleS2Entry(g);
    SampleS2End();
    var r := Exec(BeginF(c0, "wrappedS2"), SampleS2Of(g).inner, "42");
    WrappedStep(c0, SampleS2Of(g), "42", "wrappedS2", r.0, r.1, EndF(r.0).0);
  }

  /** A wrapped call whose name resolves and whose frame closes cleanly
      returns what the wrapped function returned. */
  lemma WrappedStep(c: Config, f: Fn, arg: string, name: string, c2: Config, o: Result<string>, c3: Config)
    requires f.Wrapped? && name != "" && ResolveName(f.args, FnName(f.inner), arg) == name
    requires Exec(BeginF(c, name), f.inner, arg) == (c2, o)
    requires EndF(c2) == (c3, Success(()))
    ensures Exec(c, f, arg) == (c3, o)
  {
  }

  /** The callback `s` defers at level 1 lands on `wrappedS2`'s frame and so
      runs when that frame ends, after every line of the inner body; each
      wrapped call announces and finishes its own test. */
  lemma SampleTrace()
    ensures Exec(Config([], [], [], 0, [], [], []), SampleS2(), "42") ==
      (Config([],
              [],
              [Started("wrappedS2"), Started("s"), Finished("s", Passed), Finished("wrappedS2", Passed)],
              0,
              [Note("cleanup time!")],
              ["hi! Current test = wrappedS2", "called s with 42", "Current test name = s",
               "bye!! Current test = wrappedS2", "cleanup time!"], []),
       Success("42"))
  {
    var e0 := Config([], [Frame("wrappedS2", [])], [Started("wrappedS2")], 1, [], ["hi! Current test = wrappedS2"], []);
    SampleInner(e0);
    assert e0.items + [Started("s"), Finished("s", Passed)] ==
      [Started("wrappedS2"), Started("s"), Finished("s", Passed)];
    assert e0.logs + ["called s with 42", "Current test name = s"] ==
      ["hi! Current test = wrappedS2", "called s with 42", "Current test name = s"];
    SampleS2Call(Wrapped(SampleS(), WrapArgs(None, None)));
  }

  // ---------------------------------------------------------------------
  // The context object

  /** A root `TestContext` together with the frames opened on it. */
  class TestContext {
    var rootDeferred: seq<Callback>
    var frames: seq<Frame>
    var ran: seq<Callback>
    var logs: seq<string>
    /** What the outside world will answer to the operations awaited on
        this context, in order. */
    var answers: seq<Answer>
    const thread: TestStack

    function Snapshot(): Config
      reads this, thread
    {
      Config(rootDeferred, frames, thread.items, thread.depth, ran, logs, answers)
    }

    constructor (answers: seq<Answer>)
      ensures Snapshot() == Config([], [], [], 0, [], [], answers)
      ensures fresh(thread)
    {
      rootDeferred := [];
      frames := [];
      ran := [];
      logs := [];
      this.answers := answers;
      thread := new TestStack();
    }

    function CurrentTestName(): Option<string>
      reads this
    {
      if frames == [] then None else Some(frames[|frames| - 1].name)
    }

    /** `log(msg)` */
    method Log(msg: string)
      modifies this
      ensures Snapshot() == old(Snapshot()).(logs := old(logs) + [msg])
    {
      logs := logs + [msg];
    }

    method Begin(name: string)
      modifies this, thread
      ensures Snapshot() == BeginF(old(Snapshot()), name)
    {
      if CurrentTestName() != Some(name) {
        thread.StartTest(name);
      }
      frames := frames + [Frame(name, [])];
    }

    /** `cleanUp`: calls each deferred callback in turn. */
    method RunCallbacks(cbs: seq<Callback>)
      modifies this
      ensures Snapshot() == RunCallbacksF(old(Snapshot()), cbs)
    {
      var i := 0;
      while i < |cbs|
        invariant 0 <= i <= |cbs|
        invariant ran == old(ran) + cbs[..i] && logs == old(logs) + NotesOf(cbs[..i])
        invariant rootDeferred == old(rootDeferred) && frames == old(frames) && answers == old(answers)
      {
        assert cbs[..i + 1][..i] == cbs[..i];
        ran := ran + [cbs[i]];
        if cbs[i].Note? {
          logs := logs + [cbs[i].msg];
        }
        i := i + 1;
      }
      assert cbs[..|cbs|] == cbs;
    }

    method End() returns (r: Result<()>)
      modifies this, thread
      ensures (Snapshot(), r) == EndF(old(Snapshot()))
    {
      if frames == [] {
        RunCallbacks(rootDeferred);
        return Failure("TestContext stack empty");
      }
      var top := frames[|frames| - 1];
      var rest := frames[..|frames| - 1];
      var parentName := if rest == [] then None else Some(rest[|rest| - 1].name);
      if parentName != Some(top.name) {
        thread.FinishTest(top.name, Passed);
      }
      RunCallbacks(top.deferred);
      frames := rest;
      return Success(());
    }

    /** `defer(caller, f)`: walks up one parent per level. */
    method Defer(level: nat, cb: Callback)
      modifies this
      ensures Snapshot() == DeferF(old(Snapshot()), level, cb)
    {
      var k := level;
      var i := |frames|;
      while k > 0 && i > 0
        invariant 0 <= i <= |frames| && 0 <= k <= level
        invariant |frames| - i == level - k
      {
        i, k := i - 1, k - 1;
      }
      if i == 0 {
        rootDeferred := rootDeferred + [cb];
      } else {
        assert k == 0 && i - 1 == |frames| - 1 - level;
        frames := frames[i - 1 := Frame(frames[i - 1].name, frames[i - 1].deferred + [cb])];
      }
    }

    /** Calls test function `f` on the innermost frame. */
    method Invoke(f: Fn, arg: string) returns (out: Result<string>)
      modifies this, thread
      ensures (Snapshot(), out) == Exec(old(Snapshot()), f, arg)
      decreases f, 1
    {
      match f
      case Body(_, _, _) =>
        out := InvokeSteps(f, arg, 0);
      case Wrapped(inner, args) =>
        var name := ResolveName(args, FnName(inner), arg);
        if name == "" {
          return Failure(NameMissing);
        }
        Begin(name);
        out := Invoke(inner, arg);
        var e := End();
        if e.Failure? {
          out := Failure(e.error);
        }
    }

    method InvokeSteps(f: Fn, arg: string, i: nat) returns (out: Result<string>)
      requires f.Body? && i <= |f.steps|
      modifies this, thread
      ensures (Snapshot(), out) == ExecSteps(old(Snapshot()), f, arg, i)
      decreases f, 0, |f.steps| - i
    {
      if i == |f.steps| {
        return Success(f.result);
      }
      match f.steps[i]
      case Log(m) =>
        Log(m);
        out := InvokeSteps(f, arg, i + 1);
      case LogName(p) =>
        Log(p + NameText(CurrentTestName()));
        out := InvokeSteps(f, arg, i + 1);
      case LogArg(p) =>
        Log(p + arg);
        out := InvokeSteps(f, arg, i + 1);
      case Defer(level, cb) =>
        Defer(level, cb);
        out := InvokeSteps(f, arg, i + 1);
      case Call(g, a) =>
        out := Invoke(g, a);
        if out.Success? {
          out := InvokeSteps(f, arg, i + 1);
        }
      case Raise(e) =>
        out := Failure(e);
      case Await(_) =>
        if answers == [] {
          return Failure(Unanswered);
        }
        var a := answers[0];
        answers := answers[1..];
        OpenAndClose(a.frames);
        if a.outcome.Failure? {
          return Failure(a.outcome.error);
        }
        out := InvokeSteps(f, arg, i + 1);
    }

    /** Opens and closes one frame per name, in order. */
    method OpenAndClose(names: seq<string>)
      modifies this, thread
      ensures Snapshot() == FramesF(old(Snapshot()), names)
      decreases |names|
    {
      if names != [] {
        Begin(names[0]);
        var e := End();
        OpenAndClose(names[1..]);
      }
    }

    /** `run(testName, testFunc)` */
    method Run(name: string, f: Fn, arg: string) returns (out: Result<string>)
      modifies this, thread
      ensures (Snapshot(), out) == RunF(old(Snapshot()), name, f, arg)
    {
      ghost var c0 := Snapshot();
      thread.StartTest(name);
      ghost var c1 := Snapshot();
      assert c1 == StartTestF(c0, name);
      var stackDepth := thread.CurrentDepth();
      out := Invoke(f, arg);
      ghost var c2 := Snapshot();
      assert (c2, out) == Exec(c1, f, arg);
      Settle(name, stackDepth, out, c1);
    }

    /** The end of `run`: the finish it records once the body settled. */
    method Settle(name: string, stackDepth: nat, out: Result<string>, ghost c1: Config)
      requires stackDepth == |c1.items|
      modifies this, thread
      ensures (Snapshot(), out) == FinishRun(c1, old(Snapshot()), out, name)
    {
      ghost var c2 := Snapshot();
      if out.Success? {
        thread.FinishTest(name, Passed);
      } else if stackDepth == thread.CurrentDepth() {
        var crumbs := thread.BreadCrumbs();
        Log(FailedText(crumbs, out.error));
        assert Snapshot() == c2.(logs := c2.logs + [FailedText(Crumbs(c2.items), out.error)]);
        thread.FinishTest(name, Failed);
      } else {
        var crumbs := thread.BreadCrumbs();
        Log(SkippedText(crumbs));
        assert Snapshot() == c2.(logs := c2.logs + [SkippedText(Crumbs(c2.items))]);
        thread.FinishTest(name, Skipped);
      }
    }
  }
}

=== FILE: objectequality.dfy ===
/**
 * The object-subset matcher used to decide whether a cached resource
 * satisfies a set of create arguments.
 *
 * JavaScript values are modelled by `Val`; a plain object is a map from
 * property names to values, and reading a property the object does not
 * have yields `Undefined`, as `superset[key]` does.
 */
module ObjectEquality {

  /** The JavaScript values a resource's data can hold. `Ref` stands for an
      object or array, compared by identity. Numbers are modelled by their
      integer value plus `NaN`; other floating-point values are left out. */
  datatype Val =
    | Undefined
    | Null
    | Bool(b: bool)
    | Num(n: int)
    | NaN
    | Str(s: string)
    | Ref(id: nat)

  /** A plain object: its own enumerable properties. */
  type Obj = map<string, Val>

  /** `o[key]`: a missing property reads as `undefined`. */
  function Get(o: Obj, key: string): Val {
    if key in o then o[key] else Undefined
  }

  /** JavaScript's `===`: identical values, except that `NaN` is never
      strictly equal to anything, itself included. */
  predicate StrictEq(a: Val, b: Val) {
    a == b && a != NaN
  }

  /** The meaning of `objectIsSubsetOf(subset, superset)`: every property of
      `subset` has a strictly equal value in `superset`. */
  predicate IsSubsetOf(subset: Obj, superset: Obj) {
    forall key :: key in subset ==> StrictEq(Get(superset, key), subset[key])
  }

  /**
   * `objectIsSubsetOf`: walks the entries of `subset` and stops at the first
   * one whose value is not strictly equal in `superset`. The entries are
   * visited in some order; the answer does not depend on it. Neither
   * argument is changed (both are values).
   */
  method ObjectIsSubsetOf(subset: Obj, superset: Obj) returns (r: bool)
    ensures r <==> IsSubsetOf(subset, superset)
    ensures !r ==> exists key :: key in subset && !StrictEq(Get(superset, key), subset[key])
  {
    var remaining := subset.Keys;
    while remaining != {}
      invariant remaining <= subset.Keys
      invariant forall key :: key in subset && key !in remaining ==> StrictEq(Get(superset, key), subset[key])
      decreases remaining
    {
      var key :| key in remaining;
      if !StrictEq(Get(superset, key), subset[key]) {
        return false;
      }
      remaining := remaining - {key};
    }
    return true;
  }

  /** An empty required object is satisfied by anything. */
  lemma EmptyIsSubset(superset: Obj)
    ensures IsSubsetOf(map[], superset)
  {
  }

  /** Properties present only in the superset never change the answer. */
  lemma ExtraKeysIrrelevant(subset: Obj, superset: Obj, key: string, v: Val)
    requires key !in subset
    ensures IsSubsetOf(subset, superset[key := v]) <==> IsSubsetOf(subset, superset)
  {
    forall k | k in subset
      ensures Get(superset[key := v], k) == Get(superset, k)
    {
    }
  }

  /** One property whose value differs, or is missing from the superset, is
      enough to make the answer false. */
  lemma OneMismatchRefutes(subset: Obj, superset: Obj, key: string)
    requires key in subset && !StrictEq(Get(superset, key), subset[key])
    ensures !IsSubsetOf(subset, superset)
  {
  }

  /** A property whose required value is `undefined` is met by a superset
      that lacks it, and a required `NaN` is never met. */
  lemma UndefinedAndNaN(superset: Obj, key: string)
    ensures key !in superset ==> IsSubsetOf(map[key := Undefined], superset)
    ensures !IsSubsetOf(map[key := NaN], superset)
  {
    if key !in superset {
      forall k | k in map[key := Undefined]
        ensures StrictEq(Get(superset, k), map[key := Undefined][k])
      {
      }
    }
    assert !StrictEq(Get(superset, key), map[key := NaN][key]);
  }
}

=== FILE: registry.dfy ===
/**
 * The test registry: the list of runnable tests, their unique names, and
 * the tests generated from resource managers.
 *
 * A generated create or delete test is a function that awaits one resource
 * manager operation. As a `Fn` it is a body named `func` with a single
 * `Await` step, which takes the context's next answer: the frames the
 * operation opens and closes, and how it settles. The `...Answered` lemmas
 * state what running such a test does given that answer; the
 * `RunCreateTest`, `RunManagedCreateTest` and `RunDeleteTest` methods state
 * what the operation does to the manager and which answer it gives.
 */
module Registry {
  import opened ObjectEquality
  import opened Base
  import opened Context
  import opened Resources

  /** `Priority`: `First = 0`, `Normal = 50`, `Last = 100`. */
  datatype Priority = First | Normal | Last

  function PriorityValue(p: Priority): nat {
    match p
    case First => 0
    case Normal => 50
    case Last => 100
  }

  /** `TestEntry`: a runnable test. */
  datatype TestEntry = TestEntry(
    name: string,
    suite: string,
    func: Fn,
    dependsOn: seq<string>,
    priority: Priority)

  function NamesOf(es: seq<TestEntry>): (ns: seq<string>)
    ensures |ns| == |es| && forall i :: 0 <= i < |es| ==> ns[i] == es[i].name
  {
    seq(|es|, i requires 0 <= i < |es| => es[i].name)
  }

  predicate Distinct(ns: seq<string>) {
    forall i, j :: 0 <= i < |ns| && 0 <= j < |ns| && i != j ==> ns[i] != ns[j]
  }

  function DuplicateError(n: string): string {
    "duplicate test names not allowed: \"" + n + "\""
  }

  /** The entry `register` stores: its function wrapped under the test's
      own name. */
  function Registered(e: TestEntry): TestEntry {
    e.(func := Wrap(e.func, WrapArgs(Some(e.name), None)))
  }

  /** Registering `news` one after the other onto `es`: each is appended
      wrapped; the first whose name is taken throws, keeping the ones
      registered before it. */
  function RegisterAllF(es: seq<TestEntry>, news: seq<TestEntry>): (seq<TestEntry>, Result<()>)
    decreases |news|
  {
    if news == [] then (es, Success(()))
    else if news[0].name in NamesOf(es) then (es, Failure(DuplicateError(news[0].name)))
    else RegisterAllF(es + [Registered(news[0])], news[1..])
  }

  /** Each entry as `register` stores it. */
  function RegisteredAll(news: seq<TestEntry>): (rs: seq<TestEntry>)
    ensures |rs| == |news| && forall i :: 0 <= i < |news| ==> rs[i] == Registered(news[i])
  {
    seq(|news|, i requires 0 <= i < |news| => Registered(news[i]))
  }

  /**
   * What registering a batch leaves: the old entries followed by a prefix
   * of the new ones, each wrapped under its own name, all of them when no
   * name was taken. Names stay unique, and a failure reports the first new
   * entry whose name was already registered.
   */
  lemma RegisterAllKeepsNamesUnique(es: seq<TestEntry>, news: seq<TestEntry>)
    requires Distinct(NamesOf(es))
    ensures var (rs, r) := RegisterAllF(es, news);
      && Distinct(NamesOf(rs))
      && |es| <= |rs| <= |es| + |news|
      && rs == es + RegisteredAll(news[..|rs| - |es|])
      && (r.Success? <==> |rs| == |es| + |news|)
      && (r.Failure? ==>
            var n := news[|rs| - |es|].name;
            n in NamesOf(rs) && r.error == DuplicateError(n))
  {
    RegisterAllShape(es, news);
    RegisterAllFailure(es, news);
    RegisterAllDistinct(es, news);
  }

  /** The entries are appended in order, and all of them exactly when
      registering succeeds. */
  lemma {:induction false} RegisterAllShape(es: seq<TestEntry>, news: seq<TestEntry>)
    ensures var (rs, r) := RegisterAllF(es, news);
      && |es| <= |rs| <= |es| + |news|
      && rs == es + RegisteredAll(news[..|rs| - |es|])
      && (r.Success? <==> |rs| == |es| + |news|)
    decreases |news|
  {
    if news == [] {
      assert RegisteredAll(news[..0]) == [];
    } else if news[0].name in NamesOf(es) {
      assert RegisteredAll(news[..0]) == [];
    } else {
      var es1 := es + [Registered(news[0])];
      RegisterAllShape(es1, news[1..]);
      var rs := RegisterAllF(es1, news[1..]).0;
      var j := |rs| - |es1|;
      assert news[1..][..j] == news[1..j + 1];
      var tail := RegisteredAll(news[1..j + 1]);
      assert rs == es1 + tail;
      RegisteredAllCons(news, j);
      ConcatAssoc(es, [Registered(news[0])], tail);
      assert |rs| - |es| == j + 1;
    }
  }

  /** Sequence concatenation is associative; as a lemma the step stays
      out of the inductive proof's larger context. */
  lemma ConcatAssoc<T>(a: seq<T>, b: seq<T>, c: seq<T>)
    ensures (a + b) + c == a + (b + c)
  {
  }

  lemma RegisteredAllCons(news: seq<TestEntry>, j: nat)
    requires j < |news|
    ensures RegisteredAll(news[..j + 1]) == [Registered(news[0])] + RegisteredAll(news[1..j + 1])
  {
  }

  /** A failure names the first entry not appended, whose name was already
      taken. */
  lemma {:induction false} RegisterAllFailure(es: seq<TestEntry>, news: seq<TestEntry>)
    ensures var (rs, r) := RegisterAllF(es, news);
      r.Failure? ==>
        && |es| <= |rs| < |es| + |news|
        && var n := news[|rs| - |es|].name;
          n in NamesOf(rs) && r.error == DuplicateError(n)
    decreases |news|
  {
    if news != [] && news[0].name !in NamesOf(es) {
      var es1 := es + [Registered(news[0])];
      RegisterAllFailure(es1, news[1..]);
      var (rs, r) := RegisterAllF(es1, news[1..]);
      if r.Failure? {
        assert news[1..][|rs| - |es1|] == news[|rs| - |es|];
      }
    }
  }

  /** Registering keeps the names distinct. */
  lemma {:induction false} RegisterAllDistinct(es: seq<TestEntry>, news: seq<TestEntry>)
    requires Distinct(NamesOf(es))
    ensures Distinct(NamesOf(RegisterAllF(es, news).0))
    decreases |news|
  {
    if news != [] && news[0].name !in NamesOf(es) {
      var es1 := es + [Registered(news[0])];
      assert NamesOf(es1) == NamesOf(es) + [news[0].name];
      DistinctSnoc(NamesOf(es), news[0].name);
      RegisterAllDistinct(es1, news[1..]);
    }
  }

  lemma DistinctSnoc(ns: seq<string>, n: string)
    requires Distinct(ns) && n !in ns
    ensures Distinct(ns + [n])
  {
    forall i, j | 0 <= i < |ns| + 1 && 0 <= j < |ns| + 1 && i != j
      ensures (ns + [n])[i] != (ns + [n])[j]
    {
      if i < |ns| && j < |ns| {
      } else if i < |ns| {
        assert ns[i] in ns;
      } else {
        assert ns[j] in ns;
      }
    }
  }

  /** The generated create test for one set of options: `create` with the
      manager's registered create function. */
  function CreateTestEntry(resource: string, nameFunc: Obj -> string, dependsOn: seq<string>,
                           priority: Priority, suite: string, opt: Obj): TestEntry
  {
    TestEntry(nameFunc(opt), suite, Body("func", [Await(CreateVia(resource, opt))], ""), dependsOn, priority)
  }

  /** The generated delete test for one set of options: deletes an unused
      record that matches them. */
  function DeleteTestEntry(resource: string, nameFunc: Obj -> string, dependsOn: seq<string>,
                           priority: Priority, suite: string, opt: Obj): TestEntry
  {
    TestEntry(nameFunc(opt), suite, Body("func", [Await(DeleteUnused(resource, opt))], ""), dependsOn, priority)
  }

  /** The create test `newResourceManager` generates: `createInternal` with
      the create function as given, not the wrapped one. */
  function ManagedCreateEntry(resource: string, nameFunc: Obj -> string, dependsOn: seq<string>, opt: Obj): TestEntry {
    TestEntry(nameFunc(opt), resource, Body("func", [Await(CreateInternal(resource, opt))], ""), dependsOn, Normal)
  }

  function CreateEntries(resource: string, nameFunc: Obj -> string, dependsOn: seq<string>,
                         priority: Priority, suite: string, opts: seq<Obj>): (es: seq<TestEntry>)
    ensures |es| == |opts|
    ensures forall i :: 0 <= i < |opts| ==> es[i] == CreateTestEntry(resource, nameFunc, dependsOn, priority, suite, opts[i])
  {
    seq(|opts|, i requires 0 <= i < |opts| => CreateTestEntry(resource, nameFunc, dependsOn, priority, suite, opts[i]))
  }

  function DeleteEntries(resource: string, nameFunc: Obj -> string, dependsOn: seq<string>,
                         priority: Priority, suite: string, opts: seq<Obj>): (es: seq<TestEntry>)
    ensures |es| == |opts|
    ensures forall i :: 0 <= i < |opts| ==> es[i] == DeleteTestEntry(resource, nameFunc, dependsOn, priority, suite, opts[i])
  {
    seq(|opts|, i requires 0 <= i < |opts| => DeleteTestEntry(resource, nameFunc, dependsOn, priority, suite, opts[i]))
  }

  function ManagedCreateEntries(resource: string, nameFunc: Obj -> string, dependsOn: seq<string>, opts: seq<Obj>): (es: seq<TestEntry>)
    ensures |es| == |opts|
    ensures forall i :: 0 <= i < |opts| ==> es[i] == ManagedCreateEntry(resource, nameFunc, dependsOn, opts[i])
  {
    seq(|opts|, i requires 0 <= i < |opts| => ManagedCreateEntry(resource, nameFunc, dependsOn, opts[i]))
  }

  /** The search of a generated delete test: no dependents, unlocked, and
      the options are a subset of the data. */
  function DeletableSearch(opt: Obj): StateView -> bool {
    (v: StateView) => |v.dependents| == 0 && v.lockedBy.None? && IsSubsetOf(opt, v.data)
  }

  /** Generated create test `i`, run where the world answers its `create`
      as the manager's create function `f` does, leaves the context as
      `create` leaves it and fails exactly when `create` throws, with the
      same error; that answer is used up. */
  lemma CreateTestAnswered(c: Config, resource: string, nameFunc: Obj -> string, dependsOn: seq<string>,
                           priority: Priority, suite: string, opts: seq<Obj>, i: nat, arg: string,
                           f: Option<Handler>, created: Result<Obj>)
    requires i < |opts| && c.answers != [] && c.answers[0] == CreateAnswer(f, opts[i], created)
    ensures var o := CreateOutcome(f, opts[i], created);
      Exec(c, CreateEntries(resource, nameFunc, dependsOn, priority, suite, opts)[i].func, arg) ==
        (CreateConfig(c.(answers := c.answers[1..]), f, opts[i]), if o.Failure? then Failure(o.error) else Success(""))
  {
    SingleAwait(c, "func", CreateVia(resource, opts[i]), "", arg);
    CreateFramesMeaning(c.(answers := c.answers[1..]), f, opts[i]);
  }

  /** The same for create test `i` of `newResourceManager`, whose
      `createInternal` calls the create function `creator` as given. */
  lemma ManagedCreateTestAnswered(c: Config, resource: string, nameFunc: Obj -> string, dependsOn: seq<string>,
                                  opts: seq<Obj>, i: nat, arg: string, creator: Handler, created: Result<Obj>)
    requires i < |opts| && c.answers != [] && c.answers[0] == HandlerAnswer(creator, opts[i], created)
    ensures var o := HandlerResult(creator, opts[i], created);
      Exec(c, ManagedCreateEntries(resource, nameFunc, dependsOn, opts)[i].func, arg) ==
        (HandlerConfig(c.(answers := c.answers[1..]), creator, opts[i]), if o.Failure? then Failure(o.error) else Success(""))
  {
    SingleAwait(c, "func", CreateInternal(resource, opts[i]), "", arg);
    HandlerFramesMeaning(c.(answers := c.answers[1..]), creator, opts[i]);
  }

  /** Generated delete test `i`, run where the world's next answer is
      `a`, opens and closes that answer's frames and fails exactly when it
      does; `RunDeleteTest` states which answer the manager gives. */
  lemma DeleteTestAnswered(c: Config, resource: string, nameFunc: Obj -> string, dependsOn: seq<string>,
                           priority: Priority, suite: string, opts: seq<Obj>, i: nat, arg: string, a: Answer)
    requires i < |opts| && c.answers != [] && c.answers[0] == a
    ensures Exec(c, DeleteEntries(resource, nameFunc, dependsOn, priority, suite, opts)[i].func, arg) ==
      (FramesF(c.(answers := c.answers[1..]), a.frames), if a.outcome.Failure? then Failure(a.outcome.error) else Success(""))
  {
    SingleAwait(c, "func", DeleteUnused(resource, opts[i]), "", arg);
  }

  /** With no answer left, a generated test throws and changes nothing. */
  lemma GeneratedTestUnanswered(c: Config, e: TestEntry, arg: string)
    requires c.answers == []
    requires e.func.Body? && |e.func.steps| == 1 && e.func.steps[0].Await?
    ensures Exec(c, e.func, arg) == (c, Failure(Unanswered))
  {
  }

  /** The arguments of `newResourceManager`. */
  datatype ManagerArgs = ManagerArgs(
    resourceName: string,
    dependsOn: seq<string>,
    createTestName: Obj -> string,
    createCases: seq<Obj>,
    createFunc: Handler,
    deleteTestName: Obj -> string,
    deleteCases: seq<Obj>,
    deleteFunc: Handler)

  /** `TestRegistry`: the tests in registration order, their names, and the
      resource managers. */
  class TestRegistry {
    var entries: seq<TestEntry>
    var names: seq<string>
    const resources: ResourceManagerRegistry

    /** `names` lists the entries' names, and no name is registered twice. */
    ghost predicate Valid()
      reads this
    {
      names == NamesOf(entries) && Distinct(names)
    }

    constructor ()
      ensures entries == [] && names == [] && Valid()
      ensures fresh(resources) && resources.lookup == map[] && resources.order == [] && resources.Valid()
    {
      entries := [];
      names := [];
      resources := new ResourceManagerRegistry();
    }

    /** `find(name)`: the first entry with that name, or null. */
    method Find(name: string) returns (r: Option<TestEntry>)
      requires Valid()
      ensures r.Some? ==> r.value in entries && r.value.name == name
      ensures r.None? <==> name !in names
      ensures r.Some? ==> forall e :: e in entries && e.name == name ==> e == r.value
    {
      var i := 0;
      while i < |entries|
        invariant 0 <= i <= |entries|
        invariant name !in names[..i]
      {
        if entries[i].name == name {
          assert names[i] == name;
          return Some(entries[i]);
        }
        assert names[..i + 1] == names[..i] + [names[i]];
        i := i + 1;
      }
      assert names[..i] == names;
      return None;
    }

    /** `registerUnwrapped(entry)`: throws on a taken name, otherwise
        appends the entry and its name. */
    method RegisterUnwrapped(entry: TestEntry) returns (r: Result<TestEntry>)
      requires Valid()
      modifies this
      ensures Valid()
      ensures entry.name in old(names) ==>
        r == Failure(DuplicateError(entry.name)) && entries == old(entries) && names == old(names)
      ensures entry.name !in old(names) ==>
        r == Success(entry) && entries == old(entries) + [entry] && names == old(names) + [entry.name]
    {
      var i := 0;
      while i < |names|
        invariant 0 <= i <= |names|
        invariant entry.name !in names[..i]
      {
        if entry.name == names[i] {
          return Failure(DuplicateError(names[i]));
        }
        assert names[..i + 1] == names[..i] + [names[i]];
        i := i + 1;
      }
      assert names[..i] == names;
      names := names + [entry.name];
      entries := entries + [entry];
      return Success(entry);
    }

    /** `register(entry)`: registers the entry, then replaces its function
        by the function wrapped under the test's name. */
    method Register(entry: TestEntry) returns (r: Result<TestEntry>)
      requires Valid()
      modifies this
      ensures Valid()
      ensures (entries, if r.Success? then Success(()) else Failure(r.error)) == RegisterAllF(old(entries), [entry])
      ensures r.Success? ==> r.value == Registered(entry)
    {
      assert NamesOf(entries) == names;
      assert [entry][1..] == [];
      r := RegisterUnwrapped(entry);
      if r.Failure? {
        return;
      }
      var wrapped := Registered(entry);
      entries := entries[|entries| - 1 := wrapped];
      assert entries == old(entries) + [wrapped];
      assert RegisterAllF(old(entries), [entry]) == RegisterAllF(old(entries) + [wrapped], []);
      return Success(wrapped);
    }

    /** Registers a batch, stopping at the first taken name. */
    method RegisterAll(news: seq<TestEntry>) returns (r: Result<()>)
      requires Valid()
      modifies this
      ensures Valid()
      ensures (entries, r) == RegisterAllF(old(entries), news)
    {
      var i := 0;
      while i < |news|
        invariant 0 <= i <= |news|
        invariant Valid()
        invariant RegisterAllF(old(entries), news) == RegisterAllF(entries, news[i..])
      {
        assert news[i..][1..] == news[i + 1..];
        var e := Register(news[i]);
        if e.Failure? {
          return Failure(e.error);
        }
        i := i + 1;
      }
      return Success(());
    }

    /** `registerCreateTests(resourceManager, nameFunc, dependsOn,
        priority, suite, ...opts)`: one create test per set of options. */
    method RegisterCreateTests(rm: ResourceManager, nameFunc: Obj -> string, dependsOn: seq<string>,
                               priority: Priority, suite: string, opts: seq<Obj>) returns (r: Result<()>)
      requires Valid()
      modifies this
      ensures Valid()
      ensures (entries, r) == RegisterAllF(old(entries), CreateEntries(rm.name, nameFunc, dependsOn, priority, suite, opts))
    {
      r := RegisterAll(CreateEntries(rm.name, nameFunc, dependsOn, priority, suite, opts));
    }

    /** `registerDeleteTests(...)`: one delete test per set of options. */
    method RegisterDeleteTests(rm: ResourceManager, nameFunc: Obj -> string, dependsOn: seq<string>,
                               priority: Priority, suite: string, opts: seq<Obj>) returns (r: Result<()>)
      requires Valid()
      modifies this
      ensures Valid()
      ensures (entries, r) == RegisterAllF(old(entries), DeleteEntries(rm.name, nameFunc, dependsOn, priority, suite, opts))
    {
      r := RegisterAll(DeleteEntries(rm.name, nameFunc, dependsOn, priority, suite, opts));
    }

    /** `newResourceRegistry(resourceName)` */
    method NewResourceRegistry(resourceName: string) returns (r: Result<ResourceManager>)
      requires resources.Valid()
      modifies resources
      ensures resources.Valid()
      ensures resourceName in old(resources.lookup) ==>
        r == Failure(AlreadyDefined(resourceName)) && resources.lookup == old(resources.lookup)
      ensures resourceName !in old(resources.lookup) ==>
        && r.Success? && fresh(r.value) && r.value.name == resourceName
        && resources.lookup == old(resources.lookup)[resourceName := r.value]
    {
      r := resources.New(resourceName);
    }

    /**
     * `newResourceManager(args)`: defines the manager, registers the
     * wrapped create function and one create test per create case (priority
     * `Normal`, suite the resource name), then the delete function as
     * given and one delete test per delete case (priority `Last`). A taken
     * resource name or test name throws at that point.
     */
    method NewResourceManager(args: ManagerArgs) returns (r: Result<ResourceManager>)
      requires Valid() && resources.Valid()
      modifies this, resources
      ensures Valid() && resources.Valid()
      ensures args.resourceName in old(resources.lookup) ==>
        && r == Failure(AlreadyDefined(args.resourceName))
        && resources.lookup == old(resources.lookup) && entries == old(entries)
      ensures args.resourceName !in old(resources.lookup) ==>
        var created := ManagedCreateEntries(args.resourceName, args.createTestName, args.dependsOn, args.createCases);
        var deletes := DeleteEntries(args.resourceName, args.deleteTestName, args.dependsOn, Last, args.resourceName, args.deleteCases);
        var (es1, r1) := RegisterAllF(old(entries), created);
        var (es2, r2) := RegisterAllF(es1, deletes);
        exists rm: ResourceManager ::
          && fresh(rm) && rm.name == args.resourceName
          && resources.lookup == old(resources.lookup)[args.resourceName := rm]
          && rm.createFunc == Some(WrapHandler(args.createFunc, WrapArgs(None, Some(args.createTestName))))
          && (r1.Failure? ==> r == Failure(r1.error) && entries == es1 && rm.deleteFunc.None?)
          && (r1.Success? ==>
                && rm.deleteFunc == Some(args.deleteFunc) && entries == es2
                && r == (if r2.Failure? then Failure(r2.error) else Success(rm)))
    {
      var m := resources.New(args.resourceName);
      if m.Failure? {
        return m;
      }
      var rm := m.value;
      rm.RegisterWrappedCreateFunc(args.createTestName, args.createFunc);
      var created := ManagedCreateEntries(args.resourceName, args.createTestName, args.dependsOn, args.createCases);
      var r1 := RegisterAll(created);
      if r1.Failure? {
        return Failure(r1.error);
      }
      rm.RegisterDeleteFunc(args.deleteFunc);
      var r2 := RegisterAll(DeleteEntries(args.resourceName, args.deleteTestName, args.dependsOn, Last, args.resourceName, args.deleteCases));
      if r2.Failure? {
        return Failure(r2.error);
      }
      return Success(rm);
    }
  }

  /** The body of a generated create test: `create(ctx, opt, (_) => {})`. */
  method RunCreateTest(rm: ResourceManager, opt: Obj, ctx: TestContext, created: Result<Obj>) returns (r: Result<State>)
    modifies rm.bag, ctx, ctx.thread
    ensures ctx.Snapshot() == CreateConfig(old(ctx.Snapshot()), rm.createFunc, opt)
    ensures rm.bag.deleted == old(rm.bag.deleted)
    ensures var o := CreateOutcome(rm.createFunc, opt, created);
      && (o.Failure? ==> r == Failure(o.error) && rm.bag.elements == old(rm.bag.elements))
      && (o.Success? ==>
            && r.Success? && fresh(r.value)
            && rm.bag.elements == old(rm.bag.elements) + [r.value]
            && r.value.View() == StateView(o.value, [], None))
  {
    r := rm.Create(ctx, opt, Keep, created);
  }

  /** The body of a create test of `newResourceManager`: `createInternal`
      with the create function as given. */
  method RunManagedCreateTest(rm: ResourceManager, opt: Obj, creator: Handler, ctx: TestContext, created: Result<Obj>)
    returns (r: Result<State>)
    modifies rm.bag, ctx, ctx.thread
    ensures ctx.Snapshot() == HandlerConfig(old(ctx.Snapshot()), creator, opt)
    ensures rm.bag.deleted == old(rm.bag.deleted)
    ensures var o := HandlerResult(creator, opt, created);
      && (o.Failure? ==> r == Failure(o.error) && rm.bag.elements == old(rm.bag.elements))
      && (o.Success? ==>
            && r.Success? && fresh(r.value)
            && rm.bag.elements == old(rm.bag.elements) + [r.value]
            && r.value.View() == StateView(o.value, [], None))
  {
    r := rm.CreateInternal(ctx, opt, Keep, creator, created);
  }

  /** The answer a delete test's operation gives, from what the find and
      the delete did to the context and how they settled: `inBag` tells
      whether the find matched a record already there, `hit` whether it
      came back with a record. */
  lemma DeleteAnswer(c0: Config, ctxAfterFind: Config, ctxEnd: Config, inBag: bool, createFunc: Option<Handler>, opt: Obj,
                     hit: bool, deleteFunc: Option<Handler>, data: Obj, deleterOutcome: Result<()>, err: string,
                     r: Result<string>)
    returns (answer: Answer)
    requires inBag ==> ctxAfterFind == c0
    requires !inBag ==> ctxAfterFind == CreateConfig(c0, createFunc, opt)
    requires !hit ==> r == Failure(err) && ctxEnd == ctxAfterFind
    requires hit && deleteFunc.None? ==> r == Failure(NoDeleteFunc) && ctxEnd == ctxAfterFind
    requires hit && deleteFunc.Some? ==>
      var d := HandlerResult(deleteFunc.value, data, deleterOutcome);
      && r == (if d.Failure? then Failure(d.error) else Success(""))
      && ctxEnd == HandlerConfig(ctxAfterFind, deleteFunc.value, data)
    ensures ctxEnd == FramesF(c0, answer.frames)
    ensures r == (if answer.outcome.Failure? then Failure(answer.outcome.error) else Success(""))
    ensures answer.frames ==
      (if inBag then [] else CreateFrames(createFunc, opt))
      + (if hit && deleteFunc.Some? then HandlerFrames(deleteFunc.value, data) else [])
  {
    var miss := if inBag then [] else CreateFrames(createFunc, opt);
    CreateFramesMeaning(c0, createFunc, opt);
    assert ctxAfterFind == FramesF(c0, miss);
    if !hit {
      answer := Answer(miss, Failure(err));
      assert miss + [] == miss;
    } else if deleteFunc.None? {
      answer := Answer(miss, Failure(NoDeleteFunc));
      assert miss + [] == miss;
    } else {
      var h := deleteFunc.value;
      answer := Answer(miss + HandlerFrames(h, data), HandlerResult(h, data, deleterOutcome));
      FramesAppend(c0, miss, HandlerFrames(h, data));
      HandlerFramesMeaning(ctxAfterFind, h, data);
    }
  }

  /**
   * The body of a generated delete test: `findDataAndCall` with the
   * deletable search and `delete` as the function. The record it picks was
   * unused and matched the options (or was created for them), and it is
   * unlocked again afterwards.
   */
  method RunDeleteTest(rm: ResourceManager, opt: Obj, ctx: TestContext, created: Result<Obj>, deleterOutcome: Result<()>)
    returns (r: Result<string>, ghost found: Result<State>, ghost answer: Answer, ghost inBag: bool)
    modifies rm.bag, rm.bag.elements, ctx, ctx.thread
    ensures ctx.Snapshot() == FramesF(old(ctx.Snapshot()), answer.frames)
    ensures r == (if answer.outcome.Failure? then Failure(answer.outcome.error) else Success(""))
    ensures inBag <==> FirstMatch(old(Views(rm.bag.elements)), DeletableSearch(opt)).Some?
    ensures answer.frames ==
      (if inBag then [] else CreateFrames(rm.createFunc, opt))
      + (if found.Success? && rm.deleteFunc.Some? then HandlerFrames(rm.deleteFunc.value, found.value.data) else [])
    ensures found.Success? && found.value in old(rm.bag.elements) ==>
      var v := old(found.value.View());
      v.dependents == [] && v.lockedBy.None? && IsSubsetOf(opt, v.data)
    ensures found.Success? ==> found.value.View().lockedBy.None?
    ensures found.Failure? ==> r == Failure(found.error)
    ensures found.Success? && rm.deleteFunc.None? ==> r == Failure(NoDeleteFunc)
    ensures forall s :: s in old(rm.bag.elements) && (found.Failure? || s != found.value) ==> s.View() == old(s.View())
  {
    var q := Query(None, Some(DeletableSearch(opt)), opt, None);
    ghost var c0 := ctx.Snapshot();
    ghost var k := FirstMatch(Views(rm.bag.elements), DeletableSearch(opt));
    ghost var cf, df := rm.createFunc, rm.deleteFunc;
    inBag := k.Some?;
    ghost var picked, afterFind, ctxAfterFind;
    r, found, picked, afterFind, ctxAfterFind := rm.FindStateAndCall(q, None, ctx, created, DeleteFound(deleterOutcome));
    ghost var data := if found.Success? then found.value.data else map[];
    assert found.Success? ==> picked.data == data;
    assert rm.createFunc == cf && rm.deleteFunc == df;
    answer := DeleteAnswer(c0, ctxAfterFind, ctx.Snapshot(), k.Some?, cf, opt, found.Success?, df, data,
                           deleterOutcome, if found.Failure? then found.error else "", r);
  }
}

=== FILE: resources.dfy ===
/**
 * Resource bookkeeping: the state records of one resource kind
 * (`StateBag`), the manager that creates, finds, locks and deletes them
 * (`ResourceManager`) and the name-keyed registry of managers
 * (`ResourceManagerRegistry`).
 *
 * A state record is an object: the bag's lists, the callers of `get` and
 * the modifiers all share it, and a modifier changes it in place. A search
 * is a predicate on the record's current value; a modifier is one of the
 * `Modifier` values of the Base module.
 *
 * The create and delete functions registered on a manager are user code
 * talking to a service. Each call of one is given its outcome as a
 * parameter (the data it resolves to, or the message it throws); what it
 * does besides is not part of this model. A function registered through
 * `registerWrapped...` opens and closes its own frame on the caller's
 * context, as `wrap` does, and that is modelled.
 */
module Resources {
  import opened ObjectEquality
  import opened Base
  import opened Context

  // ---------------------------------------------------------------------
  // State records

  /** The value of a state record at one moment. */
  datatype StateView = StateView(data: Obj, dependents: seq<string>, lockedBy: Option<string>)

  /** `findIndex(s => s == t)`: the first position holding `t`. */
  function IndexOf(xs: seq<string>, t: string): (r: Option<nat>)
    ensures r.Some? ==> r.value < |xs| && xs[r.value] == t && t !in xs[..r.value]
    ensures r.None? ==> t !in xs
  {
    if xs == [] then None
    else if xs[0] == t then Some(0)
    else
      var k := IndexOf(xs[1..], t);
      if k.None? then None
      else
        assert xs[..k.value + 1] == [xs[0]] + xs[1..][..k.value];
        Some(k.value + 1)
  }

  /** Drops the first occurrence of `t`, keeping the rest in order. */
  function RemoveFirst(xs: seq<string>, t: string): seq<string> {
    match IndexOf(xs, t)
    case None => xs
    case Some(i) => xs[..i] + xs[i + 1..]
  }

  /** Removing a tag takes away exactly one copy of it when present, keeps
      every other tag with its multiplicity, and changes nothing when the
      tag is absent. */
  lemma RemoveFirstCount(xs: seq<string>, t: string)
    ensures t !in xs ==> RemoveFirst(xs, t) == xs
    ensures t in xs ==> |RemoveFirst(xs, t)| == |xs| - 1
    ensures multiset(RemoveFirst(xs, t)) == multiset(xs) - multiset{t}
  {
    match IndexOf(xs, t)
    case None =>
      assert multiset(xs)[t] == 0;
    case Some(i) =>
      assert xs == xs[..i] + [xs[i]] + xs[i + 1..];
  }

  /** The value a modifier leaves: `(_) => {}`, `lockedBy := owner`, a tag
      pushed onto `dependents`, or the first copy of a tag removed from it. */
  function Modified(v: StateView, m: Modifier): (r: StateView)
    ensures r.data == v.data
  {
    match m
    case Keep => v
    case SetLock(owner) => v.(lockedBy := owner)
    case AddDependent(tag) => v.(dependents := v.dependents + [tag])
    case RemoveDependent(tag) => v.(dependents := RemoveFirst(v.dependents, tag))
  }

  /** The advisory lock round trip: locking for an owner and then releasing
      gives back the record as it was, when it was unlocked. */
  lemma LockRoundTrip(v: StateView, owner: Option<string>)
    requires v.lockedBy.None?
    ensures Modified(Modified(v, SetLock(owner)), SetLock(None)) == v
  {
  }

  /** The value record `s` has once the callbacks `cbs` ran on it, in
      order, starting from `v`: each release holding `s` applies its
      modifier, and every other callback leaves it alone. */
  function Released(v: StateView, s: object, cbs: seq<Callback>): StateView {
    if cbs == [] then v
    else
      var w := Released(v, s, cbs[..|cbs| - 1]);
      var cb := cbs[|cbs| - 1];
      if cb.PostModify? && cb.target == s then Modified(w, cb.m) else w
  }

  /** Whether none of the callbacks is a release of record `s`. */
  predicate NoReleaseOf(cbs: seq<Callback>, s: object) {
    forall i :: 0 <= i < |cbs| ==> !(cbs[i].PostModify? && cbs[i].target == s)
  }

  /** Callbacks that hold no release of a record leave it as it was. */
  lemma {:induction false} ReleasedNone(v: StateView, s: object, cbs: seq<Callback>)
    requires NoReleaseOf(cbs, s)
    ensures Released(v, s, cbs) == v
  {
    if cbs != [] {
      ReleasedNone(v, s, cbs[..|cbs| - 1]);
    }
  }

  /** The advisory lock over a frame: a record found unlocked, locked for
      some owner, left alone by the releases its frame already held and
      then released, is exactly as it was found. With the contract of
      `FindStateThenEnd` this is the round trip of the default `findState`. */
  lemma LockReleasedAtEnd(v: StateView, owner: Option<string>, s: object, pending: seq<Callback>)
    requires v.lockedBy.None? && NoReleaseOf(pending, s)
    ensures Modified(Released(Modified(v, SetLock(owner)), s, pending), SetLock(None)) == v
  {
    ReleasedNone(Modified(v, SetLock(owner)), s, pending);
    LockRoundTrip(v, owner);
  }

  /** `create` opens and closes its frames above the current one, so the
      callbacks the current frame's end will run are the same. */
  lemma PendingAfterCreate(c: Config, f: Option<Handler>, options: Obj)
    ensures EndedCallbacks(CreateConfig(c, f, options)) == EndedCallbacks(c)
  {
    if f.Some? && HandlerFrame(f.value, options).Some? && HandlerFrame(f.value, options).value != "" {
      HandlerFrameBalanced(c, f.value, options);
      var name := HandlerFrame(f.value, options).value;
      assert CreateConfig(c, f, options).rootDeferred == c.rootDeferred;
    }
  }

  /** The release deferred last runs last. */
  lemma ReleaseLast(v: StateView, s: object, pending: seq<Callback>, resource: string, m: Modifier)
    ensures Released(v, s, pending + [PostModify(resource, s, m)]) == Modified(Released(v, s, pending), m)
  {
    assert (pending + [PostModify(resource, s, m)])[..|pending|] == pending;
  }

  /** A callback deferred with level 0 is the last one the current
      frame's end runs. */
  lemma DeferPending(c: Config, cb: Callback)
    ensures EndedCallbacks(DeferF(c, 0, cb)) == EndedCallbacks(c) + [cb]
  {
  }

  /** The first position of record `o` in `ss`. */
  function Holding(ss: seq<State>, o: object): (r: Option<nat>)
    ensures r.Some? ==> r.value < |ss| && ss[r.value] == o
    ensures r.None? ==> forall i :: 0 <= i < |ss| ==> ss[i] != o
  {
    if ss == [] then None
    else if ss[0] == o then Some(0)
    else
      var k := Holding(ss[1..], o);
      if k.None? then None else Some(k.value + 1)
  }

  /** A state record: `data`, `dependents` and `lockedBy`. */
  class State {
    const data: Obj
    var dependents: seq<string>
    var lockedBy: Option<string>

    function View(): StateView
      reads this
    {
      StateView(data, dependents, lockedBy)
    }

    /** The record `createInternal` builds around new data. */
    constructor (data: Obj)
      ensures View() == StateView(data, [], None)
    {
      this.data := data;
      dependents := [];
      lockedBy := None;
    }

    /** Calls a modifier on this record. */
    method Apply(m: Modifier)
      modifies this
      ensures View() == Modified(old(View()), m)
    {
      match m
      case Keep =>
      case SetLock(owner) =>
        lockedBy := owner;
      case AddDependent(tag) =>
        dependents := dependents + [tag];
      case RemoveDependent(tag) =>
        var index := IndexOf(dependents, tag);
        if index.Some? {
          dependents := dependents[..index.value] + dependents[index.value + 1..];
        }
    }
  }

  /** The current values of a list of records. */
  function Views(ss: seq<State>): (vs: seq<StateView>)
    reads ss
    ensures |vs| == |ss|
    ensures forall i :: 0 <= i < |ss| ==> vs[i] == ss[i].View()
  {
    seq(|ss|, i reads ss requires 0 <= i < |ss| => ss[i].View())
  }

  /** `findIndex(search)`: the position of the first value the search
      accepts. */
  function FirstMatch(vs: seq<StateView>, search: StateView -> bool): (r: Option<nat>)
    ensures r.Some? ==> r.value < |vs| && search(vs[r.value])
    ensures r.Some? ==> forall j :: 0 <= j < r.value ==> !search(vs[j])
    ensures r.None? ==> forall j :: 0 <= j < |vs| ==> !search(vs[j])
  {
    if vs == [] then None
    else if search(vs[0]) then Some(0)
    else
      var k := FirstMatch(vs[1..], search);
      if k.None? then None
      else
        assert forall j :: 1 <= j < k.value + 1 ==> vs[j] == vs[1..][j - 1];
        Some(k.value + 1)
  }

  /** The data of each record, in order. */
  function DataOf(vs: seq<StateView>): (ds: seq<Obj>)
    ensures |ds| == |vs|
    ensures forall i :: 0 <= i < |vs| ==> ds[i] == vs[i].data
  {
    seq(|vs|, i requires 0 <= i < |vs| => vs[i].data)
  }

  /** What `save` returns and `load` takes: the two lists. The records in
      them are the bag's own records (the lists are copied, the records are
      not). */
  datatype BagData = BagData(elements: seq<State>, deleted: seq<State>)

  /** The lists after `delete(search)`, given the current values `vs` of the
      active records: the first accepted record moves to the end of the
      history. */
  function AfterDelete(b: BagData, vs: seq<StateView>, search: StateView -> bool): BagData
    requires |vs| == |b.elements|
  {
    match FirstMatch(vs, search)
    case None => b
    case Some(i) => BagData(b.elements[..i] + b.elements[i + 1..], b.deleted + [b.elements[i]])
  }

  /** A deletion loses and duplicates no record: it moves at most one, the
      first accepted, from the active list to the end of the history, keeps
      the other active records in their order, and never rewrites the
      history. */
  lemma {:induction false} DeleteConserves(b: BagData, vs: seq<StateView>, search: StateView -> bool)
    requires |vs| == |b.elements|
    ensures var r := AfterDelete(b, vs, search);
      && multiset(r.elements) + multiset(r.deleted) == multiset(b.elements) + multiset(b.deleted)
      && b.deleted <= r.deleted
      && (FirstMatch(vs, search).None? <==> r == b)
      && (FirstMatch(vs, search).Some? ==>
            var i := FirstMatch(vs, search).value;
            && r.deleted == b.deleted + [b.elements[i]]
            && |r.elements| == |b.elements| - 1
            && forall j :: 0 <= j < |r.elements| ==> r.elements[j] == b.elements[if j < i then j else j + 1])
  {
    match FirstMatch(vs, search)
    case None =>
    case Some(i) =>
      MoveConserves(b.elements, b.deleted, i, b.elements[..i] + b.elements[i + 1..]);
  }

  /** Moving the record at `i` from the active list to the end of the
      history keeps every record and changes the history. */
  lemma MoveConserves(es: seq<State>, ds: seq<State>, i: nat, rest: seq<State>)
    requires i < |es| && rest == es[..i] + es[i + 1..]
    ensures multiset(rest) + multiset(ds + [es[i]]) == multiset(es) + multiset(ds)
    ensures ds + [es[i]] != ds
    ensures |rest| == |es| - 1
    ensures forall j :: 0 <= j < |rest| ==> rest[j] == es[if j < i then j else j + 1]
  {
    assert es == es[..i] + [es[i]] + es[i + 1..];
    assert |ds + [es[i]]| != |ds|;
  }

  /** The two chained `splice` calls of `delete` as written: the first
      cuts the records before `i` out of the list it is called on, so the
      second, still counting from `i + 1`, starts `i` records too late. */
  function SpliceDelete(es: seq<State>, i: nat): seq<State>
    requires i < |es|
  {
    var first := es[..i];
    var rest := es[i..];
    var second := if i + 1 < |rest| then rest[i + 1..] else [];
    first + second
  }

  /** `delete(search)` as written. */
  function AfterDeleteAsWritten(b: BagData, vs: seq<StateView>, search: StateView -> bool): BagData
    requires |vs| == |b.elements|
  {
    match FirstMatch(vs, search)
    case None => b
    case Some(i) => BagData(SpliceDelete(b.elements, i), b.deleted + [b.elements[i]])
  }

  /** As written, deleting a record that is not first and not last loses
      records: the ones right after it leave the active list without
      reaching the history. From the first position it agrees with the
      intended deletion. */
  lemma {:induction false} DeleteAsWrittenLosesRecords(b: BagData, vs: seq<StateView>, search: StateView -> bool)
    requires |vs| == |b.elements|
    ensures FirstMatch(vs, search) == Some(0) ==> AfterDeleteAsWritten(b, vs, search) == AfterDelete(b, vs, search)
    ensures var k := FirstMatch(vs, search);
      k.Some? && 1 <= k.value && k.value + 1 < |b.elements| ==>
        var r := AfterDeleteAsWritten(b, vs, search);
        && |r.elements| + |r.deleted| < |b.elements| + |b.deleted|
        && multiset(r.elements) + multiset(r.deleted) + multiset{b.elements[k.value + 1]}
             <= multiset(b.elements) + multiset(b.deleted)
  {
    var k := FirstMatch(vs, search);
    if k.Some? {
      SpliceDeleteLoses(b.elements, k.value);
    }
  }

  /** What the chained splices keep: everything before `i`, and from
      position `i` on they drop `i + 1` records instead of one. */
  lemma SpliceDeleteLoses(es: seq<State>, i: nat)
    requires i < |es|
    ensures i == 0 ==> SpliceDelete(es, i) == es[..i] + es[i + 1..]
    ensures 1 <= i && i + 1 < |es| ==>
      multiset(SpliceDelete(es, i)) + multiset{es[i], es[i + 1]} <= multiset(es)
  {
    if i == 0 {
      assert es[0..][1..] == es[1..];
    } else if i + 1 < |es| {
      var tail := if 2 * i + 1 < |es| then es[2 * i + 1..] else [];
      assert SpliceDelete(es, i) == es[..i] + tail;
      assert es == es[..i] + [es[i], es[i + 1]] + es[i + 2..];
      if 2 * i + 1 < |es| {
        assert es[i + 2..] == es[i + 2..2 * i + 1] + tail;
      }
    }
  }

  // ---------------------------------------------------------------------
  // The bag

  /** `StateBag`: the active records of one resource kind and the
      append-only history of deleted ones. */
  class StateBag {
    var elements: seq<State>
    var deleted: seq<State>

    constructor ()
      ensures elements == [] && deleted == []
    {
      elements := [];
      deleted := [];
    }

    /** The data of the active records, in order. */
    function ActiveData(): seq<Obj>
      reads this, elements
    {
      DataOf(Views(elements))
    }

    method Add(s: State)
      modifies this
      ensures elements == old(elements) + [s] && deleted == old(deleted)
    {
      elements := elements + [s];
    }

    /** `clean(ctx, deleter)`: hands the data of every active record to the
        deleter, in order, then forgets every active record. The deleter's
        promises are not awaited; `handed` is the list of its calls. */
    method Clean() returns (handed: seq<Obj>)
      modifies this
      ensures handed == old(ActiveData())
      ensures elements == [] && deleted == old(deleted)
    {
      handed := [];
      var i := 0;
      while i < |elements|
        invariant 0 <= i <= |elements|
        invariant handed == DataOf(Views(elements[..i]))
      {
        assert elements[..i + 1] == elements[..i] + [elements[i]];
        handed := handed + [elements[i].data];
        i := i + 1;
      }
      assert elements[..|elements|] == elements;
      elements := [];
    }

    /** `delete(search)`: moves the first record the search accepts from the
        active list to the end of the history; the other active records
        keep their order. With no match nothing changes. */
    method Delete(search: StateView -> bool)
      modifies this
      ensures BagData(elements, deleted) == AfterDelete(old(BagData(elements, deleted)), Views(old(elements)), search)
    {
      var index := 0;
      while index < |elements| && !search(elements[index].View())
        invariant 0 <= index <= |elements|
        invariant forall j :: 0 <= j < index ==> !search(Views(elements)[j])
      {
        index := index + 1;
      }
      if index < |elements| {
        deleted := deleted + [elements[index]];
        elements := elements[..index] + elements[index + 1..];
      }
    }

    /** `get(search, modifier)`: the first record the search accepts, after
        calling the modifier on it; no other record changes. With no match
        the result is null and nothing changes. */
    method Get(search: StateView -> bool, m: Modifier) returns (r: Option<State>)
      modifies elements
      ensures elements == old(elements) && deleted == old(deleted)
      ensures match FirstMatch(old(Views(elements)), search)
        case None => r.None?
        case Some(i) => r == Some(elements[i]) && r.value.View() == Modified(old(r.value.View()), m)
      ensures forall s :: s in elements && (r.None? || s != r.value) ==> s.View() == old(s.View())
    {
      var i := 0;
      while i < |elements|
        invariant 0 <= i <= |elements|
        invariant forall j :: 0 <= j < i ==> !search(Views(elements)[j])
      {
        if search(elements[i].View()) {
          assert Views(elements)[i] == elements[i].View();
          elements[i].Apply(m);
          return Some(elements[i]);
        }
        i := i + 1;
      }
      return None;
    }

    /** `list()`: the active records themselves. */
    method List() returns (r: seq<State>)
      ensures r == elements
    {
      r := elements;
    }

    /** `save()`: copies of both lists. */
    method Save() returns (b: BagData)
      ensures b == BagData(elements, deleted)
    {
      b := BagData(elements, deleted);
    }

    /** `load(jsonObj)`: adopts both lists. */
    method Load(b: BagData)
      modifies this
      ensures elements == b.elements && deleted == b.deleted
    {
      elements := b.elements;
      deleted := b.deleted;
    }
  }

  // ---------------------------------------------------------------------
  // Create and delete functions

  /** A create or delete function registered on a manager: its JavaScript
      `.name` and, once it has been through `wrap`, the naming arguments
      (`wrapping` stands for the marker property `wrap` sets). */
  datatype Handler = Handler(fname: string, wrapping: Option<WrapArgs<Obj>>)

  /** `wrap(fn, args)` for a create or delete function: an already wrapped
      function is kept as it is. */
  function WrapHandler(h: Handler, args: WrapArgs<Obj>): Handler {
    if h.wrapping.Some? then h else h.(wrapping := Some(args))
  }

  /** Wrapping a handler marks it, and a second wrap changes nothing. */
  lemma WrapHandlerIdempotent(h: Handler, a: WrapArgs<Obj>, b: WrapArgs<Obj>)
    ensures WrapHandler(h, a).wrapping.Some?
    ensures WrapHandler(WrapHandler(h, a), b) == WrapHandler(h, a)
    ensures h.wrapping.None? ==> WrapHandler(h, a).wrapping == Some(a) && WrapHandler(h, a).fname == h.fname
  {
  }

  /** The frame a call of `h` with `arg` opens: none for a plain function,
      the resolved name for a wrapped one. */
  function HandlerFrame(h: Handler, arg: Obj): Option<string> {
    if h.wrapping.None? then None else Some(ResolveName(h.wrapping.value, h.fname, arg))
  }

  /** What a call of `h` does to the caller's context: a wrapped function
      with a name opens its frame and closes it again. */
  function HandlerConfig(c: Config, h: Handler, arg: Obj): Config {
    match HandlerFrame(h, arg)
    case None => c
    case Some(name) => if name == "" then c else EndF(BeginF(c, name)).0
  }

  /** The outcome of a call of `h` whose body settles with `outcome`: a
      wrapped function without a name throws before calling the body. */
  function HandlerResult<T>(h: Handler, arg: Obj, outcome: Result<T>): Result<T> {
    if HandlerFrame(h, arg) == Some("") then Failure(NameMissing) else outcome
  }

  /** A wrapped create or delete function announces itself as a test of its
      own: one start and one "passed" finish under its resolved name (none
      when that name is the caller's own), nothing else in the log, and the
      caller's frames as they were. */
  lemma {:induction false} HandlerFrameBalanced(c: Config, h: Handler, arg: Obj)
    requires HandlerFrame(h, arg).Some? && HandlerFrame(h, arg).value != ""
    ensures var name := HandlerFrame(h, arg).value;
      var d := HandlerConfig(c, h, arg);
      && Settles(c, d)
      && d.frames == c.frames && d.ran == c.ran && d.logs == c.logs
      && d.items == c.items + (if CurrentName(c) != Some(name) then [Started(name), Finished(name, Passed)] else [])
  {
    var name := HandlerFrame(h, arg).value;
    var b := BeginF(c, name);
    var d := EndF(b).0;
    assert HandlerConfig(c, h, arg) == d;
    assert Settles(b, b);
    EndAfterBegin(c, name, b);
    assert d.frames == c.frames by {
      assert b.frames[..|c.frames|] == c.frames;
    }
    assert d.ran == c.ran && d.logs == c.logs by {
      assert b.frames[|c.frames|].deferred == [];
      assert NotesOf([]) == [];
    }
    if CurrentName(c) != Some(name) {
      assert d.items == c.items + [Started(name)] + [Finished(name, Passed)];
    }
  }

  /** Calls a registered create or delete function on the caller's context,
      its body settling with `outcome`. */
  method CallHandler<T>(ctx: TestContext, h: Handler, arg: Obj, outcome: Result<T>) returns (r: Result<T>)
    modifies ctx, ctx.thread
    ensures ctx.Snapshot() == HandlerConfig(old(ctx.Snapshot()), h, arg)
    ensures r == HandlerResult(h, arg, outcome)
  {
    var frame := HandlerFrame(h, arg);
    if frame.None? {
      return outcome;
    }
    if frame.value == "" {
      return Failure(NameMissing);
    }
    ctx.Begin(frame.value);
    var e := ctx.End();
    assert e.Success?;
    return outcome;
  }

  // ---------------------------------------------------------------------
  // The resource manager

  const NoCreateFunc := "createFun calling create"
  const NoDeleteFunc := "deleteFunc not set"
  const NoDeleter := "deleter func not set!"
  const BothSearches := "both searchData and searchState cannot be defined at once"

  /** What `create` settles with: no create function, or the create
      function's outcome. */
  function CreateOutcome(f: Option<Handler>, options: Obj, created: Result<Obj>): Result<Obj> {
    if f.None? then Failure(NoCreateFunc) else HandlerResult(f.value, options, created)
  }

  /** What `create` does to the caller's context. */
  function CreateConfig(c: Config, f: Option<Handler>, options: Obj): Config {
    if f.None? then c else HandlerConfig(c, f.value, options)
  }

  /** The frames a call of `h` with `arg` opens and closes again: the
      resolved name of a wrapped function, none for a plain one, and none
      when that name is empty, for then the call throws first. */
  function HandlerFrames(h: Handler, arg: Obj): seq<string> {
    match HandlerFrame(h, arg)
    case None => []
    case Some(name) => if name == "" then [] else [name]
  }

  function CreateFrames(f: Option<Handler>, options: Obj): seq<string> {
    if f.None? then [] else HandlerFrames(f.value, options)
  }

  /** An outcome with its value dropped, as `await` on it sees it. */
  function Unit<T>(o: Result<T>): (u: Result<()>)
    ensures u.Failure? <==> o.Failure?
    ensures u.Failure? ==> u.error == o.error
  {
    if o.Failure? then Failure(o.error) else Success(())
  }

  /** What the world answers when a test awaits a call of `h` with `arg`
      whose body settles with `outcome`. */
  function HandlerAnswer<T>(h: Handler, arg: Obj, outcome: Result<T>): Answer {
    Answer(HandlerFrames(h, arg), Unit(HandlerResult(h, arg, outcome)))
  }

  /** What the world answers when a test awaits `create` with create
      function `f`. */
  function CreateAnswer(f: Option<Handler>, options: Obj, created: Result<Obj>): Answer {
    Answer(CreateFrames(f, options), Unit(CreateOutcome(f, options, created)))
  }

  /** The frames of an answer do to a context what the call does. */
  lemma HandlerFramesMeaning(c: Config, h: Handler, arg: Obj)
    ensures FramesF(c, HandlerFrames(h, arg)) == HandlerConfig(c, h, arg)
  {
    if HandlerFrames(h, arg) != [] {
      var name := HandlerFrame(h, arg).value;
      assert FramesF(EndF(BeginF(c, name)).0, []) == EndF(BeginF(c, name)).0;
    }
  }

  lemma CreateFramesMeaning(c: Config, f: Option<Handler>, options: Obj)
    ensures FramesF(c, CreateFrames(f, options)) == CreateConfig(c, f, options)
  {
    if f.Some? {
      HandlerFramesMeaning(c, f.value, options);
    }
  }

  /** The options of `findStateManual` and its relatives. */
  datatype Query = Query(
    searchData: Option<Obj -> bool>,
    searchState: Option<StateView -> bool>,
    createArgs: Obj,
    modifierPre: Option<Modifier>)

  /** A data search lifted to records: `(state) => searcher(state.data)`. */
  function DataSearch(searcher: Obj -> bool): StateView -> bool {
    (v: StateView) => searcher(v.data)
  }

  /** The search `findStateManual` runs: the given state search, else the
      given data search applied to the record's data, else "unlocked and the
      create arguments are a subset of the data". */
  function SearchOf(q: Query): StateView -> bool {
    if q.searchState.Some? then q.searchState.value
    else if q.searchData.Some? then DataSearch(q.searchData.value)
    else (v: StateView) => v.lockedBy.None? && IsSubsetOf(q.createArgs, v.data)
  }

  /** The pre-modifier `findStateManual` calls: the given one, else locking
      the record for the current test (`ctx.currentTestName()`). */
  function PreOf(q: Query, current: Option<string>): Modifier {
    if q.modifierPre.Some? then q.modifierPre.value else SetLock(current)
  }

  /** The post-modifier: the given one, else releasing the lock. */
  function PostOf(post: Option<Modifier>): Modifier {
    if post.Some? then post.value else SetLock(None)
  }

  /**
   * The default search and the default modifiers make an advisory lock. A
   * record locked inside a test is invisible to every default search until
   * the default post-modifier releases it, and then it is found again
   * exactly when it was found before it was locked. At the root context
   * there is no current test name, so the default pre-modifier leaves the
   * record unlocked.
   */
  lemma DefaultLock(q: Query, v: StateView, test: string)
    requires q.searchData.None? && q.searchState.None? && q.modifierPre.None?
    ensures SearchOf(q)(v) <==> v.lockedBy.None? && IsSubsetOf(q.createArgs, v.data)
    ensures !SearchOf(q)(Modified(v, PreOf(q, Some(test))))
    ensures SearchOf(q)(v) ==> SearchOf(q)(Modified(Modified(v, PreOf(q, Some(test))), PostOf(None)))
    ensures SearchOf(q)(Modified(v, PreOf(q, None))) <==> IsSubsetOf(q.createArgs, v.data)
  {
  }

  /** The record search of `delete(ctx, data)`: same `id`, compared with
      `===`. */
  function SameId(data: Obj): StateView -> bool {
    (v: StateView) => StrictEq(Get(v.data, "id"), Get(data, "id"))
  }

  /** What a user function handed to `findStateAndCall` does: a modifier it
      applies to the record, and how it settles. `DeleteFound` is the
      function of a generated delete test, which deletes the record's data
      through the manager; its delete function settles with `outcome`. */
  datatype Action =
    | UserCall(effect: Modifier, outcome: Result<string>)
    | DeleteFound(deleterOutcome: Result<()>)

  /** `ResourceManager`: the records of one resource kind and the functions
      that create and delete them. */
  class ResourceManager {
    var bag: StateBag
    var createFunc: Option<Handler>
    var deleteFunc: Option<Handler>
    const name: string

    constructor (name: string)
      ensures this.name == name && createFunc.None? && deleteFunc.None?
      ensures fresh(bag) && bag.elements == [] && bag.deleted == []
    {
      this.name := name;
      bag := new StateBag();
      createFunc := None;
      deleteFunc := None;
    }

    /** `clean(ctx)`: without a delete function it throws; otherwise every
        active record's data goes to the delete function and the active list
        is emptied. */
    method Clean() returns (r: Result<seq<Obj>>)
      modifies bag
      ensures bag.deleted == old(bag.deleted)
      ensures deleteFunc.None? ==> r == Failure(NoDeleter) && bag.elements == old(bag.elements)
      ensures deleteFunc.Some? ==> r == Success(old(bag.ActiveData())) && bag.elements == []
    {
      if deleteFunc.None? {
        return Failure(NoDeleter);
      }
      var handed := bag.Clean();
      return Success(handed);
    }

    /** `clear()`: forgets every record, without deleting anything. */
    method Clear()
      modifies this
      ensures fresh(bag) && bag.elements == [] && bag.deleted == []
      ensures createFunc == old(createFunc) && deleteFunc == old(deleteFunc)
    {
      bag := new StateBag();
    }

    /** `createInternal(ctx, options, modifier, createFunc)`: awaits the
        create function; on success builds a new unlocked record with no
        dependents around the data, calls the modifier on it and appends it
        to the active list. If the create function throws, nothing is
        added. */
    method CreateInternal(ctx: TestContext, options: Obj, m: Modifier, creator: Handler, created: Result<Obj>)
      returns (r: Result<State>)
      modifies bag, ctx, ctx.thread
      ensures ctx.Snapshot() == HandlerConfig(old(ctx.Snapshot()), creator, options)
      ensures bag.deleted == old(bag.deleted)
      ensures var o := HandlerResult(creator, options, created);
        && (o.Failure? ==> r == Failure(o.error) && bag.elements == old(bag.elements))
        && (o.Success? ==>
              && r.Success? && fresh(r.value)
              && bag.elements == old(bag.elements) + [r.value]
              && r.value.View() == Modified(StateView(o.value, [], None), m))
    {
      var o := CallHandler(ctx, creator, options, created);
      if o.Failure? {
        return Failure(o.error);
      }
      var dataState := new State(o.value);
      dataState.Apply(m);
      bag.Add(dataState);
      return Success(dataState);
    }

    /** `create(ctx, options, modifier)`: throws without a create function,
        otherwise `createInternal` with the registered one. */
    method Create(ctx: TestContext, options: Obj, m: Modifier, created: Result<Obj>) returns (r: Result<State>)
      modifies bag, ctx, ctx.thread
      ensures ctx.Snapshot() == CreateConfig(old(ctx.Snapshot()), createFunc, options)
      ensures bag.deleted == old(bag.deleted)
      ensures var o := CreateOutcome(createFunc, options, created);
        && (o.Failure? ==> r == Failure(o.error) && bag.elements == old(bag.elements))
        && (o.Success? ==>
              && r.Success? && fresh(r.value)
              && bag.elements == old(bag.elements) + [r.value]
              && r.value.View() == Modified(StateView(o.value, [], None), m))
    {
      if createFunc.None? {
        return Failure(NoCreateFunc);
      }
      r := CreateInternal(ctx, options, m, createFunc.value, created);
    }

    /** `delete(ctx, data)`: throws without a delete function; otherwise
        awaits it and, if it returned, moves the first active record with
        the same `id` to the history. If it threw, the records are as they
        were. */
    method Delete(ctx: TestContext, data: Obj, outcome: Result<()>) returns (r: Result<()>)
      modifies bag, ctx, ctx.thread
      ensures deleteFunc.None? ==>
        && r == Failure(NoDeleteFunc)
        && ctx.Snapshot() == old(ctx.Snapshot())
        && bag.elements == old(bag.elements) && bag.deleted == old(bag.deleted)
      ensures deleteFunc.Some? ==>
        && ctx.Snapshot() == HandlerConfig(old(ctx.Snapshot()), deleteFunc.value, data)
        && r == HandlerResult(deleteFunc.value, data, outcome)
        && BagData(bag.elements, bag.deleted) ==
             if r.Failure? then old(BagData(bag.elements, bag.deleted))
             else AfterDelete(old(BagData(bag.elements, bag.deleted)), Views(old(bag.elements)), SameId(data))
    {
      if deleteFunc.None? {
        return Failure(NoDeleteFunc);
      }
      r := CallHandler(ctx, deleteFunc.value, data, outcome);
      if r.Failure? {
        return;
      }
      bag.Delete(SameId(data));
    }
  
    /** `getOrCreate0(ctx, search, createArgs, modifier)`: the first record
        the search accepts, with the modifier called on it; when there is
        none, a record made by `create` with the same modifier. */
    method GetOrCreate0(ctx: TestContext, search: StateView -> bool, createArgs: Obj, m: Modifier, created: Result<Obj>)
      returns (r: Result<State>)
      modifies bag, bag.elements, ctx, ctx.thread
      ensures bag.deleted == old(bag.deleted)
      ensures forall s :: s in old(bag.elements) && (r.Failure? || s != r.value) ==> s.View() == old(s.View())
      ensures var k := FirstMatch(old(Views(bag.elements)), search);
          var o := CreateOutcome(createFunc, createArgs, created);
          if k.Some? then
            && r == Success(old(bag.elements)[k.value]) && bag.elements == old(bag.elements)
            && r.value.View() == Modified(old(Views(bag.elements))[k.value], m)
            && ctx.Snapshot() == old(ctx.Snapshot())
          else
            && ctx.Snapshot() == CreateConfig(old(ctx.Snapshot()), createFunc, createArgs)
            && (o.Failure? ==> r == Failure(o.error) && bag.elements == old(bag.elements))
            && (o.Success? ==>
                  && r.Success? && fresh(r.value) && bag.elements == old(bag.elements) + [r.value]
                  && r.value.View() == Modified(StateView(o.value, [], None), m))
    {
      var found := bag.Get(search, m);
      if found.Some? {
        return Success(found.value);
      }
      r := Create(ctx, createArgs, m, created);
    }

    /**
     * `findStateManual(options, ctx)`: rejects a data search together with a
     * state search, then does what `getOrCreate0` does with the search of
     * `SearchOf` and the pre-modifier of `PreOf`. The default pre-modifier
     * reads the current test name when it is called; a wrapped create
     * function closes the frame it opens before that, so the name is the
     * one current at the start.
     */
    method FindStateManual(q: Query, ctx: TestContext, created: Result<Obj>) returns (r: Result<State>)
      modifies bag, bag.elements, ctx, ctx.thread
      ensures bag.deleted == old(bag.deleted)
      ensures forall s :: s in old(bag.elements) && (r.Failure? || s != r.value) ==> s.View() == old(s.View())
      ensures q.searchData.Some? && q.searchState.Some? ==>
        r == Failure(BothSearches) && bag.elements == old(bag.elements) && ctx.Snapshot() == old(ctx.Snapshot())
      ensures !(q.searchData.Some? && q.searchState.Some?) ==>
        var k := FirstMatch(old(Views(bag.elements)), SearchOf(q));
            var o := CreateOutcome(createFunc, q.createArgs, created);
            if k.Some? then
              && r == Success(old(bag.elements)[k.value]) && bag.elements == old(bag.elements)
              && r.value.View() == Modified(old(Views(bag.elements))[k.value], PreOf(q, CurrentName(old(ctx.Snapshot()))))
              && ctx.Snapshot() == old(ctx.Snapshot())
            else
              && ctx.Snapshot() == CreateConfig(old(ctx.Snapshot()), createFunc, q.createArgs)
              && (o.Failure? ==> r == Failure(o.error) && bag.elements == old(bag.elements))
              && (o.Success? ==>
                    && r.Success? && fresh(r.value) && bag.elements == old(bag.elements) + [r.value]
                    && r.value.View() == Modified(StateView(o.value, [], None), PreOf(q, CurrentName(old(ctx.Snapshot())))))
    {
      var pre := PreOf(q, ctx.CurrentTestName());
      if q.searchData.Some? && q.searchState.Some? {
        return Failure(BothSearches);
      }
      r := GetOrCreate0(ctx, SearchOf(q), q.createArgs, pre, created);
    }

    /**
     * `findStateAndCall(options, ctx, f)`: finds a record as
     * `findStateManual` does, calls `f` on it and then calls the
     * post-modifier (by default releasing the lock) whether `f` returned or
     * threw. `found`, `picked`, `afterFind` and `ctxAfterFind` are the
     * record, its value, the active list and the context right after the
     * find.
     */
    method FindStateAndCall(q: Query, post: Option<Modifier>, ctx: TestContext, created: Result<Obj>, action: Action)
      returns (r: Result<string>, ghost found: Result<State>, ghost picked: StateView,
               ghost afterFind: seq<State>, ghost ctxAfterFind: Config)
      modifies bag, bag.elements, ctx, ctx.thread
      ensures forall s :: s in old(bag.elements) && (found.Failure? || s != found.value) ==> s.View() == old(s.View())
      ensures q.searchData.Some? && q.searchState.Some? ==>
        found == Failure(BothSearches) && afterFind == old(bag.elements) && ctxAfterFind == old(ctx.Snapshot())
      ensures !(q.searchData.Some? && q.searchState.Some?) ==>
        var k := FirstMatch(old(Views(bag.elements)), SearchOf(q));
            var o := CreateOutcome(createFunc, q.createArgs, created);
            if k.Some? then
              && found == Success(old(bag.elements)[k.value]) && afterFind == old(bag.elements)
              && picked == Modified(old(Views(bag.elements))[k.value], PreOf(q, CurrentName(old(ctx.Snapshot()))))
              && ctxAfterFind == old(ctx.Snapshot())
            else
              && ctxAfterFind == CreateConfig(old(ctx.Snapshot()), createFunc, q.createArgs)
              && (o.Failure? ==> found == Failure(o.error) && afterFind == old(bag.elements))
              && (o.Success? ==>
                    && found.Success? && fresh(found.value) && afterFind == old(bag.elements) + [found.value]
                    && picked == Modified(StateView(o.value, [], None), PreOf(q, CurrentName(old(ctx.Snapshot())))))
      ensures found.Failure? ==>
        && r == Failure(found.error)
        && bag.elements == afterFind && bag.deleted == old(bag.deleted) && ctx.Snapshot() == ctxAfterFind
      ensures found.Success? && action.UserCall? ==>
        && r == action.outcome
        && found.value.View() == Modified(Modified(picked, action.effect), PostOf(post))
        && bag.elements == afterFind && bag.deleted == old(bag.deleted) && ctx.Snapshot() == ctxAfterFind
      ensures found.Success? && action.DeleteFound? && deleteFunc.None? ==>
        && r == Failure(NoDeleteFunc)
        && found.value.View() == Modified(picked, PostOf(post))
        && bag.elements == afterFind && bag.deleted == old(bag.deleted) && ctx.Snapshot() == ctxAfterFind
      ensures found.Success? && action.DeleteFound? && deleteFunc.Some? ==>
        var d := HandlerResult(deleteFunc.value, picked.data, action.deleterOutcome);
        && r == (if d.Failure? then Failure(d.error) else Success(""))
        && found.value.View() == Modified(picked, PostOf(post))
        && ctx.Snapshot() == HandlerConfig(ctxAfterFind, deleteFunc.value, picked.data)
        && BagData(bag.elements, bag.deleted) ==
             if d.Failure? then BagData(afterFind, old(bag.deleted))
             else AfterDelete(BagData(afterFind, old(bag.deleted)), Views(afterFind), SameId(picked.data))
    {
      var data := FindStateManual(q, ctx, created);
      found := data;
      afterFind := bag.elements;
      ctxAfterFind := ctx.Snapshot();
      if data.Failure? {
        picked := StateView(map[], [], None);
        r := Failure(data.error);
        return;
      }
      var state := data.value;
      picked := state.View();
      r := CallAndRelease(state, post, ctx, action);
    }

    /** `findState(options, ctx)`: finds a record as `findStateManual`
        does and defers its release (the post-modifier, by default
        releasing the lock) `releaseLevel` frames up, 0 by default. */
    method FindState(q: Query, post: Option<Modifier>, releaseLevel: Option<nat>, ctx: TestContext, created: Result<Obj>)
      returns (r: Result<State>, ghost ctxAfterFind: Config)
      modifies bag, bag.elements, ctx, ctx.thread
      ensures bag.deleted == old(bag.deleted)
      ensures forall s :: s in old(bag.elements) && (r.Failure? || s != r.value) ==> s.View() == old(s.View())
      ensures q.searchData.Some? && q.searchState.Some? ==>
        r == Failure(BothSearches) && bag.elements == old(bag.elements) && ctxAfterFind == old(ctx.Snapshot())
      ensures !(q.searchData.Some? && q.searchState.Some?) ==>
        var k := FirstMatch(old(Views(bag.elements)), SearchOf(q));
          var o := CreateOutcome(createFunc, q.createArgs, created);
          if k.Some? then
            && r == Success(old(bag.elements)[k.value]) && bag.elements == old(bag.elements)
            && r.value.View() == Modified(old(Views(bag.elements))[k.value], PreOf(q, CurrentName(old(ctx.Snapshot()))))
            && ctxAfterFind == old(ctx.Snapshot())
          else
            && ctxAfterFind == CreateConfig(old(ctx.Snapshot()), createFunc, q.createArgs)
            && (o.Failure? ==> r == Failure(o.error) && bag.elements == old(bag.elements))
            && (o.Success? ==>
                  && r.Success? && fresh(r.value) && bag.elements == old(bag.elements) + [r.value]
                  && r.value.View() == Modified(StateView(o.value, [], None), PreOf(q, CurrentName(old(ctx.Snapshot())))))
      ensures r.Failure? ==> ctx.Snapshot() == ctxAfterFind
      ensures r.Success? ==>
        ctx.Snapshot() == DeferF(ctxAfterFind, if releaseLevel.None? then 0 else releaseLevel.value,
                                 PostModify(name, r.value, PostOf(post)))
      ensures r.Success? ==> r.value in bag.elements
      ensures bag.elements == old(bag.elements) || (r.Success? && fresh(r.value) && bag.elements == old(bag.elements) + [r.value])
      ensures EndedCallbacks(ctxAfterFind) == EndedCallbacks(old(ctx.Snapshot()))
    {
      var rl := if releaseLevel.None? then 0 else releaseLevel.value;
      var mp := PostOf(post);
      ghost var c0 := ctx.Snapshot();
      r := FindStateManual(q, ctx, created);
      ctxAfterFind := ctx.Snapshot();
      PendingAfterCreate(c0, createFunc, q.createArgs);
      if r.Failure? {
        return;
      }
      ctx.Defer(rl, PostModify(name, r.value, mp));
    }

    /** Runs the releases among `cbs` on this manager's records, active or
        deleted, in order: each applies its modifier to the very record it
        holds, and every other record is left alone. */
    method RunReleases(cbs: seq<Callback>)
      modifies bag.elements, bag.deleted
      ensures forall s :: s in bag.elements || s in bag.deleted ==> s.View() == Released(old(s.View()), s, cbs)
    {
      var all := bag.elements + bag.deleted;
      var i := 0;
      while i < |cbs|
        invariant 0 <= i <= |cbs|
        invariant forall s :: s in all ==> s.View() == Released(old(s.View()), s, cbs[..i])
      {
        assert cbs[..i + 1][..i] == cbs[..i];
        var cb := cbs[i];
        if cb.PostModify? {
          var p := Holding(all, cb.target);
          if p.Some? {
            all[p.value].Apply(cb.m);
          }
        }
        i := i + 1;
      }
      assert cbs[..|cbs|] == cbs;
    }

    /** `end()` on the context, with the releases among the callbacks it
        runs applied to this manager's records: the context ends as `end`
        says, and each record is left as those releases make it. */
    method EndAndRelease(ctx: TestContext) returns (e: Result<()>)
      modifies ctx, ctx.thread, bag.elements, bag.deleted
      ensures (ctx.Snapshot(), e) == EndF(old(ctx.Snapshot()))
      ensures forall s :: s in bag.elements || s in bag.deleted ==>
        s.View() == Released(old(s.View()), s, EndedCallbacks(old(ctx.Snapshot())))
    {
      var cbs := if ctx.frames == [] then ctx.rootDeferred else ctx.frames[|ctx.frames| - 1].deferred;
      e := ctx.End();
      RunReleases(cbs);
    }

    /**
     * `findState` with its release deferred onto the current frame,
     * followed by the end of that frame. The record found keeps the value
     * `locked` (locked for the test, by default) until the end, and the end
     * then runs the releases the frame already held and last the one
     * `findState` deferred. A record found unlocked by a search, locked by
     * the default pre-modifier and released by the default post-modifier
     * is left exactly as it was found, so the next search finds it again.
     */
    method FindStateThenEnd(q: Query, post: Option<Modifier>, ctx: TestContext, created: Result<Obj>)
      returns (r: Result<State>, e: Result<()>, ghost locked: StateView)
      modifies bag, bag.elements, bag.deleted, ctx, ctx.thread
      ensures r.Success? ==>
        r.value.View() == Modified(Released(locked, r.value, EndedCallbacks(old(ctx.Snapshot()))), PostOf(post))
      ensures !(q.searchData.Some? && q.searchState.Some?) ==>
        var k := FirstMatch(old(Views(bag.elements)), SearchOf(q));
        k.Some? ==>
          && r == Success(old(bag.elements)[k.value])
          && locked == Modified(old(Views(bag.elements))[k.value], PreOf(q, CurrentName(old(ctx.Snapshot()))))
    {
      ghost var pending := EndedCallbacks(ctx.Snapshot());
      ghost var ctxAfterFind;
      r, ctxAfterFind := FindState(q, post, None, ctx, created);
      if r.Failure? {
        locked := StateView(map[], [], None);
        e := EndAndRelease(ctx);
        return;
      }
      locked := r.value.View();
      DeferPending(ctxAfterFind, PostModify(name, r.value, PostOf(post)));
      e := EndReleasing(ctx, r.value, pending, PostOf(post));
    }

    /** The end of a frame whose last callback is the release of record
        `s` with modifier `m`. */
    method EndReleasing(ctx: TestContext, s: State, ghost pending: seq<Callback>, ghost m: Modifier) returns (e: Result<()>)
      requires s in bag.elements
      requires EndedCallbacks(ctx.Snapshot()) == pending + [PostModify(name, s, m)]
      modifies ctx, ctx.thread, bag.elements, bag.deleted
      ensures (ctx.Snapshot(), e) == EndF(old(ctx.Snapshot()))
      ensures s.View() == Modified(Released(old(s.View()), s, pending), m)
    {
      ghost var v := s.View();
      e := EndAndRelease(ctx);
      ReleaseLast(v, s, pending, name, m);
    }

    /** `getOrCreateAndDelete(ctx, search, createArgs)`: throws without a
        delete function; otherwise gets or creates a record locked by
        "delete" and deletes its data. */
    method GetOrCreateAndDelete(ctx: TestContext, search: StateView -> bool, createArgs: Obj,
                                created: Result<Obj>, deleterOutcome: Result<()>)
      returns (r: Result<()>, ghost found: Result<State>, ghost afterFind: seq<State>, ghost ctxAfterFind: Config)
      modifies bag, bag.elements, ctx, ctx.thread
      ensures deleteFunc.None? ==>
        && r == Failure(NoDeleteFunc)
        && bag.elements == old(bag.elements) && bag.deleted == old(bag.deleted)
        && ctx.Snapshot() == old(ctx.Snapshot())
        && forall s :: s in old(bag.elements) ==> s.View() == old(s.View())
      ensures deleteFunc.Some? ==>
        var k := FirstMatch(old(Views(bag.elements)), search);
          var o := CreateOutcome(createFunc, createArgs, created);
          if k.Some? then
            && found == Success(old(bag.elements)[k.value]) && afterFind == old(bag.elements)
            && found.value.View() == Modified(old(Views(bag.elements))[k.value], SetLock(Some("delete")))
            && ctxAfterFind == old(ctx.Snapshot())
          else
            && ctxAfterFind == CreateConfig(old(ctx.Snapshot()), createFunc, createArgs)
            && (o.Failure? ==> found == Failure(o.error) && afterFind == old(bag.elements))
            && (o.Success? ==>
                  && found.Success? && fresh(found.value) && afterFind == old(bag.elements) + [found.value]
                  && found.value.View() == Modified(StateView(o.value, [], None), SetLock(Some("delete"))))
      ensures deleteFunc.Some? ==> forall s :: s in old(bag.elements) && (found.Failure? || s != found.value) ==> s.View() == old(s.View())
      ensures deleteFunc.Some? && found.Failure? ==>
        && r == Failure(found.error)
        && bag.elements == afterFind && bag.deleted == old(bag.deleted) && ctx.Snapshot() == ctxAfterFind
      ensures deleteFunc.Some? && found.Success? ==>
        && r == HandlerResult(deleteFunc.value, found.value.data, deleterOutcome)
        && ctx.Snapshot() == HandlerConfig(ctxAfterFind, deleteFunc.value, found.value.data)
        && BagData(bag.elements, bag.deleted) ==
             if r.Failure? then BagData(afterFind, old(bag.deleted))
             else AfterDelete(BagData(afterFind, old(bag.deleted)), Views(afterFind), SameId(found.value.data))
    {
      if deleteFunc.None? {
        r, found, afterFind, ctxAfterFind := Failure(NoDeleteFunc), Failure(NoDeleteFunc), bag.elements, ctx.Snapshot();
        return;
      }
      var state := GetOrCreate0(ctx, search, createArgs, SetLock(Some("delete")), created);
      found := state;
      afterFind := bag.elements;
      ctxAfterFind := ctx.Snapshot();
      if state.Failure? {
        r := Failure(state.error);
        return;
      }
      r := Delete(ctx, state.value.data, deleterOutcome);
    }

    /** `removeDependent(searcher, dependent)`: removes the first copy of
        the tag from the first record whose data the searcher accepts. */
    method RemoveDependent(searcher: Obj -> bool, tag: string)
      modifies bag.elements
      ensures bag.elements == old(bag.elements) && bag.deleted == old(bag.deleted)
      ensures match FirstMatch(old(Views(bag.elements)), DataSearch(searcher))
        case None => forall s :: s in bag.elements ==> s.View() == old(s.View())
        case Some(i) =>
          && bag.elements[i].View() == Modified(old(Views(bag.elements))[i], Modifier.RemoveDependent(tag))
          && forall s :: s in bag.elements && s != bag.elements[i] ==> s.View() == old(s.View())
    {
      var _ := bag.Get(DataSearch(searcher), Modifier.RemoveDependent(tag));
    }

    /** `registerCreateFunc(createFunc)` */
    method RegisterCreateFunc(h: Handler)
      modifies this
      ensures createFunc == Some(h) && deleteFunc == old(deleteFunc) && bag == old(bag)
    {
      createFunc := Some(h);
    }

    /** `registerDeleteFunc(deleteFunc)` */
    method RegisterDeleteFunc(h: Handler)
      modifies this
      ensures deleteFunc == Some(h) && createFunc == old(createFunc) && bag == old(bag)
    {
      deleteFunc := Some(h);
    }

    /** `registerWrappedCreateFunc(testNameFunc, createFunc)`: the create
        function, wrapped so that each call opens a frame named after its
        options. */
    method RegisterWrappedCreateFunc(testNameFunc: Obj -> string, h: Handler)
      modifies this
      ensures createFunc == Some(WrapHandler(h, WrapArgs(None, Some(testNameFunc))))
      ensures deleteFunc == old(deleteFunc) && bag == old(bag)
    {
      createFunc := Some(WrapHandler(h, WrapArgs(None, Some(testNameFunc))));
    }

    /** `registerWrappedDeleteFunc(testNameFunc, deleteFunc)` */
    method RegisterWrappedDeleteFunc(testNameFunc: Obj -> string, h: Handler)
      modifies this
      ensures deleteFunc == Some(WrapHandler(h, WrapArgs(None, Some(testNameFunc))))
      ensures createFunc == old(createFunc) && bag == old(bag)
    {
      deleteFunc := Some(WrapHandler(h, WrapArgs(None, Some(testNameFunc))));
    }

    /** `save()`: copies of the bag's lists. */
    method Save() returns (b: BagData)
      ensures b == BagData(bag.elements, bag.deleted)
    {
      b := bag.Save();
    }

    /** `load(jsonObj)`: the bag adopts the given lists. */
    method Load(b: BagData)
      modifies bag
      ensures bag.elements == b.elements && bag.deleted == b.deleted
    {
      bag.Load(b);
    }

    /** The second half of `findStateAndCall`: calls the function on the
        found record, then the post-modifier, on both the normal and the
        exceptional path. */
    method CallAndRelease(state: State, post: Option<Modifier>, ctx: TestContext, action: Action)
      returns (r: Result<string>)
      modifies state, bag, ctx, ctx.thread
      ensures action.UserCall? ==>
        && r == action.outcome
        && state.View() == Modified(Modified(old(state.View()), action.effect), PostOf(post))
        && bag.elements == old(bag.elements) && bag.deleted == old(bag.deleted)
        && ctx.Snapshot() == old(ctx.Snapshot())
      ensures action.DeleteFound? && deleteFunc.None? ==>
        && r == Failure(NoDeleteFunc)
        && state.View() == Modified(old(state.View()), PostOf(post))
        && bag.elements == old(bag.elements) && bag.deleted == old(bag.deleted)
        && ctx.Snapshot() == old(ctx.Snapshot())
      ensures action.DeleteFound? && deleteFunc.Some? ==>
        var d := HandlerResult(deleteFunc.value, state.data, action.deleterOutcome);
        && r == (if d.Failure? then Failure(d.error) else Success(""))
        && state.View() == Modified(old(state.View()), PostOf(post))
        && ctx.Snapshot() == HandlerConfig(old(ctx.Snapshot()), deleteFunc.value, state.data)
        && BagData(bag.elements, bag.deleted) ==
             if d.Failure? then old(BagData(bag.elements, bag.deleted))
             else AfterDelete(old(BagData(bag.elements, bag.deleted)), Views(old(bag.elements)), SameId(state.data))
    {
      match action {
        case UserCall(effect, outcome) =>
          state.Apply(effect);
          r := outcome;
          state.Apply(PostOf(post));
        case DeleteFound(outcome) =>
          r := DeleteAndRelease(state, post, ctx, outcome);
      }
    }

    /** The delete branch of `findStateAndCall`: deletes the record by its
        `id`, then applies the post-modifier. */
    method DeleteAndRelease(state: State, post: Option<Modifier>, ctx: TestContext, outcome: Result<()>)
      returns (r: Result<string>)
      modifies state, bag, ctx, ctx.thread
      ensures deleteFunc.None? ==>
        && r == Failure(NoDeleteFunc)
        && state.View() == Modified(old(state.View()), PostOf(post))
        && bag.elements == old(bag.elements) && bag.deleted == old(bag.deleted)
        && ctx.Snapshot() == old(ctx.Snapshot())
      ensures deleteFunc.Some? ==>
        var d := HandlerResult(deleteFunc.value, state.data, outcome);
        && r == (if d.Failure? then Failure(d.error) else Success(""))
        && state.View() == Modified(old(state.View()), PostOf(post))
        && ctx.Snapshot() == HandlerConfig(old(ctx.Snapshot()), deleteFunc.value, state.data)
        && BagData(bag.elements, bag.deleted) ==
             if d.Failure? then old(BagData(bag.elements, bag.deleted))
             else AfterDelete(old(BagData(bag.elements, bag.deleted)), Views(old(bag.elements)), SameId(state.data))
    {
      ghost var bag0, before := BagData(bag.elements, bag.deleted), Views(bag.elements);
      var d := Delete(ctx, state.data, outcome);
      r := if d.Failure? then Failure(d.error) else Success("");
      state.Apply(PostOf(post));
      SameIdAfterDelete(bag0, before, Views(old(bag.elements)), state.data);
    }
  }

  /** A tag pushed by a modifier and then removed by `removeDependent`
      leaves the record's tags as they were, as a multiset; when the tag was
      not there before, the record is exactly as it was. */
  lemma DependentRoundTrip(v: StateView, tag: string)
    ensures var w := Modified(Modified(v, AddDependent(tag)), RemoveDependent(tag));
      && multiset(w.dependents) == multiset(v.dependents)
      && w.data == v.data && w.lockedBy == v.lockedBy
      && (tag !in v.dependents ==> w == v)
  {
    var ds := v.dependents + [tag];
    RemoveFirstCount(ds, tag);
    if tag !in v.dependents {
      assert ds[..|v.dependents|] == v.dependents;
    }
  }

  /** A release that `findState` defers with level 0 runs when the current
      frame ends, after the callbacks deferred on that frame before it; at
      the root it runs only when the root itself ends. Whatever value `v`
      its record had, the release's modifier is applied to it last. */
  lemma ReleaseRunsAtEnd(c: Config, cb: Callback, v: StateView)
    ensures cb.PostModify? ==>
      Released(v, cb.target, EndedCallbacks(DeferF(c, 0, cb))) == Modified(Released(v, cb.target, EndedCallbacks(c)), cb.m)
    ensures c.frames != [] ==>
      && EndF(DeferF(c, 0, cb)).1.Success?
      && EndF(DeferF(c, 0, cb)).0.ran == c.ran + c.frames[|c.frames| - 1].deferred + [cb]
      && EndF(DeferF(c, 0, cb)).0.frames == c.frames[..|c.frames| - 1]
    ensures c.frames == [] ==>
      && DeferF(c, 0, cb).rootDeferred == c.rootDeferred + [cb]
      && EndF(DeferF(c, 0, cb)).0.ran == c.ran + c.rootDeferred + [cb]
  {
    DeferPending(c, cb);
    if cb.PostModify? {
      ReleaseLast(v, cb.target, EndedCallbacks(c), cb.resource, cb.m);
    }
  }

  /** A create function registered through `registerWrappedCreateFunc`
      (or a delete function through its twin) opens a frame named by the
      name function, unless it was already wrapped. */
  lemma WrappedHandlerFrame(h: Handler, testNameFunc: Obj -> string, arg: Obj)
    ensures h.wrapping.None? ==>
      HandlerFrame(WrapHandler(h, WrapArgs(None, Some(testNameFunc))), arg) == Some(testNameFunc(arg))
    ensures h.wrapping.Some? ==>
      HandlerFrame(WrapHandler(h, WrapArgs(None, Some(testNameFunc))), arg) == HandlerFrame(h, arg)
  {
  }

  /** Only the data of a record decides whether `SameId` accepts it, so
      lists whose records hold the same data give the same match. */
  lemma {:induction false} SameIdIgnoresLocks(vs: seq<StateView>, ws: seq<StateView>, data: Obj)
    requires |vs| == |ws|
    requires forall i :: 0 <= i < |vs| ==> vs[i].data == ws[i].data
    ensures FirstMatch(vs, SameId(data)) == FirstMatch(ws, SameId(data))
  {
    if vs != [] {
      SameIdIgnoresLocks(vs[1..], ws[1..], data);
    }
  }

  /** So the deletion by `id` a call makes is the same whether it is read
      before or after the record's lock is released. */
  lemma SameIdAfterDelete(b: BagData, vs: seq<StateView>, ws: seq<StateView>, data: Obj)
    requires |vs| == |ws| == |b.elements|
    requires forall i :: 0 <= i < |vs| ==> vs[i].data == ws[i].data
    ensures AfterDelete(b, vs, SameId(data)) == AfterDelete(b, ws, SameId(data))
  {
    SameIdIgnoresLocks(vs, ws, data);
  }

  // ---------------------------------------------------------------------
  // The registry of managers

  /** The first position whose manager has no delete function. */
  function DeleterMissing(ms: seq<ResourceManager>): (r: Option<nat>)
    reads ms
    ensures r.Some? ==> r.value < |ms| && ms[r.value].deleteFunc.None?
    ensures r.Some? ==> forall j :: 0 <= j < r.value ==> ms[j].deleteFunc.Some?
    ensures r.None? ==> forall j :: 0 <= j < |ms| ==> ms[j].deleteFunc.Some?
  {
    if ms == [] then None
    else if ms[0].deleteFunc.None? then Some(0)
    else
      var k := DeleterMissing(ms[1..]);
      if k.None? then None else Some(k.value + 1)
  }

  /** The first name that has no entry in `keys`. */
  function FirstMissing(names: seq<string>, keys: set<string>): (r: Option<nat>)
    ensures r.Some? ==> r.value < |names| && names[r.value] !in keys
    ensures r.Some? ==> forall j :: 0 <= j < r.value ==> names[j] in keys
    ensures r.None? ==> forall j :: 0 <= j < |names| ==> names[j] in keys
  {
    if names == [] then None
    else if names[0] !in keys then Some(0)
    else
      var k := FirstMissing(names[1..], keys);
      if k.None? then None else Some(k.value + 1)
  }

  /** The first manager without a delete function is the one at `i` when
      all before it have one. */
  lemma DeleterMissingAt(ms: seq<ResourceManager>, i: nat)
    requires i < |ms| && ms[i].deleteFunc.None?
    requires forall j :: 0 <= j < i ==> ms[j].deleteFunc.Some?
    ensures DeleterMissing(ms) == Some(i)
  {
    var r := DeleterMissing(ms);
    assert r.Some? && r.value <= i;
  }

  /** One step of that loop: cleans the manager at `i`; no other
      manager's bag changes. */
  method CleanAt(ms: seq<ResourceManager>, i: nat) returns (h: Result<seq<Obj>>)
    requires i < |ms|
    requires forall a, b :: 0 <= a < |ms| && 0 <= b < |ms| && a != b ==> ms[a].bag != ms[b].bag
    modifies ms[i].bag
    ensures forall j :: 0 <= j < |ms| ==> ms[j].bag == old(ms[j].bag) && ms[j].bag.deleted == old(ms[j].bag.deleted)
    ensures forall j :: 0 <= j < |ms| && j != i ==> ms[j].bag.elements == old(ms[j].bag.elements)
    ensures ms[i].deleteFunc.None? ==> h.Failure? && h.error == NoDeleter && ms[i].bag.elements == old(ms[i].bag.elements)
    ensures ms[i].deleteFunc.Some? ==> h.Success? && ms[i].bag.elements == []
  {
    h := ms[i].Clean();
  }

  /** The loop of the registry's `clean`: cleans the managers in order and
      stops at the first one that throws. */
  method CleanInOrder(ms: seq<ResourceManager>) returns (r: Result<()>)
    requires forall i, j :: 0 <= i < |ms| && 0 <= j < |ms| && i != j ==> ms[i].bag != ms[j].bag
    modifies set m | m in ms :: m.bag
    ensures var k := match DeleterMissing(ms) case None => |ms| case Some(j) => j;
      && r == (if k < |ms| then Failure(NoDeleter) else Success(()))
      && (forall i :: 0 <= i < |ms| ==>
            && ms[i].bag.deleted == old(ms[i].bag.deleted)
            && ms[i].bag.elements == if i < k then [] else old(ms[i].bag.elements))
  {
    var i := 0;
    while i < |ms|
      invariant 0 <= i <= |ms|
      invariant forall j :: 0 <= j < i ==> ms[j].deleteFunc.Some?
      invariant forall j :: 0 <= j < |ms| ==> ms[j].bag.deleted == old(ms[j].bag.deleted)
      invariant forall j :: 0 <= j < |ms| ==> ms[j].bag.elements == if j < i then [] else old(ms[j].bag.elements)
    {
      var h := CleanAt(ms, i);
      if h.Failure? {
        DeleterMissingAt(ms, i);
        return Failure(h.error);
      }
      i := i + 1;
    }
    assert DeleterMissing(ms).None?;
    return Success(());
  }

  /** The loop of the registry's `clear`: gives every manager a fresh,
      empty bag. */
  method ClearInOrder(ms: seq<ResourceManager>)
    modifies set m | m in ms
    ensures forall i :: 0 <= i < |ms| ==>
      && fresh(ms[i].bag) && ms[i].bag.elements == [] && ms[i].bag.deleted == []
      && ms[i].createFunc == old(ms[i].createFunc) && ms[i].deleteFunc == old(ms[i].deleteFunc)
    ensures forall i, j :: 0 <= i < |ms| && 0 <= j < |ms| && ms[i] != ms[j] ==> ms[i].bag != ms[j].bag
  {
    var i := 0;
    while i < |ms|
      invariant 0 <= i <= |ms|
      invariant forall j :: 0 <= j < |ms| ==>
        ms[j].createFunc == old(ms[j].createFunc) && ms[j].deleteFunc == old(ms[j].deleteFunc)
      invariant forall j :: 0 <= j < i ==>
        fresh(ms[j].bag) && ms[j].bag.elements == [] && ms[j].bag.deleted == []
      invariant forall j, l :: 0 <= j < i && 0 <= l < i && ms[j] != ms[l] ==> ms[j].bag != ms[l].bag
    {
      ms[i].Clear();
      i := i + 1;
    }
  }

  /** The loop of the registry's `load`: loads each manager's lists from
      the entry under its name and throws at the first name without one. */
  method LoadInOrder(ms: seq<ResourceManager>, names: seq<string>, json: map<string, BagData>) returns (r: Result<()>)
    requires |names| == |ms|
    requires forall i, j :: 0 <= i < |ms| && 0 <= j < |ms| && i != j ==> ms[i].bag != ms[j].bag
    modifies set m | m in ms :: m.bag
    ensures var k := match FirstMissing(names, json.Keys) case None => |ms| case Some(j) => j;
      && r == (if k < |ms| then Failure(DataMissing(names[k])) else Success(()))
      && forall i :: 0 <= i < |ms| ==>
           if i < k then ms[i].bag.elements == json[names[i]].elements && ms[i].bag.deleted == json[names[i]].deleted
           else ms[i].bag.elements == old(ms[i].bag.elements) && ms[i].bag.deleted == old(ms[i].bag.deleted)
  {
    var i := 0;
    while i < |ms|
      invariant 0 <= i <= |ms|
      invariant forall j :: 0 <= j < i ==> names[j] in json
      invariant forall j :: 0 <= j < |ms| ==>
        if j < i then ms[j].bag.elements == json[names[j]].elements && ms[j].bag.deleted == json[names[j]].deleted
        else ms[j].bag.elements == old(ms[j].bag.elements) && ms[j].bag.deleted == old(ms[j].bag.deleted)
    {
      if names[i] !in json {
        return Failure(DataMissing(names[i]));
      }
      ms[i].Load(json[names[i]]);
      i := i + 1;
    }
    return Success(());
  }

  function AlreadyDefined(name: string): string {
    "resources for " + name + " are already defined!"
  }

  function DataMissing(name: string): string {
    "error loading ResourceManagerRegistry: data is missing for \"" + name + "\" resources"
  }

  // ---------------------------------------------------------------------
  // The order in which `Object.entries` visits a plain object's keys

  predicate IsDigit(c: char) {
    '0' <= c <= '9'
  }

  /** The number a string of decimal digits spells. */
  function DigitsValue(s: string): nat
    requires forall i :: 0 <= i < |s| ==> IsDigit(s[i])
  {
    if s == [] then 0
    else
      assert IsDigit(s[|s| - 1]);
      DigitsValue(s[..|s| - 1]) * 10 + (s[|s| - 1] as int - '0' as int)
  }

  /** An array index: the decimal form, without leading zeros, of a number
      below 2^32 - 1. A plain object lists such keys before all others. */
  predicate IsArrayIndex(s: string) {
    && |s| > 0 && (forall i :: 0 <= i < |s| ==> IsDigit(s[i]))
    && (s[0] != '0' || |s| == 1)
    && DigitsValue(s) < 0xFFFF_FFFF
  }

  /** Keys as a plain object lists them: the array indices first, in
      ascending numeric order, then the other keys. */
  predicate KeyOrdered(keys: seq<string>) {
    forall i, j :: 0 <= i < j < |keys| && IsArrayIndex(keys[j]) ==>
      IsArrayIndex(keys[i]) && DigitsValue(keys[i]) <= DigitsValue(keys[j])
  }

  /** The position of a new array index among ordered keys: after the
      indices with a value no larger, before everything else. */
  function IndexSlot(keys: seq<string>, name: string): (k: nat)
    requires IsArrayIndex(name)
    ensures k <= |keys|
    ensures forall i :: 0 <= i < k ==> IsArrayIndex(keys[i]) && DigitsValue(keys[i]) <= DigitsValue(name)
    ensures k < |keys| ==> !IsArrayIndex(keys[k]) || DigitsValue(keys[k]) > DigitsValue(name)
  {
    if keys == [] || !IsArrayIndex(keys[0]) || DigitsValue(keys[0]) > DigitsValue(name) then 0
    else 1 + IndexSlot(keys[1..], name)
  }

  /** The keys after `obj[name] = v` adds the new key `name`: an array
      index joins the indices by value, any other key goes last. The keys
      already there keep their relative order. */
  function AddKey(keys: seq<string>, name: string): (r: seq<string>)
    requires KeyOrdered(keys)
    ensures KeyOrdered(r)
    ensures exists k :: 0 <= k <= |keys| && r == keys[..k] + [name] + keys[k..]
    ensures !IsArrayIndex(name) ==> r == keys + [name]
    ensures forall n :: n in r <==> n in keys || n == name
    ensures name !in keys && DistinctKeys(keys) ==> DistinctKeys(r)
  {
    var k := if IsArrayIndex(name) then IndexSlot(keys, name) else |keys|;
    InsertAt(keys, k, name);
    if IsArrayIndex(name) then SlotOrdered(keys, name); keys[..k] + [name] + keys[k..]
    else keys[..k] + [name] + keys[k..]
  }

  /** Inserting one key at `k` shifts the keys from `k` on by one. */
  lemma InsertAt(keys: seq<string>, k: nat, name: string)
    requires k <= |keys|
    ensures var r := keys[..k] + [name] + keys[k..];
      && |r| == |keys| + 1
      && (forall i :: 0 <= i < |r| ==> r[i] == if i < k then keys[i] else if i == k then name else keys[i - 1])
      && (k == |keys| ==> r == keys + [name])
      && (forall n :: n in r <==> n in keys || n == name)
      && (name !in keys && DistinctKeys(keys) ==> DistinctKeys(r))
  {
    var r := keys[..k] + [name] + keys[k..];
    assert forall i :: 0 <= i < |r| ==> r[i] == if i < k then keys[i] else if i == k then name else keys[i - 1];
    forall n | n in keys
      ensures n in r
    {
      var i :| 0 <= i < |keys| && keys[i] == n;
      if i < k { assert r[i] == n; } else { assert r[i + 1] == n; }
    }
  }

  predicate DistinctKeys(keys: seq<string>) {
    forall i, j :: 0 <= i < j < |keys| ==> keys[i] != keys[j]
  }

  /** An array index inserted at its slot keeps the keys ordered. */
  lemma SlotOrdered(keys: seq<string>, name: string)
    requires KeyOrdered(keys) && IsArrayIndex(name)
    ensures KeyOrdered(keys[..IndexSlot(keys, name)] + [name] + keys[IndexSlot(keys, name)..])
  {
    var k := IndexSlot(keys, name);
    InsertAt(keys, k, name);
    var r := keys[..k] + [name] + keys[k..];
    forall i, j | 0 <= i < j < |r| && IsArrayIndex(r[j])
      ensures IsArrayIndex(r[i]) && DigitsValue(r[i]) <= DigitsValue(r[j])
    {
      SlotPair(keys, name, i, j);
    }
  }

  /** One pair of positions of the keys with an array index inserted at
      its slot. */
  lemma SlotPair(keys: seq<string>, name: string, i: nat, j: nat)
    requires KeyOrdered(keys) && IsArrayIndex(name) && i < j <= |keys|
    ensures var k := IndexSlot(keys, name);
      var x := if i < k then keys[i] else if i == k then name else keys[i - 1];
      var y := if j < k then keys[j] else if j == k then name else keys[j - 1];
      IsArrayIndex(y) ==> IsArrayIndex(x) && DigitsValue(x) <= DigitsValue(y)
  {
    var k := IndexSlot(keys, name);
    if j > k && IsArrayIndex(keys[j - 1]) {
      // everything up to `keys[j - 1]` is an index, `keys[k]` included
      if i < k {
        assert DigitsValue(keys[i]) <= DigitsValue(keys[j - 1]);
      } else if i == k {
        assert k == j - 1 || DigitsValue(keys[k]) <= DigitsValue(keys[j - 1]);
      } else {
        assert DigitsValue(keys[i - 1]) <= DigitsValue(keys[j - 1]);
      }
    }
  }

  /** Defining "b" and then "0" lists "0" first. */
  lemma IndexKeyFirst()
    ensures AddKey(AddKey([], "b"), "0") == ["0", "b"]
  {
    assert !IsDigit('b');
    assert !IsArrayIndex("b");
    assert AddKey([], "b") == ["b"];
    assert "0"[..0] == [];
    assert IsArrayIndex("0");
    assert IndexSlot(["b"], "0") == 0;
  }

  /**
   * `ResourceManagerRegistry`: the managers by resource name. `order` is
   * the order in which `Object.entries` visits the names: the names that
   * are array indices first, by value, then the others in the order they
   * were defined in.
   */
  class ResourceManagerRegistry {
    var lookup: map<string, ResourceManager>
    var order: seq<string>

    /** Each name is defined once, names the manager it maps to, and no two
        names share a manager or a bag. */
    ghost predicate Valid()
      reads this, lookup.Values
    {
      && DistinctKeys(order)
      && KeyOrdered(order)
      && (forall n :: n in lookup <==> n in order)
      && (forall n :: n in lookup ==> lookup[n].name == n)
      && (forall a, b :: a in lookup && b in lookup && a != b ==>
            lookup[a] != lookup[b] && lookup[a].bag != lookup[b].bag)
    }

    /** The managers in the order `Object.entries` visits them. */
    function Managers(): (ms: seq<ResourceManager>)
      reads this
      requires forall n :: n in order ==> n in lookup
      ensures |ms| == |order| && forall i :: 0 <= i < |order| ==> ms[i] == lookup[order[i]]
    {
      seq(|order|, i reads this requires 0 <= i < |order| && order[i] in lookup => lookup[order[i]])
    }

    /** Different positions hold different managers with different bags. */
    lemma DistinctBags()
      requires Valid()
      ensures forall i, j :: 0 <= i < |order| && 0 <= j < |order| && i != j ==>
        Managers()[i] != Managers()[j] && Managers()[i].bag != Managers()[j].bag
    {
    }

    constructor ()
      ensures lookup == map[] && order == [] && Valid()
    {
      lookup := map[];
      order := [];
    }

    /** `new(name)`: a fresh manager under a new name; a name that is
        already defined throws. */
    method New(name: string) returns (r: Result<ResourceManager>)
      requires Valid()
      modifies this
      ensures Valid()
      ensures name in old(lookup) ==> r == Failure(AlreadyDefined(name)) && lookup == old(lookup) && order == old(order)
      ensures name !in old(lookup) ==>
        && r.Success? && fresh(r.value) && fresh(r.value.bag)
        && r.value.name == name && r.value.createFunc.None? && r.value.deleteFunc.None?
        && r.value.bag.elements == [] && r.value.bag.deleted == []
        && lookup == old(lookup)[name := r.value] && order == AddKey(old(order), name)
    {
      if name in lookup {
        return Failure(AlreadyDefined(name));
      }
      var rm := new ResourceManager(name);
      lookup := lookup[name := rm];
      order := AddKey(order, name);
      return Success(rm);
    }

    /** `get(name)` */
    method Get(name: string) returns (r: Option<ResourceManager>)
      ensures name in lookup ==> r == Some(lookup[name])
      ensures name !in lookup ==> r.None?
    {
      if name in lookup {
        return Some(lookup[name]);
      }
      return None;
    }

    /** `clean(ctx)`: cleans the managers in order; the first one without a
        delete function throws, leaving itself and the ones after it
        untouched. */
    method Clean() returns (r: Result<()>)
      requires Valid()
      modifies set m | m in lookup.Values :: m.bag
      ensures Valid()
      ensures var ms := Managers();
        var k := match DeleterMissing(ms) case None => |ms| case Some(j) => j;
        && r == (if k < |ms| then Failure(NoDeleter) else Success(()))
        && (forall i :: 0 <= i < |ms| ==>
              && ms[i].bag.deleted == old(ms[i].bag.deleted)
              && ms[i].bag.elements == if i < k then [] else old(ms[i].bag.elements))
    {
      var ms := Managers();
      DistinctBags();
      r := CleanInOrder(ms);
    }

    /** `clear()`: every manager forgets its records. */
    method Clear()
      requires Valid()
      modifies lookup.Values
      ensures Valid()
      ensures forall n :: n in lookup ==>
        && fresh(lookup[n].bag) && lookup[n].bag.elements == [] && lookup[n].bag.deleted == []
        && lookup[n].createFunc == old(lookup[n].createFunc) && lookup[n].deleteFunc == old(lookup[n].deleteFunc)
    {
      var ms := Managers();
      ClearInOrder(ms);
    }

    /** `load(jsonObj)`: each manager, in order, adopts the lists saved under
        its name; the first name without an entry throws, and the managers
        from it on keep their lists. */
    method Load(json: map<string, BagData>) returns (r: Result<()>)
      requires Valid()
      modifies set m | m in lookup.Values :: m.bag
      ensures Valid()
      ensures var k := match FirstMissing(order, json.Keys) case None => |order| case Some(j) => j;
        && r == (if k < |order| then Failure(DataMissing(order[k])) else Success(()))
        && forall n :: n in lookup ==>
             var b := lookup[n].bag;
             if n in order[..k] then b.elements == json[n].elements && b.deleted == json[n].deleted
             else b.elements == old(lookup[n].bag.elements) && b.deleted == old(lookup[n].bag.deleted)
    {
      var ms := Managers();
      DistinctBags();
      r := LoadInOrder(ms, order, json);
    }

    /** `save()`: the lists of every manager under its name. */
    method Save() returns (saved: map<string, BagData>)
      requires Valid()
      ensures saved.Keys == lookup.Keys
      ensures forall n :: n in lookup ==> saved[n] == BagData(lookup[n].bag.elements, lookup[n].bag.deleted)
    {
      saved := map[];
      var i := 0;
      while i < |order|
        invariant 0 <= i <= |order|
        invariant saved.Keys == set j | 0 <= j < i :: order[j]
        invariant forall n :: n in saved ==> n in lookup && saved[n] == BagData(lookup[n].bag.elements, lookup[n].bag.deleted)
      {
        var b := lookup[order[i]].Save();
        saved := saved[order[i] := b];
        i := i + 1;
      }
    }

    /** Data holding an entry for every manager, as `save` produces, has
        no manager missing, so `load` does not reject it. */
    lemma SavedDataLoads(json: map<string, BagData>)
      requires Valid()
      requires lookup.Keys <= json.Keys
      ensures FirstMissing(order, json.Keys).None?
    {
    }
  }
}

=== FILE: runner.dfy ===
/**
 * `TestMain`: the entry point that puts the registered tests in run order
 * and runs the ones whose name starts with a given prefix, one after the
 * other, on a single root `TestContext`.
 *
 * Only the tests whose names match are run: a selected test's
 * prerequisites run only when their names match the prefix as well.
 */
module Runner {
  import opened Base
  import opened Context
  import opened Registry
  import opened Sorting

  /** The argument a test function receives when the runner calls it as
      `func(ctx)`: nothing, which the frame-name text shows as "undefined". */
  const NoArg := "undefined"

  /** The name prefix `runTest` selects by: an absent or empty name, and the
      name "all", select every test. */
  function NamePrefix(name: Option<string>): (prefix: string)
    ensures prefix == "" <==> name.None? || name.value == "" || name.value == "all"
    ensures prefix != "" ==> name == Some(prefix)
  {
    if name.None? || name.value == "all" then "" else name.value
  }

  /** `workerCount || 1`: an absent count and 0 both mean one worker. */
  function Workers(count: Option<int>): (w: int)
    ensures w > 0 <==> count.None? || count.value >= 0
    ensures count.Some? && count.value != 0 ==> w == count.value
  {
    if count.None? || count.value == 0 then 1 else count.value
  }

  /** The entries of the run order `p` whose name starts with `prefix`, in
      the order of `p`. */
  function Select(es: seq<TestEntry>, p: seq<nat>, prefix: string): (r: seq<nat>)
    requires Below(p, |es|)
    ensures |r| <= |p| && Below(r, |es|)
    decreases |p|
  {
    if p == [] then []
    else
      var h := p[|p| - 1];
      Select(es, p[..|p| - 1], prefix) + (if prefix <= es[h].name then [h] else [])
  }

  /** A test is selected exactly when it is in the run order and its name
      starts with the prefix. */
  lemma {:induction false} SelectMembers(es: seq<TestEntry>, p: seq<nat>, prefix: string)
    requires Below(p, |es|)
    ensures forall a :: a in Select(es, p, prefix) <==> a in p && prefix <= es[a].name
    decreases |p|
  {
    if p != [] {
      var q, h := p[..|p| - 1], p[|p| - 1];
      SelectMembers(es, q, prefix);
      assert p == q + [h];
      forall a ensures a in p <==> a in q || a == h {
      }
    }
  }

  /** The empty prefix selects the whole run order. */
  lemma {:induction false} SelectAll(es: seq<TestEntry>, p: seq<nat>)
    requires Below(p, |es|)
    ensures Select(es, p, "") == p
    decreases |p|
  {
    if p != [] {
      var q := p[..|p| - 1];
      SelectAll(es, q);
      assert q + [p[|p| - 1]] == p;
    }
  }

  /** `Select` picks out a subsequence of `p`: its `i`-th entry is the
      `idx[i]`-th of `p`, and `idx` is strictly increasing. */
  lemma {:induction false} SelectIndex(es: seq<TestEntry>, p: seq<nat>, prefix: string)
    returns (idx: seq<nat>)
    requires Below(p, |es|)
    ensures |idx| == |Select(es, p, prefix)|
    ensures forall i :: 0 <= i < |idx| ==> idx[i] < |p| && Select(es, p, prefix)[i] == p[idx[i]]
    ensures forall i, j :: 0 <= i < j < |idx| ==> idx[i] < idx[j]
    decreases |p|
  {
    if p == [] {
      idx := [];
    } else {
      var n := |p| - 1;
      var q := p[..n];
      var idx0 := SelectIndex(es, q, prefix);
      var r0 := Select(es, q, prefix);
      assert forall i :: 0 <= i < |q| ==> q[i] == p[i];
      if prefix <= es[p[n]].name {
        assert Select(es, p, prefix) == r0 + [p[n]];
        idx := idx0 + [n];
      } else {
        assert Select(es, p, prefix) == r0 + [];
        assert r0 + [] == r0;
        idx := idx0;
      }
    }
  }

  /** Selecting keeps a run order's guarantees: every selected test runs
      once, and after every selected test it must follow. */
  lemma SelectInOrder(es: seq<TestEntry>, p: seq<nat>, prefix: string)
    requires Below(p, |es|) && DistinctItems(p) && InOrder(es, p)
    ensures DistinctItems(Select(es, p, prefix)) && InOrder(es, Select(es, p, prefix))
  {
    var r := Select(es, p, prefix);
    var idx := SelectIndex(es, p, prefix);
    forall i, j | 0 <= i < j < |r|
      ensures r[i] != r[j]
    {
      assert r[i] == p[idx[i]] && r[j] == p[idx[j]] && idx[i] < idx[j];
    }
    forall i, j | 0 <= i < |r| && 0 <= j < |r| && Before(es, r[j], r[i])
      ensures j < i
    {
      assert Before(es, p[idx[j]], p[idx[i]]);
      assert idx[j] < idx[i];
      assert idx[i] <= idx[j] || i >= j;
    }
  }

  /** The registered functions of the entries `ts`. */
  function FuncsOf(ts: seq<TestEntry>): (fs: seq<Fn>)
    ensures |fs| == |ts| && forall i :: 0 <= i < |ts| ==> fs[i] == ts[i].func
  {
    seq(|ts|, i requires 0 <= i < |ts| => ts[i].func)
  }

  /** Running `fs` one after the other from `c`, each called with no
      argument, until one throws: the final context and how the run ended. */
  function RunAll(c: Config, fs: seq<Fn>): (Config, Result<()>)
    decreases |fs|
  {
    if fs == [] then (c, Success(()))
    else
      var (c1, out) := Exec(c, fs[0], NoArg);
      if out.Failure? then (c1, Failure(out.error)) else RunAll(c1, fs[1..])
  }

  /** Running `xs + ys` is running `xs` and then, unless one of `xs` threw,
      running `ys` from where `xs` left the context. */
  lemma {:induction false} RunAllAppend(c: Config, xs: seq<Fn>, ys: seq<Fn>)
    ensures RunAll(c, xs + ys) ==
      if RunAll(c, xs).1.Failure? then RunAll(c, xs) else RunAll(RunAll(c, xs).0, ys)
    decreases |xs|
  {
    if xs == [] {
      assert xs + ys == ys;
    } else {
      var (c1, out) := Exec(c, xs[0], NoArg);
      assert (xs + ys)[0] == xs[0];
      if out.Success? {
        assert (xs + ys)[1..] == xs[1..] + ys;
        RunAllAppend(c1, xs[1..], ys);
      }
    }
  }

  /** A run that fails fails with the error of the one test that threw, and
      the tests after it are not run. */
  lemma {:induction false} RunAllFails(c: Config, fs: seq<Fn>)
    requires RunAll(c, fs).1.Failure?
    ensures exists k, c' :: (0 <= k < |fs| && RunAll(c, fs[..k]) == (c', Success(()))
      && Exec(c', fs[k], NoArg) == (RunAll(c, fs).0, Failure(RunAll(c, fs).1.error)))
    decreases |fs|
  {
    var (c1, out) := Exec(c, fs[0], NoArg);
    if out.Failure? {
      assert fs[..0] == [];
      assert RunAll(c, fs[..0]) == (c, Success(()));
    } else {
      var t := fs[1..];
      RunAllFails(c1, t);
      var k, c' :| 0 <= k < |t| && RunAll(c1, t[..k]) == (c', Success(()))
        && Exec(c', t[k], NoArg) == (RunAll(c1, t).0, Failure(RunAll(c1, t).1.error));
      assert fs[..k + 1][0] == fs[0] && fs[..k + 1][1..] == t[..k];
      assert fs[k + 1] == t[k];
    }
  }

  /** `Array.prototype.reverse`. */
  function Reverse<T>(s: seq<T>): (r: seq<T>)
    ensures |r| == |s|
    ensures forall i :: 0 <= i < |s| ==> r[i] == s[|s| - 1 - i]
    decreases |s|
  {
    if s == [] then [] else Reverse(s[1..]) + [s[0]]
  }

  /** What `runTest(name, workerCount)` does once the tests are in the run
      order `p`: with a positive count one worker runs the selected tests in
      order; otherwise nothing runs. */
  function Outcome(c: Config, es: seq<TestEntry>, p: seq<nat>, name: Option<string>,
                   count: Option<int>): (Config, Result<()>)
    requires Below(p, |es|)
  {
    if Workers(count) > 0 then RunAll(c, FuncsOf(EntriesAt(es, Select(es, p, NamePrefix(name)))))
    else (c, Success(()))
  }

  /** The loop of `runTest` that keeps, in order, the entries of the run
      order whose name starts with `prefix`. */
  method Pick(es: seq<TestEntry>, p: seq<nat>, prefix: string) returns (picked: seq<TestEntry>)
    requires Below(p, |es|)
    ensures picked == EntriesAt(es, Select(es, p, prefix))
  {
    picked := [];
    var i := 0;
    while i < |p|
      invariant 0 <= i <= |p|
      invariant picked == EntriesAt(es, Select(es, p[..i], prefix))
    {
      ghost var sel := Select(es, p[..i], prefix);
      assert p[..i + 1][..i] == p[..i] && p[..i + 1][i] == p[i];
      if prefix <= es[p[i]].name {
        assert Select(es, p[..i + 1], prefix) == sel + [p[i]];
        assert EntriesAt(es, sel + [p[i]]) == EntriesAt(es, sel) + [es[p[i]]];
        picked := picked + [es[p[i]]];
      } else {
        assert Select(es, p[..i + 1], prefix) == sel;
      }
      i := i + 1;
    }
    assert p[..|p|] == p;
  }

  /** The entries at positions `r`. */
  function EntriesAt(es: seq<TestEntry>, r: seq<nat>): (ts: seq<TestEntry>)
    requires Below(r, |es|)
    ensures |ts| == |r|
    ensures forall i :: 0 <= i < |r| ==> ts[i] == es[r[i]]
  {
    seq(|r|, i requires 0 <= i < |r| => es[r[i]])
  }

  class TestMain {
    const registry: TestRegistry
    const ctx: TestContext
    /** The registered entries, in the run order found at construction. */
    var list: seq<TestEntry>

    constructor (registry: TestRegistry, list: seq<TestEntry>, answers: seq<Answer>)
      ensures this.registry == registry && this.list == list
      ensures fresh(ctx) && fresh(ctx.thread) && ctx.Snapshot() == Config([], [], [], 0, [], [], answers)
    {
      this.registry := registry;
      this.list := list;
      ctx := new TestContext(answers);
    }

    /**
     * `runTest(name, workerCount)`: sorts the registered tests again, keeps
     * those whose name starts with the prefix, reverses them and lets one
     * worker pop and await them until none is left. A test that throws ends
     * the run with its error; so does a failed sort, before anything runs.
     */
    method RunTest(name: Option<string>, count: Option<int>) returns (r: Result<()>)
      modifies ctx, ctx.thread
      ensures BuildGraph(registry.entries).Failure? ==>
        r == Failure(BuildGraph(registry.entries).error) && ctx.Snapshot() == old(ctx.Snapshot())
      ensures BuildGraph(registry.entries).Success? && !(exists p :: RunOrder(registry.entries, p)) ==>
        && r.Failure? && ctx.Snapshot() == old(ctx.Snapshot())
        && exists a, b :: (0 <= a < |registry.entries| && 0 <= b < |registry.entries|
          && Before(registry.entries, b, a)
          && r.error == CycleMessage(registry.entries[a].name, registry.entries[b].name))
      ensures BuildGraph(registry.entries).Success? && (exists p :: RunOrder(registry.entries, p)) ==>
        exists p :: (RunOrder(registry.entries, p) && Roots(registry.entries, |registry.entries|) <= p
          && (ctx.Snapshot(), r) == Outcome(old(ctx.Snapshot()), registry.entries, p, name, count))
      ensures BuildGraph(registry.entries).Success? && (exists p :: RunOrder(registry.entries, p)) ==>
        var plan := FifoPlan(BuildGraph(registry.entries).value, |registry.entries|).0;
        && RunOrder(registry.entries, plan)
        && (ctx.Snapshot(), r) == Outcome(old(ctx.Snapshot()), registry.entries, plan, name, count)
    {
      var es := registry.entries;
      var sorted := CreateRunnerList(es);
      if sorted.Failure? {
        return Failure(sorted.error);
      }
      var p := sorted.value;
      var picked := Pick(es, p, NamePrefix(name));
      var workLeft := Reverse(picked);
      if Workers(count) > 0 {
        r := WorkerLoop(workLeft, picked);
      } else {
        r := Success(());
      }
    }

    /** One worker: pops the last test left and awaits it, until none is
        left or one throws; `workLeft` is the selection reversed, so the
        tests run in selection order. */
    method WorkerLoop(workLeft0: seq<TestEntry>, ghost picked: seq<TestEntry>) returns (r: Result<()>)
      requires workLeft0 == Reverse(picked)
      modifies ctx, ctx.thread
      ensures (ctx.Snapshot(), r) == RunAll(old(ctx.Snapshot()), FuncsOf(picked))
    {
      var workLeft := workLeft0;
      ghost var jobs := FuncsOf(picked);
      ghost var k := 0;
      while |workLeft| > 0
        invariant 0 <= k <= |picked| && workLeft == Reverse(picked[k..])
        invariant RunAll(old(ctx.Snapshot()), jobs) == RunAll(ctx.Snapshot(), jobs[k..])
        decreases |workLeft|
      {
        var next := workLeft[|workLeft| - 1];
        assert next == picked[k] && jobs[k] == next.func;
        workLeft := workLeft[..|workLeft| - 1];
        assert workLeft == Reverse(picked[k + 1..]);
        var out := ctx.Invoke(next.func, NoArg);
        assert jobs[k..][0] == jobs[k] && jobs[k..][1..] == jobs[k + 1..];
        if out.Failure? {
          return Failure(out.error);
        }
        k := k + 1;
      }
      assert jobs[k..] == [];
      return Success(());
    }

    /** `showTestList(shower)`: the names of the registered tests, one line
        each, in run order; a failed sort throws before anything is shown. */
    method ShowTestList() returns (r: Result<seq<string>>)
      ensures BuildGraph(registry.entries).Failure? ==> r == Failure(BuildGraph(registry.entries).error)
      ensures r.Success? <==> BuildGraph(registry.entries).Success? && exists p :: RunOrder(registry.entries, p)
      ensures r.Success? ==> exists p :: (RunOrder(registry.entries, p)
        && Roots(registry.entries, |registry.entries|) <= p
        && r.value == NamesOf(EntriesAt(registry.entries, p)))
      ensures r.Success? ==>
        var plan := FifoPlan(BuildGraph(registry.entries).value, |registry.entries|).0;
        RunOrder(registry.entries, plan) && r.value == NamesOf(EntriesAt(registry.entries, plan))
    {
      var es := registry.entries;
      var sorted := CreateRunnerList(es);
      if sorted.Failure? {
        return Failure(sorted.error);
      }
      var p := sorted.value;
      var shown: seq<string> := [];
      var i := 0;
      while i < |p|
        invariant 0 <= i <= |p|
        invariant shown == NamesOf(EntriesAt(es, p[..i]))
      {
        shown := shown + [es[p[i]].name];
        i := i + 1;
      }
      assert p[..|p|] == p;
      return Success(shown);
    }
  }

  /** `new TestMain(registry)`: puts the registered tests in run order
      (throwing as the sort throws) and makes a fresh root context;
      `answers` is what the services behind the resource managers will
      answer during the run. */
  method NewTestMain(registry: TestRegistry, answers: seq<Answer>) returns (r: Result<TestMain>)
    ensures BuildGraph(registry.entries).Failure? ==> r == Failure(BuildGraph(registry.entries).error)
    ensures r.Success? <==> BuildGraph(registry.entries).Success? && exists p :: RunOrder(registry.entries, p)
    ensures r.Success? ==> fresh(r.value) && fresh(r.value.ctx) && r.value.registry == registry
    ensures r.Success? ==> r.value.ctx.Snapshot() == Config([], [], [], 0, [], [], answers)
    ensures r.Success? ==> exists p :: RunOrder(registry.entries, p) && r.value.list == EntriesAt(registry.entries, p)
    ensures r.Success? ==>
      var plan := FifoPlan(BuildGraph(registry.entries).value, |registry.entries|).0;
      RunOrder(registry.entries, plan) && r.value.list == EntriesAt(registry.entries, plan)
  {
    var sorted := CreateRunnerList(registry.entries);
    if sorted.Failure? {
      return Failure(sorted.error);
    }
    var m := new TestMain(registry, EntriesAt(registry.entries, sorted.value), answers);
    return Success(m);
  }
}

=== FILE: sorting.dfy ===
/**
 * The run order of the registered tests (`createRunnerList`).
 *
 * Each entry's `dependsOn` tokens are turned into edges between entries,
 * and every `Last` entry is made to wait for every other entry. A Kahn
 * topological sort with a first-in first-out ready queue then produces the
 * order. Entries are referred to by their position in the registration
 * list; each item's `dependsOn` and `dependents` lists are lists of
 * positions and keep the repetitions the source's lists have.
 */
module Sorting {
  import opened Base
  import opened Registry

  // ---------------------------------------------------------------------
  // The relation the edges encode

  /** Token `dep` of entry `i` names entry `j`: never the entry itself; the
      token equals `j`'s suite or is a prefix of its name (`startsWith`). */
  predicate Match(es: seq<TestEntry>, i: nat, j: nat, dep: string)
    requires i < |es| && j < |es|
  {
    j != i && (dep == es[j].suite || dep <= es[j].name)
  }

  /** Token number `k` of entry `i` names entry `j`. */
  predicate TokenMatch(es: seq<TestEntry>, i: nat, k: nat, j: nat)
    requires i < |es| && j < |es|
  {
    k < |es[i].dependsOn| && Match(es, i, j, es[i].dependsOn[k])
  }

  /**
   * Entry `b` must run before entry `a`:
   *   - a token of `a` names `b` and `b` is not `Last`, or
   *   - a token of `b` names `a` and `a` is `Last` (the inverted edge), or
   *   - `a` is `Last` and `b` is not.
   */
  predicate Before(es: seq<TestEntry>, b: nat, a: nat)
    requires a < |es| && b < |es|
  {
    || ((exists k :: 0 <= k < |es[a].dependsOn| && TokenMatch(es, a, k, b)) && es[b].priority != Last)
    || ((exists k :: 0 <= k < |es[b].dependsOn| && TokenMatch(es, b, k, a)) && es[a].priority == Last)
    || (es[a].priority == Last && es[b].priority != Last)
  }

  // ---------------------------------------------------------------------
  // The dependency lists

  /** Per item, the positions it waits for and the positions waiting for
      it. */
  datatype Graph = Graph(dependsOn: seq<seq<nat>>, dependents: seq<seq<nat>>)

  /** Both lists have one entry per item and name only items. */
  predicate WellFormed(g: Graph, n: nat) {
    && |g.dependsOn| == n && |g.dependents| == n
    && (forall a, x :: 0 <= a < n && x in g.dependsOn[a] ==> x < n)
    && (forall a, x :: 0 <= a < n && x in g.dependents[a] ==> x < n)
  }

  /** Each time `a` waits for `b`, `b` lists `a` as a dependent once. */
  predicate Paired(g: Graph, n: nat)
    requires WellFormed(g, n)
  {
    forall a, b :: 0 <= a < n && 0 <= b < n ==> multiset(g.dependsOn[a])[b] == multiset(g.dependents[b])[a]
  }

  function Empty(n: nat): (g: Graph)
    ensures WellFormed(g, n) && Paired(g, n)
    ensures forall a :: 0 <= a < n ==> g.dependsOn[a] == [] && g.dependents[a] == []
  {
    Graph(seq(n, _ => []), seq(n, _ => []))
  }

  /** `a` now waits for `b`. */
  function Push(g: Graph, n: nat, a: nat, b: nat): (h: Graph)
    requires WellFormed(g, n) && a < n && b < n
    ensures WellFormed(h, n)
  {
    Graph(g.dependsOn[a := g.dependsOn[a] + [b]], g.dependents[b := g.dependents[b] + [a]])
  }

  /** A push adds exactly the one edge and keeps the lists paired. */
  lemma PushFacts(g: Graph, n: nat, a: nat, b: nat)
    requires WellFormed(g, n) && Paired(g, n) && a < n && b < n
    ensures Paired(Push(g, n, a, b), n)
    ensures forall w, z :: 0 <= w < n ==> (z in Push(g, n, a, b).dependsOn[w] <==> z in g.dependsOn[w] || (w == a && z == b))
  {
    var h := Push(g, n, a, b);
    forall x, y | 0 <= x < n && 0 <= y < n
      ensures multiset(h.dependsOn[x])[y] == multiset(h.dependents[y])[x]
    {
    }
  }

  /** The source's `dependsOn(a, b)`: `a` waits for `b`, unless `b` is
      `Last`, in which case `b` waits for `a`. */
  function Link(es: seq<TestEntry>, g: Graph, a: nat, b: nat): (h: Graph)
    requires WellFormed(g, |es|) && a < |es| && b < |es|
    ensures WellFormed(h, |es|)
  {
    if es[b].priority != Last then Push(g, |es|, a, b) else Push(g, |es|, b, a)
  }

  /** The edge `Link(a, b)` adds, as "`y` waits for `x`". */
  predicate LinkEdge(es: seq<TestEntry>, a: nat, b: nat, x: nat, y: nat)
    requires a < |es| && b < |es|
  {
    if es[b].priority != Last then y == a && x == b else y == b && x == a
  }

  /** Matching token `dep` of entry `i` against the entries from `j` on,
      linking each match; `found` records whether any matched. */
  function ScanCandidates(es: seq<TestEntry>, g: Graph, i: nat, dep: string, j: nat, found: bool): (r: (Graph, bool))
    requires WellFormed(g, |es|) && i < |es| && j <= |es|
    ensures WellFormed(r.0, |es|)
    decreases |es| - j
  {
    if j == |es| then (g, found)
    else if Match(es, i, j, dep) then ScanCandidates(es, Link(es, g, i, j), i, dep, j + 1, true)
    else ScanCandidates(es, g, i, dep, j + 1, found)
  }

  function NotFound(name: string, dep: string): string {
    "Error: test \"" + name + "\" has a dependency \"" + dep + "\" which was not found."
  }

  /** The tokens of entry `i` from number `k` on; the first that names no
      entry throws. */
  function ScanTokens(es: seq<TestEntry>, g: Graph, i: nat, k: nat): (r: Result<Graph>)
    requires WellFormed(g, |es|) && i < |es| && k <= |es[i].dependsOn|
    ensures r.Success? ==> WellFormed(r.value, |es|)
    decreases |es[i].dependsOn| - k
  {
    if k == |es[i].dependsOn| then Success(g)
    else
      var (g1, found) := ScanCandidates(es, g, i, es[i].dependsOn[k], 0, false);
      if !found then Failure(NotFound(es[i].name, es[i].dependsOn[k]))
      else ScanTokens(es, g1, i, k + 1)
  }

  /** For a `Last` entry `i`: links it to every entry from `j` on that is
      not `Last`. */
  function LinkLast(es: seq<TestEntry>, g: Graph, i: nat, j: nat): (h: Graph)
    requires WellFormed(g, |es|) && i < |es| && j <= |es|
    ensures WellFormed(h, |es|)
    decreases |es| - j
  {
    if j == |es| then g
    else if es[j].priority != Last then LinkLast(es, Link(es, g, i, j), i, j + 1)
    else LinkLast(es, g, i, j + 1)
  }

  /** The edge-building loop from entry `i` on. */
  function BuildFrom(es: seq<TestEntry>, g: Graph, i: nat): (r: Result<Graph>)
    requires WellFormed(g, |es|) && i <= |es|
    ensures r.Success? ==> WellFormed(r.value, |es|)
    decreases |es| - i
  {
    if i == |es| then Success(g)
    else match ScanTokens(es, g, i, 0)
      case Failure(e) => Failure(e)
      case Success(g1) =>
        var g2 := if es[i].priority == Last then LinkLast(es, g1, i, 0) else g1;
        BuildFrom(es, g2, i + 1)
  }

  function BuildGraph(es: seq<TestEntry>): (r: Result<Graph>)
    ensures r.Success? ==> WellFormed(r.value, |es|)
  {
    BuildFrom(es, Empty(|es|), 0)
  }

  // ---------------------------------------------------------------------
  // What each stage of the edge construction adds

  /** Token number `t` of entry `i` names no entry at all. */
  predicate Unmatched(es: seq<TestEntry>, i: nat, t: nat)
    requires i < |es| && t < |es[i].dependsOn|
  {
    forall x :: 0 <= x < |es| ==> !Match(es, i, x, es[i].dependsOn[t])
  }

  /** `t` is the first token of entry `i`, from number `k` on, that names
      no entry. */
  predicate FirstUnmatched(es: seq<TestEntry>, i: nat, k: nat, t: nat)
    requires i < |es|
  {
    && k <= t < |es[i].dependsOn|
    && Unmatched(es, i, t)
    && forall u :: k <= u < t ==> !Unmatched(es, i, u)
  }

  /** Every token of entry `i` names some entry. */
  predicate AllMatched(es: seq<TestEntry>, i: nat)
    requires i < |es|
  {
    forall t :: 0 <= t < |es[i].dependsOn| ==> !Unmatched(es, i, t)
  }

  /** The edge "`w` waits for `z`" that token `dep` of entry `i` yields
      through a candidate numbered `j` or later. */
  predicate CandEdge(es: seq<TestEntry>, i: nat, dep: string, j: nat, w: nat, z: nat)
    requires i < |es| && w < |es| && z < |es|
  {
    || (w == i && j <= z && Match(es, i, z, dep) && es[z].priority != Last)
    || (z == i && j <= w && Match(es, i, w, dep) && es[w].priority == Last)
  }

  /** The edge "`w` waits for `z`" that the tokens of entry `i` numbered
      `k` or later yield. */
  predicate TokEdge(es: seq<TestEntry>, i: nat, k: nat, w: nat, z: nat)
    requires i < |es| && w < |es| && z < |es|
  {
    || (w == i && es[z].priority != Last && exists t :: k <= t < |es[i].dependsOn| && TokenMatch(es, i, t, z))
    || (z == i && es[w].priority == Last && exists t :: k <= t < |es[i].dependsOn| && TokenMatch(es, i, t, w))
  }

  /** The edge "`w` waits for `z`" that the entries numbered `i` or later
      yield, by their tokens or by the `Last` rule. */
  predicate EdgeFrom(es: seq<TestEntry>, i: nat, w: nat, z: nat)
    requires w < |es| && z < |es|
  {
    || (i <= w && es[z].priority != Last && exists t :: 0 <= t < |es[w].dependsOn| && TokenMatch(es, w, t, z))
    || (i <= z && es[w].priority == Last && exists t :: 0 <= t < |es[z].dependsOn| && TokenMatch(es, z, t, w))
    || (i <= w && es[w].priority == Last && es[z].priority != Last)
  }

  lemma {:induction false} ScanCandidatesEdges(es: seq<TestEntry>, g: Graph, i: nat, dep: string, j: nat, found: bool)
    requires WellFormed(g, |es|) && Paired(g, |es|) && i < |es| && j <= |es|
    ensures Paired(ScanCandidates(es, g, i, dep, j, found).0, |es|)
    ensures ScanCandidates(es, g, i, dep, j, found).1 <==> found || exists x :: j <= x < |es| && Match(es, i, x, dep)
    ensures forall w, z :: 0 <= w < |es| && 0 <= z < |es| ==>
      (z in ScanCandidates(es, g, i, dep, j, found).0.dependsOn[w] <==> z in g.dependsOn[w] || CandEdge(es, i, dep, j, w, z))
    decreases |es| - j
  {
    if j < |es| {
      if Match(es, i, j, dep) {
        var h := Link(es, g, i, j);
        PushFacts(g, |es|, if es[j].priority != Last then i else j, if es[j].priority != Last then j else i);
        ScanCandidatesEdges(es, h, i, dep, j + 1, true);
      } else {
        ScanCandidatesEdges(es, g, i, dep, j + 1, found);
      }
    }
  }

  lemma {:induction false} ScanTokensEdges(es: seq<TestEntry>, g: Graph, i: nat, k: nat)
    requires WellFormed(g, |es|) && Paired(g, |es|) && i < |es| && k <= |es[i].dependsOn|
    ensures ScanTokens(es, g, i, k).Success? ==> Paired(ScanTokens(es, g, i, k).value, |es|)
    ensures ScanTokens(es, g, i, k).Success? ==> forall w, z :: 0 <= w < |es| && 0 <= z < |es| ==>
      (z in ScanTokens(es, g, i, k).value.dependsOn[w] <==> z in g.dependsOn[w] || TokEdge(es, i, k, w, z))
    ensures ScanTokens(es, g, i, k).Failure? <==> exists t :: k <= t < |es[i].dependsOn| && Unmatched(es, i, t)
    ensures ScanTokens(es, g, i, k).Failure? ==>
      exists t: nat :: FirstUnmatched(es, i, k, t) && ScanTokens(es, g, i, k).error == NotFound(es[i].name, es[i].dependsOn[t])
    decreases |es[i].dependsOn| - k
  {
    if k < |es[i].dependsOn| {
      var dep := es[i].dependsOn[k];
      ScanCandidatesEdges(es, g, i, dep, 0, false);
      var (g1, found) := ScanCandidates(es, g, i, dep, 0, false);
      if found {
        ScanTokensEdges(es, g1, i, k + 1);
        var r := ScanTokens(es, g1, i, k + 1);
        assert ScanTokens(es, g, i, k) == r;
        if r.Success? {
          forall w, z | 0 <= w < |es| && 0 <= z < |es|
            ensures z in r.value.dependsOn[w] <==> z in g.dependsOn[w] || TokEdge(es, i, k, w, z)
          {
            if CandEdge(es, i, dep, 0, w, z) {
              if w == i && Match(es, i, z, dep) && es[z].priority != Last {
                assert TokenMatch(es, i, k, z);
              } else {
                assert TokenMatch(es, i, k, w);
              }
            }
            if TokEdge(es, i, k, w, z) && !TokEdge(es, i, k + 1, w, z) {
              if w == i && es[z].priority != Last && exists t :: k <= t < |es[i].dependsOn| && TokenMatch(es, i, t, z) {
                var t :| k <= t < |es[i].dependsOn| && TokenMatch(es, i, t, z);
                assert t == k;
              } else {
                var t :| k <= t < |es[i].dependsOn| && TokenMatch(es, i, t, w);
                assert t == k;
              }
            }
          }
        } else {
          var t: nat :| FirstUnmatched(es, i, k + 1, t) && r.error == NotFound(es[i].name, es[i].dependsOn[t]);
          assert FirstUnmatched(es, i, k, t);
        }
      } else {
        assert Unmatched(es, i, k);
        assert FirstUnmatched(es, i, k, k);
      }
    }
  }

  lemma {:induction false} LinkLastPaired(es: seq<TestEntry>, g: Graph, i: nat, j: nat)
    requires WellFormed(g, |es|) && Paired(g, |es|) && i < |es| && j <= |es|
    ensures Paired(LinkLast(es, g, i, j), |es|)
    decreases |es| - j
  {
    if j < |es| {
      if es[j].priority != Last {
        PushFacts(g, |es|, i, j);
        LinkLastPaired(es, Link(es, g, i, j), i, j + 1);
      } else {
        LinkLastPaired(es, g, i, j + 1);
      }
    }
  }

  /** The `Last` rule makes entry `i` wait for every entry from `j` on that
      is not `Last`, and adds nothing else. */
  lemma {:induction false} LinkLastHas(es: seq<TestEntry>, g: Graph, i: nat, j: nat, w: nat, z: nat)
    requires WellFormed(g, |es|) && i < |es| && j <= |es| && w < |es| && z < |es|
    ensures z in LinkLast(es, g, i, j).dependsOn[w] <==> z in g.dependsOn[w] || (w == i && j <= z && es[z].priority != Last)
    decreases |es| - j
  {
    if j < |es| {
      if es[j].priority != Last {
        var h := Link(es, g, i, j);
        assert h.dependsOn[w] == if w == i then g.dependsOn[i] + [j] else g.dependsOn[w];
        LinkLastHas(es, h, i, j + 1, w, z);
      } else {
        LinkLastHas(es, g, i, j + 1, w, z);
      }
    }
  }

  lemma {:induction false} BuildFromEdges(es: seq<TestEntry>, g: Graph, i: nat)
    requires WellFormed(g, |es|) && Paired(g, |es|) && i <= |es|
    ensures BuildFrom(es, g, i).Success? ==> Paired(BuildFrom(es, g, i).value, |es|)
    ensures BuildFrom(es, g, i).Success? ==> forall w, z :: 0 <= w < |es| && 0 <= z < |es| ==>
      (z in BuildFrom(es, g, i).value.dependsOn[w] <==> z in g.dependsOn[w] || EdgeFrom(es, i, w, z))
    decreases |es| - i
  {
    if i < |es| {
      ScanTokensEdges(es, g, i, 0);
      match ScanTokens(es, g, i, 0)
      case Failure(_) =>
      case Success(g1) =>
        var g2 := if es[i].priority == Last then LinkLast(es, g1, i, 0) else g1;
        if es[i].priority == Last {
          LinkLastPaired(es, g1, i, 0);
        }
        BuildFromEdges(es, g2, i + 1);
        var r := BuildFrom(es, g2, i + 1);
        assert BuildFrom(es, g, i) == r;
        if r.Success? {
          forall w, z | 0 <= w < |es| && 0 <= z < |es|
            ensures z in r.value.dependsOn[w] <==> z in g.dependsOn[w] || EdgeFrom(es, i, w, z)
          {
            if es[i].priority == Last {
              LinkLastHas(es, g1, i, 0, w, z);
            }
            EdgeFromStep(es, i, w, z);
          }
        }
    }
  }

  /** The construction fails exactly when some token from entry `i` on
      names no entry, and the error names the first such token. */
  lemma {:induction false} BuildFromFailure(es: seq<TestEntry>, g: Graph, i: nat)
    requires WellFormed(g, |es|) && Paired(g, |es|) && i <= |es|
    ensures BuildFrom(es, g, i).Failure? <==>
      exists a, t :: i <= a < |es| && 0 <= t < |es[a].dependsOn| && Unmatched(es, a, t)
    ensures BuildFrom(es, g, i).Failure? ==>
      exists a: nat, t: nat :: i <= a < |es| && FirstUnmatched(es, a, 0, t)
        && (forall b :: i <= b < a ==> AllMatched(es, b))
        && BuildFrom(es, g, i).error == NotFound(es[a].name, es[a].dependsOn[t])
    decreases |es| - i
  {
    if i < |es| {
      ScanTokensEdges(es, g, i, 0);
      match ScanTokens(es, g, i, 0)
      case Failure(e) =>
        var t: nat :| FirstUnmatched(es, i, 0, t) && e == NotFound(es[i].name, es[i].dependsOn[t]);
      case Success(g1) =>
        var g2 := if es[i].priority == Last then LinkLast(es, g1, i, 0) else g1;
        if es[i].priority == Last {
          LinkLastPaired(es, g1, i, 0);
        }
        assert AllMatched(es, i);
        BuildFromFailure(es, g2, i + 1);
        var r := BuildFrom(es, g2, i + 1);
        assert BuildFrom(es, g, i) == r;
        if r.Failure? {
          var a: nat, t: nat :| i + 1 <= a < |es| && FirstUnmatched(es, a, 0, t)
            && (forall b :: i + 1 <= b < a ==> AllMatched(es, b))
            && r.error == NotFound(es[a].name, es[a].dependsOn[t]);
          assert forall b :: i <= b < a ==> AllMatched(es, b);
        }
    }
  }

  /** The edges from entry `i` on are those of `i`'s own tokens, its
      `Last` rule, and the edges from `i + 1` on. */
  lemma EdgeFromStep(es: seq<TestEntry>, i: nat, w: nat, z: nat)
    requires i < |es| && w < |es| && z < |es|
    ensures EdgeFrom(es, i, w, z) <==>
      TokEdge(es, i, 0, w, z) || (w == i && es[i].priority == Last && es[z].priority != Last) || EdgeFrom(es, i + 1, w, z)
  {
  }

  /** On success the lists hold exactly the edges of `Before`, each paired
      with its dependent entry; the construction fails exactly when some
      token names no entry, and the error names the first such token. */
  lemma BuildGraphMeaning(es: seq<TestEntry>)
    ensures BuildGraph(es).Success? ==> Paired(BuildGraph(es).value, |es|)
    ensures BuildGraph(es).Success? ==> forall a, b :: 0 <= a < |es| && 0 <= b < |es| ==>
      (b in BuildGraph(es).value.dependsOn[a] <==> Before(es, b, a))
    ensures BuildGraph(es).Failure? <==>
      exists a, t :: 0 <= a < |es| && 0 <= t < |es[a].dependsOn| && Unmatched(es, a, t)
    ensures BuildGraph(es).Failure? ==>
      exists a: nat, t: nat :: a < |es| && FirstUnmatched(es, a, 0, t)
        && (forall b :: 0 <= b < a ==> AllMatched(es, b))
        && BuildGraph(es).error == NotFound(es[a].name, es[a].dependsOn[t])
  {
    BuildFromEdges(es, Empty(|es|), 0);
    BuildFromFailure(es, Empty(|es|), 0);
  }

  // ---------------------------------------------------------------------
  // The edge-building loops

  /** The first phase of `createRunnerList`: every item starts with empty
      lists; each token of each entry is matched against every other entry
      and linked, and throws when it names none; a `Last` entry is then
      linked to every entry that is not `Last`. */
  method BuildEdges(es: seq<TestEntry>) returns (r: Result<Graph>)
    ensures r == BuildGraph(es)
  {
    var n := |es|;
    var g := Empty(n);
    var index := 0;
    while index < n
      invariant index <= n && WellFormed(g, n)
      invariant BuildFrom(es, g, index) == BuildGraph(es)
    {
      ghost var atEntry := g;
      var k := 0;
      while k < |es[index].dependsOn|
        invariant k <= |es[index].dependsOn| && WellFormed(g, n)
        invariant ScanTokens(es, g, index, k) == ScanTokens(es, atEntry, index, 0)
      {
        var dep := es[index].dependsOn[k];
        ghost var atToken := g;
        var found := false;
        var index2 := 0;
        while index2 < n
          invariant index2 <= n && WellFormed(g, n)
          invariant ScanCandidates(es, g, index, dep, index2, found) == ScanCandidates(es, atToken, index, dep, 0, false)
        {
          if index2 != index && (dep == es[index2].suite || dep <= es[index2].name) {
            found := true;
            g := Link(es, g, index, index2);
          }
          index2 := index2 + 1;
        }
        if !found {
          return Failure(NotFound(es[index].name, dep));
        }
        k := k + 1;
      }
      if es[index].priority == Last {
        ghost var atLast := g;
        var index2 := 0;
        while index2 < n
          invariant index2 <= n && WellFormed(g, n)
          invariant LinkLast(es, g, index, index2) == LinkLast(es, atLast, index, 0)
        {
          if es[index2].priority != Last {
            g := Link(es, g, index, index2);
          }
          index2 := index2 + 1;
        }
      }
      index := index + 1;
    }
    return Success(g);
  }

  // ---------------------------------------------------------------------
  // List helpers of the sort

  /** No position repeats an item. */
  predicate DistinctItems(s: seq<nat>) {
    forall i, j :: 0 <= i < j < |s| ==> s[i] != s[j]
  }

  /** Every item is a position below `n`. */
  predicate Below(s: seq<nat>, n: nat) {
    forall i :: 0 <= i < |s| ==> s[i] < n
  }

  /** A repetition-free list of positions below `n` has at most `n`
      items, and exactly `n` when it holds every position below `n`. */
  lemma {:induction false} DistinctBelow(s: seq<nat>, n: nat)
    requires DistinctItems(s) && Below(s, n)
    ensures |s| <= n
    ensures (forall x: nat :: x < n ==> x in s) ==> |s| == n
    decreases n
  {
    if s == [] {
      assert n > 0 ==> 0 !in s;
    } else if n - 1 in s {
      var k :| 0 <= k < |s| && s[k] == n - 1;
      var t := RemoveTop(s, n, k);
      DistinctBelow(t, n - 1);
      if forall x: nat :: x < n ==> x in s {
        assert forall x: nat :: x < n - 1 ==> x in t;
      }
    } else {
      assert s[0] < n;
      assert Below(s, n - 1);
      DistinctBelow(s, n - 1);
    }
  }

  /** Taking the top position `n - 1` out of a repetition-free list below
      `n` leaves one below `n - 1` that still holds every other item. */
  lemma RemoveTop(s: seq<nat>, n: nat, k: nat) returns (t: seq<nat>)
    requires DistinctItems(s) && Below(s, n)
    requires 0 < n && k < |s| && s[k] == n - 1
    ensures |t| == |s| - 1 && DistinctItems(t) && Below(t, n - 1)
    ensures forall x :: x in s && x != n - 1 ==> x in t
  {
    t := s[..k] + s[k + 1..];
    assert forall i :: 0 <= i < |t| ==> t[i] == if i < k then s[i] else s[i + 1];
    forall x | x in s && x != n - 1
      ensures x in t
    {
      var m :| 0 <= m < |s| && s[m] == x;
      assert t[if m < k then m else m - 1] == x;
    }
  }

  /** `findIndex(e => e === x)`: the first position holding `x`, or -1. */
  function FindIndex(s: seq<nat>, x: nat): (r: int)
    ensures -1 <= r < |s|
    ensures r == -1 <==> x !in s
    ensures r >= 0 ==> s[r] == x && x !in s[..r]
  {
    if s == [] then -1
    else if s[0] == x then 0
    else
      var k := FindIndex(s[1..], x);
      if k == -1 then -1
      else
        assert s[..k + 1] == [s[0]] + s[1..][..k];
        k + 1
  }

  /** `s.slice(0, i).concat(s.slice(i + 1))`. For `i == -1` the first
      slice is all but the last item and the second is the whole list. */
  function Splice(s: seq<nat>, i: int): seq<nat>
    requires -1 <= i < |s|
  {
    if i == -1 then (if s == [] then [] else s[..|s| - 1]) + s
    else s[..i] + s[i + 1..]
  }

  /** `s` without the items listed in `done`, in order. */
  function Without(s: seq<nat>, done: seq<nat>): (r: seq<nat>)
    ensures forall y :: y in r <==> y in s && y !in done
  {
    if s == [] then []
    else (if s[0] in done then [] else [s[0]]) + Without(s[1..], done)
  }

  /** `s` with its first `k` copies of `x` taken out. */
  function Drop(s: seq<nat>, x: nat, k: nat): seq<nat> {
    if s == [] then []
    else if s[0] == x && k > 0 then Drop(s[1..], x, k - 1)
    else [s[0]] + Drop(s[1..], x, k)
  }

  lemma {:induction false} DropNone(s: seq<nat>, x: nat)
    ensures Drop(s, x, 0) == s
  {
    if s != [] {
      DropNone(s[1..], x);
      assert s == [s[0]] + s[1..];
    }
  }

  /** While copies remain, splicing out the first one found is taking one
      more copy out. */
  lemma {:induction false} DropStep(s: seq<nat>, x: nat, k: nat)
    requires k < multiset(s)[x]
    ensures x in Drop(s, x, k)
    ensures Splice(Drop(s, x, k), FindIndex(Drop(s, x, k), x)) == Drop(s, x, k + 1)
  {
    var h: nat, t: seq<nat> := s[0], s[1..];
    assert multiset(s) == multiset{h} + multiset(t) by { assert s == [h] + t; }
    if h == x && k > 0 {
      DropStep(t, x, k - 1);
      assert Drop(s, x, k) == Drop(t, x, k - 1);
      assert Drop(s, x, k + 1) == Drop(t, x, k);
    } else if h == x {
      assert Drop(s, x, 0) == [x] + t && Drop(s, x, 1) == t by { DropNone(t, x); }
      assert FindIndex([x] + t, x) == 0;
      assert Splice([x] + t, 0) == t;
    } else {
      DropStep(t, x, k);
      var u := Drop(t, x, k);
      assert Drop(s, x, k) == [h] + u;
      assert Drop(s, x, k + 1) == [h] + Drop(t, x, k + 1);
      SpliceOther(u, h, x);
    }
  }

  /** Splicing out the first `x` past a head that is not `x`. */
  lemma SpliceOther(u: seq<nat>, h: nat, x: nat)
    requires h != x && x in u
    ensures FindIndex([h] + u, x) == FindIndex(u, x) + 1
    ensures Splice([h] + u, FindIndex([h] + u, x)) == [h] + Splice(u, FindIndex(u, x))
  {
    var s := [h] + u;
    assert s[0] == h && s[1..] == u;
    var i := FindIndex(u, x);
    assert FindIndex(s, x) == i + 1;
    ConsSlices(h, u, i);
  }

  /** Slicing behind a head. */
  lemma ConsSlices(h: nat, u: seq<nat>, i: nat)
    requires i < |u|
    ensures ([h] + u)[..i + 1] + ([h] + u)[i + 2..] == [h] + (u[..i] + u[i + 1..])
  {
    assert ([h] + u)[..i + 1] == [h] + u[..i];
    assert ([h] + u)[i + 2..] == u[i + 1..];
  }

  /** Leaving out other items keeps the copies of `x`. */
  lemma {:induction false} WithoutCount(s: seq<nat>, done: seq<nat>, x: nat)
    requires x !in done
    ensures multiset(Without(s, done))[x] == multiset(s)[x]
  {
    if s != [] {
      var h: nat, t: seq<nat> := s[0], s[1..];
      WithoutCount(t, done, x);
      assert multiset(s) == multiset{h} + multiset(t) by { assert s == [h] + t; }
      var w := Without(t, done);
      if h in done {
        assert Without(s, done) == w;
      } else {
        assert Without(s, done) == [h] + w;
        assert multiset([h] + w) == multiset{h} + multiset(w);
      }
    }
  }

  /** Taking out every copy of a not-yet-done `x` is marking `x` done. */
  lemma {:induction false} DropAll(s: seq<nat>, done: seq<nat>, x: nat)
    requires x !in done
    ensures Drop(Without(s, done), x, multiset(s)[x]) == Without(s, done + [x])
  {
    if s != [] {
      var h: nat, t: seq<nat> := s[0], s[1..];
      assert s == [h] + t;
      var m: nat := multiset(t)[x];
      DropAll(t, done, x);
      var w := Without(t, done);
      var v := Without(t, done + [x]);
      assert Drop(w, x, m) == v;
      if h in done {
        assert h in done + [x];
        assert Without(s, done) == w;
        assert Without(s, done + [x]) == v;
        assert multiset(s)[x] == m;
      } else if h == x {
        assert h in done + [x];
        assert Without(s, done) == [x] + w;
        assert Without(s, done + [x]) == v;
        assert multiset(s)[x] == m + 1;
        DropHead(w, x, m);
      } else {
        assert h !in done + [x];
        assert Without(s, done) == [h] + w;
        assert Without(s, done + [x]) == [h] + v;
        assert multiset(s)[x] == m;
        DropOther(w, h, x, m);
      }
    }
  }

  lemma DropHead(w: seq<nat>, x: nat, m: nat)
    ensures Drop([x] + w, x, m + 1) == Drop(w, x, m)
  {
    assert ([x] + w)[1..] == w;
  }

  lemma DropOther(w: seq<nat>, h: nat, x: nat, m: nat)
    requires h != x
    ensures Drop([h] + w, x, m) == [h] + Drop(w, x, m)
  {
    assert ([h] + w)[1..] == w;
  }

  // ---------------------------------------------------------------------
  // The topological sort

  /** No item waits for itself. */
  predicate NoSelfLoop(g: Graph, n: nat)
    requires WellFormed(g, n)
  {
    forall a :: 0 <= a < n ==> a !in g.dependsOn[a]
  }

  /** Every item of `order` comes after everything it waits for. */
  predicate Respects(d: seq<seq<nat>>, order: seq<nat>)
    requires Below(order, |d|)
  {
    forall i, b :: 0 <= i < |order| && b in d[order[i]] ==> b in order[..i]
  }

  /** The items that wait for nothing, among the first `k`, in order. */
  function Seeds(d: seq<seq<nat>>, k: nat): (r: seq<nat>)
    requires k <= |d|
    ensures DistinctItems(r) && Below(r, k)
    ensures forall a: nat :: a in r <==> a < k && d[a] == []
  {
    if k == 0 then []
    else Seeds(d, k - 1) + (if d[k - 1] == [] then [k - 1] else [])
  }

  /** Every item's list is its original list without the items of `done`. */
  ghost predicate Remaining(d: seq<seq<nat>>, done: seq<nat>, deps: seq<seq<nat>>) {
    |deps| == |d| && forall a :: 0 <= a < |d| ==> deps[a] == Without(d[a], done)
  }

  /** No item is listed twice among the sorted and the queued ones, and the
      queue holds exactly the unsorted items whose list is empty. */
  ghost predicate Queued(n: nat, sorted: seq<nat>, queue: seq<nat>, deps: seq<seq<nat>>) {
    && |deps| == n
    && DistinctItems(sorted + queue) && Below(sorted + queue, n)
    && (forall a :: 0 <= a < n && a in queue ==> deps[a] == [])
    && (forall a :: 0 <= a < n && a !in sorted && a !in queue ==> deps[a] != [])
  }

  /** The state between two rounds of the sort: `sorted` respects the
      edges, the lists are the original ones without the sorted items, the
      queue holds exactly the unsorted items with nothing left to wait for,
      and the items that waited for nothing were queued first. */
  ghost predicate Round(g: Graph, n: nat, sorted: seq<nat>, queue: seq<nat>, deps: seq<seq<nat>>)
    requires WellFormed(g, n)
  {
    && Below(sorted, n) && Respects(g.dependsOn, sorted)
    && Seeds(g.dependsOn, n) <= sorted + queue
    && Remaining(g.dependsOn, sorted, deps)
    && Queued(n, sorted, queue, deps)
  }

  /** What releasing the just-sorted `x` relies on: `x` is an unsorted
      item that does not wait for itself, `list` is its dependents list,
      paired with the lists of the items that wait for it, and none of
      those is sorted. */
  ghost predicate Ready(d: seq<seq<nat>>, list: seq<nat>, done: seq<nat>, x: nat) {
    && x < |d| && x !in done && x !in d[x] && Below(list, |d|)
    && (forall a :: 0 <= a < |d| ==> multiset(d[a])[x] == multiset(list)[a])
    && (forall a :: 0 <= a < |d| && x in d[a] ==> a !in done)
  }

  /** The lists while `Release` is at entry `j` of `list`: each item's
      list without the items of `done`, and without as many copies of `x`
      as the item occurs among the first `j` entries. */
  ghost function Pending(d: seq<seq<nat>>, list: seq<nat>, done: seq<nat>, x: nat, j: nat): seq<seq<nat>>
    requires j <= |list|
  {
    seq(|d|, a requires 0 <= a < |d| => Drop(Without(d[a], done), x, multiset(list[..j])[a]))
  }

  lemma PendingStep(d: seq<seq<nat>>, list: seq<nat>, done: seq<nat>, x: nat, j: nat)
    requires j < |list| && list[j] < |d|
    ensures Pending(d, list, done, x, j + 1) ==
      Pending(d, list, done, x, j)[list[j] := Drop(Without(d[list[j]], done), x, multiset(list[..j])[list[j]] + 1)]
  {
    var p0, p1 := Pending(d, list, done, x, j), Pending(d, list, done, x, j + 1);
    var q := p0[list[j] := Drop(Without(d[list[j]], done), x, multiset(list[..j])[list[j]] + 1)];
    forall a | 0 <= a < |d|
      ensures p1[a] == q[a]
    {
      PendingItem(d, list, done, x, j, a);
    }
    assert |p1| == |q|;
  }

  /** One item's list after entry `j`: only `list[j]` loses one more copy. */
  lemma PendingItem(d: seq<seq<nat>>, list: seq<nat>, done: seq<nat>, x: nat, j: nat, a: nat)
    requires j < |list| && a < |d|
    ensures Pending(d, list, done, x, j + 1)[a] ==
      Drop(Without(d[a], done), x, multiset(list[..j])[a] + if a == list[j] then 1 else 0)
  {
    assert multiset(list[..j + 1]) == multiset(list[..j]) + multiset{list[j]} by {
      assert list[..j + 1] == list[..j] + [list[j]];
    }
  }

  /** The inner loop of one round: item `x` has just been sorted after
      `done`; for each entry of its dependents list, the first copy of `x`
      is spliced out of that item's list, and the item is queued when its
      list becomes empty. Afterwards the lists are the original ones
      without `done` and `x`, and the queue has only grown. */
  method Release(d: seq<seq<nat>>, list: seq<nat>, ghost done: seq<nat>, x: nat, deps0: seq<seq<nat>>, queue0: seq<nat>)
    returns (deps: seq<seq<nat>>, queue: seq<nat>)
    requires Ready(d, list, done, x) && Remaining(d, done, deps0) && Queued(|d|, done + [x], queue0, deps0)
    ensures Remaining(d, done + [x], deps) && Queued(|d|, done + [x], queue, deps) && queue0 <= queue
    ensures (deps, queue) == ReleaseAll(deps0, queue0, list, x)
  {
    deps, queue := deps0, queue0;
    PendingStart(d, list, done, x, deps0);
    var j := 0;
    while j < |list|
      invariant j <= |list| && queue0 <= queue
      invariant deps == Pending(d, list, done, x, j)
      invariant Queued(|d|, done + [x], queue, deps)
      invariant ReleaseAll(deps, queue, list[j..], x) == ReleaseAll(deps0, queue0, list, x)
    {
      ReleaseAllStep(deps, queue, list, j, x);
      deps, queue := ReleaseOne(d, list, done, x, j, deps, queue);
      j := j + 1;
    }
    PendingEnd(d, list, done, x);
  }

  lemma PendingStart(d: seq<seq<nat>>, list: seq<nat>, done: seq<nat>, x: nat, deps0: seq<seq<nat>>)
    requires Remaining(d, done, deps0)
    ensures deps0 == Pending(d, list, done, x, 0)
  {
    forall a | 0 <= a < |d|
      ensures deps0[a] == Pending(d, list, done, x, 0)[a]
    {
      DropNone(Without(d[a], done), x);
    }
  }

  lemma PendingEnd(d: seq<seq<nat>>, list: seq<nat>, done: seq<nat>, x: nat)
    requires x !in done
    requires forall a :: 0 <= a < |d| ==> multiset(d[a])[x] == multiset(list)[a]
    ensures Remaining(d, done + [x], Pending(d, list, done, x, |list|))
  {
    assert list[..|list|] == list;
    forall a | 0 <= a < |d|
      ensures Pending(d, list, done, x, |list|)[a] == Without(d[a], done + [x])
    {
      DropAll(d[a], done, x);
    }
  }

  /** One entry of the inner loop: the dependent `list[j]` loses the first
      copy of `x` in its list, and is queued if nothing is left. */
  method ReleaseOne(d: seq<seq<nat>>, list: seq<nat>, ghost done: seq<nat>, x: nat, j: nat,
                    deps0: seq<seq<nat>>, queue0: seq<nat>) returns (deps: seq<seq<nat>>, queue: seq<nat>)
    requires Ready(d, list, done, x) && j < |list|
    requires deps0 == Pending(d, list, done, x, j) && Queued(|d|, done + [x], queue0, deps0)
    ensures deps == Pending(d, list, done, x, j + 1) && Queued(|d|, done + [x], queue, deps) && queue0 <= queue
    ensures (deps, queue) == ReleaseEntry(deps0, queue0, list[j], x)
  {
    var a := list[j];
    StepCount(d, list, done, x, j);
    PendingAdvance(d, list, done, x, j, deps0);
    var idx := FindIndex(deps0[a], x);
    deps := deps0[a := Splice(deps0[a], idx)];
    queue := queue0;
    if deps[a] == [] {
      queue := queue0 + [a];
    }
    QueueKept(done + [x], deps0, queue0, a, deps, queue);
  }

  /** Updating the list of an item that is neither sorted nor queued, and
      queueing it exactly when the list becomes empty, keeps the queue
      facts of a round. */
  lemma QueueKept(sorted: seq<nat>, deps0: seq<seq<nat>>, queue0: seq<nat>, a: nat, deps: seq<seq<nat>>, queue: seq<nat>)
    requires a < |deps0| && a !in sorted && deps0[a] != [] && Queued(|deps0|, sorted, queue0, deps0)
    requires |deps| == |deps0| && forall b :: 0 <= b < |deps0| && b != a ==> deps[b] == deps0[b]
    requires queue == if deps[a] == [] then queue0 + [a] else queue0
    ensures Queued(|deps0|, sorted, queue, deps) && queue0 <= queue
  {
    if deps[a] == [] {
      AppendFresh(sorted, queue0, a, |deps0|);
    }
  }

  /** While copies of `x` remain in the list of `list[j]`, splicing out
      the first one moves the lists on by one entry. */
  lemma PendingAdvance(d: seq<seq<nat>>, list: seq<nat>, done: seq<nat>, x: nat, j: nat, deps0: seq<seq<nat>>)
    requires j < |list| && list[j] < |d| && deps0 == Pending(d, list, done, x, j)
    requires multiset(list[..j])[list[j]] < multiset(Without(d[list[j]], done))[x]
    ensures x in deps0[list[j]]
    ensures deps0[list[j] := Splice(deps0[list[j]], FindIndex(deps0[list[j]], x))] == Pending(d, list, done, x, j + 1)
  {
    var a := list[j];
    var c := multiset(list[..j])[a];
    DropStep(Without(d[a], done), x, c);
    PendingStep(d, list, done, x, j);
    assert deps0[a] == Drop(Without(d[a], done), x, c);
    var v := Splice(deps0[a], FindIndex(deps0[a], x));
    assert v == Drop(Without(d[a], done), x, c + 1);
    assert deps0[a := v] == Pending(d, list, done, x, j)[a := Drop(Without(d[a], done), x, c + 1)];
  }

  /** Appending an item that is neither sorted nor queued keeps the list
      of both free of repetitions. */
  lemma AppendFresh(sorted: seq<nat>, queue: seq<nat>, a: nat, n: nat)
    requires DistinctItems(sorted + queue) && Below(sorted + queue, n)
    requires a !in sorted && a !in queue && a < n
    ensures DistinctItems(sorted + (queue + [a])) && Below(sorted + (queue + [a]), n)
  {
    assert sorted + (queue + [a]) == (sorted + queue) + [a];
  }

  /** The entry `list[j]` is a dependent other than `x`, not yet sorted,
      and fewer of its copies precede `j` than `x` has in its list. */
  lemma StepCount(d: seq<seq<nat>>, list: seq<nat>, done: seq<nat>, x: nat, j: nat)
    requires Ready(d, list, done, x) && j < |list|
    ensures list[j] < |d| && list[j] != x && list[j] !in done
    ensures multiset(list[..j])[list[j]] < multiset(Without(d[list[j]], done))[x]
  {
    var a := list[j];
    assert list == list[..j] + [a] + list[j + 1..];
    assert multiset(list)[a] == multiset(list[..j])[a] + 1 + multiset(list[j + 1..])[a];
    WithoutCount(d[a], done, x);
    assert x in d[a];
  }

  /** Leaving out nothing keeps the list. */
  lemma {:induction false} WithoutNothing(s: seq<nat>)
    ensures Without(s, []) == s
  {
    if s != [] {
      WithoutNothing(s[1..]);
      assert s == [s[0]] + s[1..];
    }
  }

  /** The first round: nothing sorted, the queue holding the items that
      wait for nothing, the lists as built. */
  lemma RoundStart(g: Graph, n: nat, queue: seq<nat>)
    requires WellFormed(g, n) && queue == Seeds(g.dependsOn, n)
    ensures Round(g, n, [], queue, g.dependsOn)
  {
    assert [] + queue == queue;
    forall a | 0 <= a < n
      ensures g.dependsOn[a] == Without(g.dependsOn[a], [])
    {
      WithoutNothing(g.dependsOn[a]);
    }
  }

  /** Taking the head `x` of the queue: `x` is an unsorted item with an
      empty list, and the rest of the queue is the queue of `done + [x]`. */
  lemma QueueTake(n: nat, done: seq<nat>, queue0: seq<nat>, deps: seq<seq<nat>>)
    requires queue0 != [] && Queued(n, done, queue0, deps)
    ensures var x, queue := queue0[0], queue0[1..];
      && x < n && x !in done && |done| < n && deps[x] == []
      && Queued(n, done + [x], queue, deps)
  {
    var x, queue := queue0[0], queue0[1..];
    var all := done + queue0;
    assert all == done + [x] + queue;
    assert all[|done|] == x;
    assert x !in done by {
      forall i | 0 <= i < |done|
        ensures done[i] != x
      {
        assert all[i] == done[i];
      }
    }
    DistinctBelow(all, n);
  }

  /** The queue order survives taking its head. */
  lemma SeedsTake(s: seq<nat>, done: seq<nat>, queue0: seq<nat>)
    requires queue0 != [] && s <= done + queue0
    ensures s <= done + [queue0[0]] + queue0[1..]
  {
    assert done + queue0 == done + [queue0[0]] + queue0[1..];
  }

  /** The head of the queue may be released: see `Ready`. */
  lemma ReadyAt(g: Graph, n: nat, done: seq<nat>, x: nat)
    requires WellFormed(g, n) && Paired(g, n) && NoSelfLoop(g, n)
    requires Below(done, n) && Respects(g.dependsOn, done) && x < n && x !in done
    ensures Ready(g.dependsOn, g.dependents[x], done, x)
  {
    LaterNotDone(g.dependsOn, done, x);
    PairedColumn(g, n, x);
  }

  /** The items waiting for an unsorted item are unsorted. */
  lemma LaterNotDone(d: seq<seq<nat>>, done: seq<nat>, x: nat)
    requires Below(done, |d|) && Respects(d, done) && x !in done
    ensures forall a :: 0 <= a < |d| && x in d[a] ==> a !in done
  {
  }

  /** Item `x` is listed as a dependent of every item as often as that
      item waits for `x`. */
  lemma PairedColumn(g: Graph, n: nat, x: nat)
    requires WellFormed(g, n) && Paired(g, n) && x < n
    ensures Below(g.dependents[x], n)
    ensures forall a :: 0 <= a < n ==> multiset(g.dependsOn[a])[x] == multiset(g.dependents[x])[a]
  {
    assert forall i :: 0 <= i < |g.dependents[x]| ==> g.dependents[x][i] in g.dependents[x];
  }

  /** After `Release`, sorting `x` after `done` is the next round. */
  lemma RoundNext(g: Graph, n: nat, done: seq<nat>, x: nat, queue0: seq<nat>, queue: seq<nat>, deps: seq<seq<nat>>)
    requires WellFormed(g, n) && x < n && Below(done, n) && Respects(g.dependsOn, done)
    requires Without(g.dependsOn[x], done) == [] && Seeds(g.dependsOn, n) <= done + [x] + queue0
    requires Remaining(g.dependsOn, done + [x], deps) && Queued(n, done + [x], queue, deps) && queue0 <= queue
    ensures Round(g, n, done + [x], queue, deps)
  {
    var d := g.dependsOn;
    assert forall b :: b in d[x] ==> b in done;
    RespectsSnoc(d, done, x);
    BelowFront(done + [x], queue, n);
    PrefixGrow(Seeds(d, n), done + [x], queue0, queue);
  }

  lemma BelowFront(s: seq<nat>, t: seq<nat>, n: nat)
    requires Below(s + t, n)
    ensures Below(s, n)
  {
    assert forall i :: 0 <= i < |s| ==> s[i] == (s + t)[i];
  }

  lemma PrefixGrow(p: seq<nat>, s: seq<nat>, t0: seq<nat>, t: seq<nat>)
    requires p <= s + t0 && t0 <= t
    ensures p <= s + t
  {
    assert s + t0 <= s + t;
  }

  /** Appending an item all of whose predecessors are already in the order
      keeps the order respecting the edges. */
  lemma RespectsSnoc(d: seq<seq<nat>>, order: seq<nat>, x: nat)
    requires Below(order, |d|) && x < |d| && Respects(d, order)
    requires forall b :: b in d[x] ==> b in order
    ensures Respects(d, order + [x])
  {
    var o := order + [x];
    forall i, b | 0 <= i < |o| && b in d[o[i]]
      ensures b in o[..i]
    {
      if i < |order| {
        assert o[..i] == order[..i];
      } else {
        assert o[..i] == order;
      }
    }
  }

  /** When the queue runs dry, an item's list is empty exactly when the
      item is sorted. */
  lemma RoundEnd(g: Graph, n: nat, sorted: seq<nat>, deps: seq<seq<nat>>)
    requires WellFormed(g, n) && Round(g, n, sorted, [], deps)
    ensures DistinctItems(sorted) && Below(sorted, n) && Respects(g.dependsOn, sorted)
    ensures Seeds(g.dependsOn, n) <= sorted
    ensures |deps| == n && forall a :: 0 <= a < n ==> deps[a] == Without(g.dependsOn[a], sorted)
    ensures forall a :: 0 <= a < n ==> (deps[a] == [] <==> a in sorted)
  {
    assert sorted + [] == sorted;
    forall a | 0 <= a < n && a in sorted
      ensures deps[a] == []
    {
      var i :| 0 <= i < |sorted| && sorted[i] == a;
      assert forall b :: b in g.dependsOn[a] ==> b in sorted[..i];
      WithoutAll(g.dependsOn[a], sorted);
    }
  }

  /** Leaving out a superset of the items leaves nothing. */
  lemma {:induction false} WithoutAll(s: seq<nat>, done: seq<nat>)
    requires forall y :: y in s ==> y in done
    ensures Without(s, done) == []
  {
    if s != [] {
      assert s[0] in done;
      WithoutAll(s[1..], done);
    }
  }

  /** The items that wait for nothing, in position order: the first
      ready queue. */
  method SeedQueue(d: seq<seq<nat>>) returns (queue: seq<nat>)
    ensures queue == Seeds(d, |d|)
  {
    queue := [];
    var a := 0;
    while a < |d|
      invariant a <= |d| && queue == Seeds(d, a)
    {
      if d[a] == [] {
        queue := queue + [a];
      }
      a := a + 1;
    }
  }

  /** The lists of dependents: cleared for the sorted items, as built for
      the others. */
  predicate DependentsLeft(g: Graph, n: nat, sorted: seq<nat>, dependents: seq<seq<nat>>)
    requires WellFormed(g, n)
  {
    && |dependents| == n
    && (forall b :: 0 <= b < n && b !in sorted ==> dependents[b] == g.dependents[b])
    && (forall b :: 0 <= b < n && b in sorted ==> dependents[b] == [])
  }

  /** One round of the sort: the head of the queue is sorted, released
      from the lists of its dependents, and its dependents list cleared. */
  method SortOne(g: Graph, n: nat, sorted0: seq<nat>, queue0: seq<nat>, deps0: seq<seq<nat>>, dependents0: seq<seq<nat>>)
    returns (sorted: seq<nat>, queue: seq<nat>, deps: seq<seq<nat>>, dependents: seq<seq<nat>>)
    requires WellFormed(g, n) && Paired(g, n) && NoSelfLoop(g, n)
    requires queue0 != [] && Round(g, n, sorted0, queue0, deps0) && DependentsLeft(g, n, sorted0, dependents0)
    ensures Round(g, n, sorted, queue, deps) && DependentsLeft(g, n, sorted, dependents)
    ensures sorted == sorted0 + [queue0[0]] && |sorted| <= n
    ensures Fits(dependents0, deps0, queue0)
      && (dependents, sorted, queue, deps) == FifoStep(dependents0, sorted0, queue0, deps0)
  {
    RoundFits(g, n, sorted0, queue0, deps0, dependents0);
    var x := queue0[0];
    QueueTake(n, sorted0, queue0, deps0);
    SeedsTake(Seeds(g.dependsOn, n), sorted0, queue0);
    ReadyAt(g, n, sorted0, x);
    queue := queue0[1..];
    sorted := sorted0 + [x];
    assert dependents0[x] == g.dependents[x];
    deps, queue := Release(g.dependsOn, dependents0[x], sorted0, x, deps0, queue);
    dependents := dependents0[x := []];
    RoundNext(g, n, sorted0, x, queue0[1..], queue, deps);
  }

  /**
   * The sort proper: the items that wait for nothing are queued in
   * position order; then, while the queue is not empty, its head is
   * sorted and released (`SortOne`). Returns the order and the lists as
   * the sort leaves them.
   */
  method Kahn(g: Graph, n: nat) returns (sorted: seq<nat>, deps: seq<seq<nat>>)
    requires WellFormed(g, n) && Paired(g, n) && NoSelfLoop(g, n)
    ensures DistinctItems(sorted) && Below(sorted, n) && Respects(g.dependsOn, sorted)
    ensures Seeds(g.dependsOn, n) <= sorted
    ensures |deps| == n && forall a :: 0 <= a < n ==> deps[a] == Without(g.dependsOn[a], sorted)
    ensures forall a :: 0 <= a < n ==> (deps[a] == [] <==> a in sorted)
    ensures (sorted, deps) == FifoPlan(g, n)
  {
    deps := g.dependsOn;
    var dependents := g.dependents;
    var queue := SeedQueue(deps);
    sorted := [];
    RoundStart(g, n, queue);
    FifoStart(g, n);
    while queue != []
      invariant Round(g, n, sorted, queue, deps) && DependentsLeft(g, n, sorted, dependents)
      invariant |sorted| <= n
      invariant Fits(dependents, deps, queue)
      invariant FifoFrom(dependents, sorted, queue, deps, n - |sorted|) == FifoPlan(g, n)
      decreases n - |sorted|
    {
      DistinctBelow(sorted + queue, n);
      ghost var fuel, dependents0, sorted0, queue0, deps0 := n - |sorted|, dependents, sorted, queue, deps;
      sorted, queue, deps, dependents := SortOne(g, n, sorted, queue, deps, dependents);
      FifoAdvance(dependents0, sorted0, queue0, deps0, dependents, sorted, queue, deps, fuel);
      assert n - |sorted| == fuel - 1;
      assert FifoFrom(dependents0, sorted0, queue0, deps0, fuel) == FifoPlan(g, n);
    }
    RoundEnd(g, n, sorted, deps);
  }

  // ---------------------------------------------------------------------
  // The plan the sort computes, as a function

  /** The shape the plan relies on: one dependents list per item, and
      every queued or listed item is an item. */
  predicate Fits(dependents: seq<seq<nat>>, deps: seq<seq<nat>>, queue: seq<nat>) {
    && |dependents| == |deps| && Below(queue, |deps|)
    && forall b :: 0 <= b < |dependents| ==> Below(dependents[b], |deps|)
  }

  /** One entry of releasing `x`: the first copy of `x` is spliced out of
      the list of `a`, and `a` joins the back of the queue when its list
      becomes empty. */
  function ReleaseEntry(deps: seq<seq<nat>>, queue: seq<nat>, a: nat, x: nat): (r: (seq<seq<nat>>, seq<nat>))
    requires a < |deps|
    ensures |r.0| == |deps| && forall b :: 0 <= b < |deps| && b != a ==> r.0[b] == deps[b]
    ensures r.1 == queue || (r.1 == queue + [a] && r.0[a] == [])
  {
    var left := Splice(deps[a], FindIndex(deps[a], x));
    (deps[a := left], if left == [] then queue + [a] else queue)
  }

  /** Releasing `x` from every entry of its dependents list, front to back. */
  function ReleaseAll(deps: seq<seq<nat>>, queue: seq<nat>, list: seq<nat>, x: nat): (r: (seq<seq<nat>>, seq<nat>))
    requires Below(list, |deps|)
    ensures |r.0| == |deps| && queue <= r.1 && Below(r.1[|queue|..], |deps|)
    decreases |list|
  {
    if list == [] then (deps, queue)
    else
      var (d1, q1) := ReleaseEntry(deps, queue, list[0], x);
      ReleaseAll(d1, q1, list[1..], x)
  }

  lemma ReleaseAllStep(deps: seq<seq<nat>>, queue: seq<nat>, list: seq<nat>, j: nat, x: nat)
    requires j < |list| && Below(list, |deps|)
    ensures ReleaseAll(deps, queue, list[j..], x)
      == var (d1, q1) := ReleaseEntry(deps, queue, list[j], x); ReleaseAll(d1, q1, list[j + 1..], x)
  {
    assert list[j..][1..] == list[j + 1..];
  }

  /** One round: the head of the queue is appended to the order, released,
      and its dependents list cleared. */
  function FifoStep(dependents: seq<seq<nat>>, sorted: seq<nat>, queue: seq<nat>, deps: seq<seq<nat>>):
    (r: (seq<seq<nat>>, seq<nat>, seq<nat>, seq<seq<nat>>))
    requires Fits(dependents, deps, queue) && queue != []
    ensures Fits(r.0, r.3, r.2) && r.1 == sorted + [queue[0]]
  {
    var x := queue[0];
    var (d1, q1) := ReleaseAll(deps, queue[1..], dependents[x], x);
    assert Below(q1, |deps|) by {
      forall i | 0 <= i < |q1|
        ensures q1[i] < |deps|
      {
        if i >= |queue| - 1 {
          assert q1[i] == q1[|queue| - 1..][i - (|queue| - 1)];
        }
      }
    }
    (dependents[x := []], sorted + [x], q1, d1)
  }

  /** Rounds until the queue is empty, at most `fuel` of them: the order
      and the lists left at the end. */
  function FifoFrom(dependents: seq<seq<nat>>, sorted: seq<nat>, queue: seq<nat>, deps: seq<seq<nat>>, fuel: nat):
    (r: (seq<nat>, seq<seq<nat>>))
    requires Fits(dependents, deps, queue)
    ensures sorted <= r.0 && |r.0| <= |sorted| + fuel
    decreases fuel
  {
    if fuel == 0 || queue == [] then (sorted, deps)
    else
      var (dependents1, sorted1, queue1, deps1) := FifoStep(dependents, sorted, queue, deps);
      FifoFrom(dependents1, sorted1, queue1, deps1, fuel - 1)
  }

  /** A round with fuel left takes the plan one step on. */
  lemma FifoAdvance(dependents: seq<seq<nat>>, sorted: seq<nat>, queue: seq<nat>, deps: seq<seq<nat>>,
                    dependents1: seq<seq<nat>>, sorted1: seq<nat>, queue1: seq<nat>, deps1: seq<seq<nat>>, fuel: nat)
    requires Fits(dependents, deps, queue) && queue != [] && fuel > 0
    requires (dependents1, sorted1, queue1, deps1) == FifoStep(dependents, sorted, queue, deps)
    ensures Fits(dependents1, deps1, queue1)
    ensures FifoFrom(dependents, sorted, queue, deps, fuel) == FifoFrom(dependents1, sorted1, queue1, deps1, fuel - 1)
  {
  }

  lemma FifoStart(g: Graph, n: nat)
    requires WellFormed(g, n)
    ensures Fits(g.dependents, g.dependsOn, Seeds(g.dependsOn, n))
    ensures FifoPlan(g, n) == FifoFrom(g.dependents, [], Seeds(g.dependsOn, n), g.dependsOn, n)
  {
    FitsStart(g, n);
  }

  /** The first-in-first-out plan: the items that wait for nothing are
      queued in position order, then rounds run until the queue is empty.
      Each round sorts one item, so `n` rounds always suffice. */
  function FifoPlan(g: Graph, n: nat): (r: (seq<nat>, seq<seq<nat>>))
    requires WellFormed(g, n)
    ensures |r.0| <= n
  {
    FitsStart(g, n);
    FifoFrom(g.dependents, [], Seeds(g.dependsOn, n), g.dependsOn, n)
  }

  lemma FitsStart(g: Graph, n: nat)
    requires WellFormed(g, n)
    ensures Fits(g.dependents, g.dependsOn, Seeds(g.dependsOn, n))
  {
    forall b | 0 <= b < n
      ensures Below(g.dependents[b], n)
    {
      forall i | 0 <= i < |g.dependents[b]|
        ensures g.dependents[b][i] < n
      {
        assert g.dependents[b][i] in g.dependents[b];
      }
    }
  }

  /** Between two rounds the plan's shape holds. */
  lemma RoundFits(g: Graph, n: nat, sorted: seq<nat>, queue: seq<nat>, deps: seq<seq<nat>>, dependents: seq<seq<nat>>)
    requires WellFormed(g, n) && Round(g, n, sorted, queue, deps) && DependentsLeft(g, n, sorted, dependents)
    ensures Fits(dependents, deps, queue)
  {
    FitsStart(g, n);
    assert Below(queue, n) by {
      forall i | 0 <= i < |queue|
        ensures queue[i] < n
      {
        assert (sorted + queue)[|sorted| + i] == queue[i];
      }
    }
    forall b | 0 <= b < n
      ensures Below(dependents[b], n)
    {
      if b !in sorted {
        assert dependents[b] == g.dependents[b];
      }
    }
  }

  // ---------------------------------------------------------------------
  // The run order

  /** Every entry of `p` comes after every entry of `p` it must follow. */
  predicate InOrder(es: seq<TestEntry>, p: seq<nat>)
    requires Below(p, |es|)
  {
    forall i, j :: 0 <= i < |p| && 0 <= j < |p| && Before(es, p[j], p[i]) ==> j < i
  }

  /** `p` runs every entry exactly once, each after every entry it must
      follow. */
  predicate RunOrder(es: seq<TestEntry>, p: seq<nat>) {
    && DistinctItems(p) && Below(p, |es|)
    && (forall a :: 0 <= a < |es| ==> a in p)
    && InOrder(es, p)
  }

  /** Entry `a` has to follow no entry. */
  predicate Unconstrained(es: seq<TestEntry>, a: nat)
    requires a < |es|
  {
    forall b :: 0 <= b < |es| ==> !Before(es, b, a)
  }

  /** The first `k` entries that follow no entry, in registration order. */
  function Roots(es: seq<TestEntry>, k: nat): seq<nat>
    requires k <= |es|
  {
    if k == 0 then []
    else Roots(es, k - 1) + (if Unconstrained(es, k - 1) then [k - 1] else [])
  }

  function CycleMessage(a: string, b: string): string {
    "Error sorting tests: a cycle appears to exist between " + a + " and " + b
  }

  /** The decimal digits of `k`, as a template string prints a number. */
  function NatString(k: nat): string
    decreases k
  {
    if k < 10 then ["0123456789"[k]]
    else NatString(k / 10) + ["0123456789"[k % 10]]
  }

  function LengthMessage(got: nat, want: nat): string {
    "Error sorting tests: the final sorted length (" + NatString(got)
      + ") did not equal the original length (" + NatString(want) + ")"
  }

  /** The built lists are paired and never make an entry wait for
      itself. */
  lemma BuiltSortable(es: seq<TestEntry>)
    requires BuildGraph(es).Success?
    ensures Paired(BuildGraph(es).value, |es|) && NoSelfLoop(BuildGraph(es).value, |es|)
  {
    BuildGraphMeaning(es);
    forall a | 0 <= a < |es|
      ensures a !in BuildGraph(es).value.dependsOn[a]
    {
      assert !Before(es, a, a);
    }
  }

  /** An item's built list is empty exactly when its entry follows no
      entry. */
  lemma RootIff(es: seq<TestEntry>, a: nat)
    requires BuildGraph(es).Success? && a < |es|
    ensures BuildGraph(es).value.dependsOn[a] == [] <==> Unconstrained(es, a)
  {
    BuildGraphMeaning(es);
    var d := BuildGraph(es).value.dependsOn;
    if d[a] != [] {
      var b := d[a][0];
      assert b in d[a];
      assert Before(es, b, a);
    }
  }

  /** The first ready queue lists the entries that follow no entry. */
  lemma {:induction false} SeedsAreRoots(es: seq<TestEntry>, k: nat)
    requires BuildGraph(es).Success? && k <= |es|
    ensures Seeds(BuildGraph(es).value.dependsOn, k) == Roots(es, k)
  {
    var d := BuildGraph(es).value.dependsOn;
    BuildGraphMeaning(es);
    forall a | 0 <= a < |es|
      ensures d[a] == [] <==> Unconstrained(es, a)
    {
      RootIff(es, a);
    }
    SeedsMatchRoots(es, d, k);
  }

  /** Lists that are empty exactly at the unconstrained entries seed the
      queue with the roots. */
  lemma {:induction false} SeedsMatchRoots(es: seq<TestEntry>, d: seq<seq<nat>>, k: nat)
    requires |d| == |es| && k <= |es|
    requires forall a :: 0 <= a < |es| ==> (d[a] == [] <==> Unconstrained(es, a))
    ensures Seeds(d, k) == Roots(es, k)
  {
    if k > 0 {
      SeedsMatchRoots(es, d, k - 1);
    }
  }

  /** Over permutations, an order respects the built lists exactly when it
      runs every entry after every entry it must follow. */
  lemma BuiltOrder(es: seq<TestEntry>, p: seq<nat>)
    requires BuildGraph(es).Success?
    requires DistinctItems(p) && Below(p, |es|) && forall a :: 0 <= a < |es| ==> a in p
    ensures RunOrder(es, p) <==> Respects(BuildGraph(es).value.dependsOn, p)
  {
    BuildGraphMeaning(es);
    var d := BuildGraph(es).value.dependsOn;
    if RunOrder(es, p) {
      forall i, b | 0 <= i < |p| && b in d[p[i]]
        ensures b in p[..i]
      {
        assert b < |es|;
        assert b in p;
        var j :| 0 <= j < |p| && p[j] == b;
        assert Before(es, p[j], p[i]);
        assert p[..i][j] == b;
      }
    }
    if Respects(d, p) {
      forall i, j | 0 <= i < |p| && 0 <= j < |p| && Before(es, p[j], p[i])
        ensures j < i
      {
        assert p[j] in p[..i];
        var k :| 0 <= k < i && p[k] == p[j];
      }
    }
  }

  /** If some permutation respects the lists, every item ends up sorted:
      the first unsorted item of the permutation would still wait for an
      unsorted item placed before it. */
  lemma {:induction false} SortedAt(d: seq<seq<nat>>, sorted: seq<nat>, deps: seq<seq<nat>>, p: seq<nat>, i: nat)
    requires Below(p, |d|) && Respects(d, p) && i < |p|
    requires Remaining(d, sorted, deps) && forall a :: 0 <= a < |d| ==> (deps[a] == [] <==> a in sorted)
    ensures p[i] in sorted
    decreases i
  {
    var a := p[i];
    if a !in sorted {
      assert deps[a] != [];
      var b := deps[a][0];
      assert b in Without(d[a], sorted);
      assert b in p[..i];
      var k :| 0 <= k < i && p[k] == b;
      SortedAt(d, sorted, deps, p, k);
      assert false;
    }
  }

  /** When the sort leaves an item unsorted, no order runs every entry
      after every entry it must follow. */
  lemma NoRunOrder(es: seq<TestEntry>, sorted: seq<nat>, deps: seq<seq<nat>>, a: nat)
    requires BuildGraph(es).Success? && a < |es|
    requires Remaining(BuildGraph(es).value.dependsOn, sorted, deps)
    requires forall b :: 0 <= b < |es| ==> (deps[b] == [] <==> b in sorted)
    requires deps[a] != []
    ensures deps[a][0] < |es| && Before(es, deps[a][0], a)
    ensures forall p :: !RunOrder(es, p)
  {
    var d := BuildGraph(es).value.dependsOn;
    assert deps[a][0] in Without(d[a], sorted);
    BuildGraphMeaning(es);
    forall p
      ensures !RunOrder(es, p)
    {
      if RunOrder(es, p) {
        BuiltOrder(es, p);
        assert a in p;
        var i :| 0 <= i < |p| && p[i] == a;
        SortedAt(BuildGraph(es).value.dependsOn, sorted, deps, p, i);
        assert false;
      }
    }
  }

  /** The cycle check: the first item whose list is not empty, if any. */
  method FirstWaiting(deps: seq<seq<nat>>) returns (r: Option<nat>)
    ensures r.Some? ==> r.value < |deps| && deps[r.value] != []
    ensures r.Some? ==> forall b :: 0 <= b < r.value ==> deps[b] == []
    ensures r.None? <==> forall b :: 0 <= b < |deps| ==> deps[b] == []
  {
    var a := 0;
    while a < |deps|
      invariant a <= |deps| && forall b :: 0 <= b < a ==> deps[b] == []
    {
      if deps[a] != [] {
        return Some(a);
      }
      a := a + 1;
    }
    return None;
  }

  /** When no list is left non-empty, every item is sorted once. */
  lemma Drained(sorted: seq<nat>, deps: seq<seq<nat>>, n: nat)
    requires DistinctItems(sorted) && Below(sorted, n) && |deps| == n
    requires forall a :: 0 <= a < n ==> (deps[a] == [] <==> a in sorted)
    requires forall a :: 0 <= a < n ==> deps[a] == []
    ensures |sorted| == n && forall a :: 0 <= a < n ==> a in sorted
  {
    forall a: nat | a < n
      ensures a in sorted
    {
      assert deps[a] == [];
    }
    DistinctBelow(sorted, n);
  }

  /**
   * `createRunnerList(entries)`: builds the lists, sorts, throws on the
   * first entry left waiting, then on a length mismatch (which cannot
   * happen once every entry is sorted). Returns the run order as positions
   * in `es`.
   */
  method CreateRunnerList(es: seq<TestEntry>) returns (r: Result<seq<nat>>)
    ensures BuildGraph(es).Failure? ==> r == Failure(BuildGraph(es).error)
    ensures r.Success? ==> BuildGraph(es).Success? && r.value == FifoPlan(BuildGraph(es).value, |es|).0
    ensures r.Success? ==> RunOrder(es, r.value) && Roots(es, |es|) <= r.value
    ensures BuildGraph(es).Success? ==> (r.Success? <==> exists p :: RunOrder(es, p))
    ensures BuildGraph(es).Success? && r.Failure? ==>
      exists a, b :: 0 <= a < |es| && 0 <= b < |es| && Before(es, b, a)
        && r.error == CycleMessage(es[a].name, es[b].name)
    ensures BuildGraph(es).Success? && r.Failure? ==>
      var deps := FifoPlan(BuildGraph(es).value, |es|).1;
      exists a :: 0 <= a < |deps| && a < |es| && deps[a] != [] && (forall b :: 0 <= b < a ==> deps[b] == [])
        && deps[a][0] < |es| && r.error == CycleMessage(es[a].name, es[deps[a][0]].name)
  {
    var built := BuildEdges(es);
    if built.Failure? {
      return Failure(built.error);
    }
    var g := built.value;
    var n: nat := |es|;
    BuiltSortable(es);
    var sorted, deps := Kahn(g, n);
    var stuck := FirstWaiting(deps);
    if stuck.Some? {
      var a := stuck.value;
      var b := deps[a][0];
      NoRunOrder(es, sorted, deps, a);
      return Failure(CycleMessage(es[a].name, es[b].name));
    }
    Drained(sorted, deps, n);
    var got: nat := |sorted|;
    if got != n {
      assert false;
      return Failure(LengthMessage(got, n));
    }
    BuiltOrder(es, sorted);
    SeedsAreRoots(es, n);
    return Success(sorted);
  }
}
